=== FILE: README.md ===
# Dia da Foto — a verified model of the photo-day back office

Dia da Foto is a Next.js application that schools and photographers use to run a
school photo day. It handles events, participants with six-digit QR codes, batch
photo upload by file name, photo sales with a per-event commission, carts, CSV
import and export, and a dashboard with filters and charts. This project models
the application's state-handling core in Dafny and proves properties of that model.

One Dafny module stands for each source file of the core:

- `EventsStore` models the events context (`EventsContext.tsx`).
  - It is a class `Store` whose `seq` fields are the five collections: events, participants, products, schools and photo sales.
  - Each `add…`, `update…` and `delete…` handler is a method that reassigns those fields.
  - `StoreProperties` proves invariants over the store functions. Examples: every event's `participantsCount` matches its headcount, adding a single participant keeps QR codes unique (a batch may repeat codes, see Left out), and each sale balances.
- `Utils` models `src/lib/utils.ts`: the QR code generator and `parseCSV`.
- `FileNameCode` models the five file-name patterns of `BatchPhotoUpload.tsx` as leftmost-match scans. `BatchPhotoUpload` models the upload loop, and `UploadGrouping` proves how the loop groups photos per participant.
- `Cart` holds the cart logic that the two carts share. `SalesCart` models `ShoppingCart.tsx`, including the checkout that records one sale per unit. `Locator` models the public search page `localizar/page.tsx`.
- `ParticipantsList`, `ExportUtils` and `ParticipantForm` model the participant list (sorting, search, CSV import and export), the CSV export utility and the participant form.
- `Dashboard`, `AdvancedSearch`, `AnalyticsCharts` and `DashboardMetrics` model the dashboard page's event filter, the filter panel with its badges, the chart data and the metric cards.
- `WelcomeModal` models the three-step onboarding tour.
- `Seqs`, `Text` and `Domain` are shared helpers and records:
  - `Seqs`: filters, sums and search over sequences.
  - `Text`: JavaScript whitespace and `trim`, `toLowerCase`, `split`/`join`, and decimal text.
  - `Domain`: the records of the store.

Each handler that the source writes as a state update is a method on a class. Its contract ties the new state to a pure function of the old state. The lemmas prove what that function guarantees.

Inputs that the source takes from the environment are parameters of the model:

- new ids from `Date.now()`
- random draws from `Math.random()`
- sale timestamps, today's date and the ISO timestamp
- the month label of a date, and the date comparison

Two behaviours of the code are kept as written:

- Money is never rounded. The code keeps commission and net amounts as raw products and quotients, so the model uses exact reals.
- `calculateSchoolRevenue` sums every sale of the school, whatever its status. It does not skip cancelled sales.

## Model

| member | source | states |
|---|---|---|
| Utils.GenerateQRCode | src/lib/utils.ts:8-11 | A draw in 0..899999 gives six decimal digits with no leading zero, whose value is 100000 plus the draw |
| Utils.GenerateQRCodeInjective | src/lib/utils.ts:8-11 | Two draws give the same code exactly when they are equal |
| Utils.RowOf | src/lib/utils.ts:30-35 | Every cell read from a line is trimmed and contains no comma |
| Utils.ParseLines | src/lib/utils.ts:29-36 | Keeps at most one row per line, and every kept row has a non-empty name, class and type, all trimmed |
| Utils.ParseLinesIsFilter | src/lib/utils.ts:29-36 | The kept rows are the line-by-line rows filtered by completeness |
| Utils.ParseLinesSpec | src/lib/utils.ts:29-36 | The kept rows are the complete rows of the lines in line order, each as often as it occurs; no complete row is dropped |
| Utils.ParseCSV | src/lib/utils.ts:25-37 | At most one row per line after the header, each complete and trimmed |
| Utils.ParseCSVSpec | src/lib/utils.ts:25-37 | The result is the complete rows of the lines after the first, in order; every complete row is kept |
| Utils.ParseCSVHeaderOnly | src/lib/utils.ts:26-29 | A text whose trimmed form has no line break yields no rows |
| Utils.ParseCSVRoundTrip | src/lib/utils.ts:25-37 | Parsing a header plus comma-joined rows of clean cells gives back exactly those rows |
| Utils.ParseLinesRowLines | src/lib/utils.ts:29-36 | Row lines of clean rows read back as the same rows |
| Utils.RowOfRowLine | src/lib/utils.ts:30-35 | One clean row written as a line reads back as itself |
| EventsStore.FirstFreeFrom | src/app/contexts/EventsContext.tsx:352-358 | The retry loop's code is six digits, at least 100000, and used by no participant |
| EventsStore.FirstFreeCode | src/app/contexts/EventsContext.tsx:352-358 | The generated code is not in use by any existing participant |
| EventsStore.Store.GenerateQRCode | src/app/contexts/EventsContext.tsx:352-358 | The code is the first unused draw: six characters, not in use |
| EventsStore.Store.constructor | src/app/contexts/EventsContext.tsx:331-335 | The store starts from the given collections |
| EventsStore.Store.AddEvent | src/app/contexts/EventsContext.tsx:360-374 | Appends the event with the new id, count 0 and status upcoming; nothing else changes |
| EventsStore.UpdateEvents | src/app/contexts/EventsContext.tsx:376-380 | Same length; entries with the id take the patch, all others are unchanged |
| EventsStore.Store.UpdateEvent | src/app/contexts/EventsContext.tsx:376-380 | Events become UpdateEvents of the old events; other collections are unchanged |
| Seqs.FilterMultiplicity | src/app/contexts/EventsContext.tsx:383 | `filter` keeps each element that passes the test as often as it occurs, and no other |
| EventsStore.WithoutEvent | src/app/contexts/EventsContext.tsx:382-383 | An ordered subsequence holding exactly the events with a different id, each kept as often as it occurs in the input |
| EventsStore.WithoutEventParticipants | src/app/contexts/EventsContext.tsx:384 | An ordered subsequence holding exactly the participants of other events, each kept as often as it occurs in the input |
| EventsStore.Store.DeleteEvent | src/app/contexts/EventsContext.tsx:382-385 | Removes the event and, in cascade, its participants |
| EventsStore.Store.AddParticipant | src/app/contexts/EventsContext.tsx:387-405 | Appends the participant with the new id and an unused code, and raises its event's count by one |
| EventsStore.NewBatch | src/app/contexts/EventsContext.tsx:408-412 | One new participant per input, in order, each with its id and a code unused before the batch |
| EventsStore.Store.AddParticipantsBatch | src/app/contexts/EventsContext.tsx:407-433 | Appends the batch and raises the first member's event count by the batch size; an empty batch changes nothing |
| EventsStore.UpdateParticipants | src/app/contexts/EventsContext.tsx:435-439 | Same length; entries with the id take the patch, all others are unchanged |
| EventsStore.Store.UpdateParticipant | src/app/contexts/EventsContext.tsx:435-439 | Participants become UpdateParticipants of the old list; nothing else changes |
| EventsStore.SetProfilePhoto | src/app/contexts/EventsContext.tsx:441-447 | Only the matching entries' profile photo changes |
| EventsStore.Store.UpdateParticipantProfilePhoto | src/app/contexts/EventsContext.tsx:441-447 | Participants become SetProfilePhoto of the old list; nothing else changes |
| EventsStore.ParticipantById | src/app/contexts/EventsContext.tsx:450 | Some gives the first participant in the list with that id; None exactly when no participant has it |
| EventsStore.WithoutParticipant | src/app/contexts/EventsContext.tsx:452 | An ordered subsequence holding exactly the participants with a different id, each kept as often as it occurs in the input |
| EventsStore.Store.DeleteParticipant | src/app/contexts/EventsContext.tsx:449-459 | An unknown id changes nothing; otherwise the participant is removed and its event's count drops by one |
| EventsStore.AttachPhotos | src/app/contexts/EventsContext.tsx:461-467 | The matching entries get the new photos after their old ones; ids and events are kept; others are unchanged |
| EventsStore.Store.AddPhotosToParticipant | src/app/contexts/EventsContext.tsx:461-467 | Participants become AttachPhotos of the old list; nothing else changes |
| EventsStore.ParticipantsOfEvent | src/app/contexts/EventsContext.tsx:469-471 | An ordered subsequence holding exactly the participants of that event, each kept as often as it occurs in the input |
| EventsStore.Store.GetParticipantsByEvent | src/app/contexts/EventsContext.tsx:469-471 | Holds exactly the store's participants of that event, each kept as often as it occurs in the input |
| EventsStore.Store.AddProduct | src/app/contexts/EventsContext.tsx:473-479 | Appends the product with the new id; nothing else changes |
| EventsStore.UpdateProducts | src/app/contexts/EventsContext.tsx:481-485 | Same length; entries with the id take the patch, all others are unchanged |
| EventsStore.Store.UpdateProduct | src/app/contexts/EventsContext.tsx:481-485 | Products become UpdateProducts of the old list; nothing else changes |
| EventsStore.WithoutProduct | src/app/contexts/EventsContext.tsx:487-489 | An ordered subsequence holding exactly the products with a different id, each kept as often as it occurs in the input |
| EventsStore.Store.DeleteProduct | src/app/contexts/EventsContext.tsx:487-489 | Products become WithoutProduct of the old list; nothing else changes |
| EventsStore.SearchSpec | src/app/contexts/EventsContext.tsx:491-510 | Search: the search keeps, in order, exactly the participants that match the lowercased, trimmed query under the chosen kind, each kept as often as it occurs in the roster. A school search needs the participant's event |
| EventsStore.Store.AddSchool | src/app/contexts/EventsContext.tsx:512-518 | Appends the school with the new id; nothing else changes |
| EventsStore.UpdateSchools | src/app/contexts/EventsContext.tsx:520-524 | Same length; entries with the id take the patch, all others are unchanged |
| EventsStore.Store.UpdateSchool | src/app/contexts/EventsContext.tsx:520-524 | Schools become UpdateSchools of the old list; nothing else changes |
| EventsStore.WithoutSchool | src/app/contexts/EventsContext.tsx:526-528 | An ordered subsequence holding exactly the schools with a different id, each kept as often as it occurs in the input |
| EventsStore.Store.DeleteSchool | src/app/contexts/EventsContext.tsx:526-528 | Schools become WithoutSchool of the old list; nothing else changes |
| EventsStore.SaleFor | src/app/contexts/EventsContext.tsx:542-552 | Commission times 100 equals price times the event's commission percentage; commission plus net equals the price; status is pending |
| EventsStore.Store.AddPhotoSale | src/app/contexts/EventsContext.tsx:534-554 | An unknown event records nothing; otherwise exactly one sale priced from that event is appended |
| EventsStore.UpdateSales | src/app/contexts/EventsContext.tsx:556-560 | Same length; entries with the id take the patch, all others are unchanged |
| EventsStore.Store.UpdatePhotoSale | src/app/contexts/EventsContext.tsx:556-560 | Sales become UpdateSales of the old list; nothing else changes |
| EventsStore.SalesOfSchool | src/app/contexts/EventsContext.tsx:562-564 | An ordered subsequence holding exactly that school's sales, each kept as often as it occurs in the input |
| EventsStore.Store.GetPhotoSalesBySchool | src/app/contexts/EventsContext.tsx:562-564 | Holds exactly the store's sales of that school, each kept as often as it occurs in the input |
| EventsStore.SalesOfEvent | src/app/contexts/EventsContext.tsx:566-568 | An ordered subsequence holding exactly that event's sales, each kept as often as it occurs in the input |
| EventsStore.Store.GetPhotoSalesByEvent | src/app/contexts/EventsContext.tsx:566-568 | Holds exactly the store's sales of that event, each kept as often as it occurs in the input |
| EventsStore.Store.CalculateSchoolRevenue | src/app/contexts/EventsContext.tsx:570-585 | The loop's totals are the sums of price and commission over the school's sales; net is their difference |
| EventsStore.Headcount | src/app/contexts/EventsContext.tsx:394-398 | An event's headcount never exceeds the number of participants |
| EventsStore.BumpCount | src/app/contexts/EventsContext.tsx:394-398 | Only the events with that id change, and only their count, by the given amount |
| EventsStore.EventByIdSpec | src/app/contexts/EventsContext.tsx:536 | Some gives the first event with that id; None exactly when no event has it |
| StoreProperties.HeadcountAppend | src/app/contexts/EventsContext.tsx:414 | Headcounts add up over concatenated lists |
| StoreProperties.HeadcountUniform | src/app/contexts/EventsContext.tsx:416-423 | A batch from one event counts its full size for that event and 0 for others |
| StoreProperties.HeadcountSameEvents | src/app/contexts/EventsContext.tsx:461-467 | Lists with the same events position by position have the same headcounts |
| StoreProperties.AddEventKeepsCounts | src/app/contexts/EventsContext.tsx:360-374 | Adding an event with an unused id keeps every count equal to its headcount |
| StoreProperties.AddParticipantKeepsCounts | src/app/contexts/EventsContext.tsx:387-398 | Adding a participant and bumping its event keeps the counts consistent |
| StoreProperties.AddParticipantKeepsCodesUnique | src/app/contexts/EventsContext.tsx:387-393 | Adding a participant with an unused code keeps codes unique |
| StoreProperties.AddBatchKeepsCounts | src/app/contexts/EventsContext.tsx:407-423 | A non-empty batch from one event keeps the counts consistent |
| StoreProperties.MixedBatchMiscounts | src/app/contexts/EventsContext.tsx:416-423 | The code credits a batch spanning two events entirely to the first event, breaking the counts; shown on a two-member example |
| StoreProperties.BatchCodesMayRepeat | src/app/contexts/EventsContext.tsx:408-412 | Codes in a batch are checked only against participants from before the batch, so two members can get the same code; shown on an example |
| StoreProperties.WithoutAbsentParticipant | src/app/contexts/EventsContext.tsx:452 | Filtering out an id nobody has leaves the list as it was |
| StoreProperties.HeadcountWithoutParticipant | src/app/contexts/EventsContext.tsx:449-459 | With unique ids, removing a participant lowers only its event's headcount, by one |
| StoreProperties.DeleteParticipantKeepsCounts | src/app/contexts/EventsContext.tsx:449-459 | With unique ids, deleting a participant keeps the counts consistent |
| StoreProperties.DuplicateIdsMiscount | src/app/contexts/EventsContext.tsx:449-459 | With two entries sharing an id, deletion removes both but lowers the count by one; shown on an example |
| StoreProperties.HeadcountWithoutEvent | src/app/contexts/EventsContext.tsx:384 | Removing one event's participants keeps every other event's headcount |
| StoreProperties.DeleteEventKeepsCounts | src/app/contexts/EventsContext.tsx:382-385 | The cascading delete keeps the counts consistent |
| StoreProperties.AttachPhotosKeepsCounts | src/app/contexts/EventsContext.tsx:461-467 | Attaching photos keeps the counts consistent |
| StoreProperties.SaleSplitBounds | src/app/contexts/EventsContext.tsx:543-544 | For a commission between 0 and 100 percent, commission and net each lie between 0 and the price |
| StoreProperties.SaleExamples | src/app/contexts/EventsContext.tsx:543-544 | 25.00 at 15% splits into 3.75 and 21.25; 30.00 at 20% splits into 6.00 and 24.00 |
| StoreProperties.NetRevenueIsSumOfNets | src/app/contexts/EventsContext.tsx:570-585 | For balanced sales, total price minus total commission is the total of the nets |
| StoreProperties.AddPhotoSaleKeepsBalance | src/app/contexts/EventsContext.tsx:534-554 | A recorded sale keeps every sale balanced |
| StoreProperties.BlankQueryMatchesAll | src/app/contexts/EventsContext.tsx:491-510 | A blank name or class query returns every participant |
| StoreProperties.SchoolSearchNeedsEvent | src/app/contexts/EventsContext.tsx:505-506 | A participant whose event is missing never matches a school search |
| FileNameCode.FirstFrom | src/app/components/events/BatchPhotoUpload.tsx:41 | Finds the leftmost position satisfying the test, or none |
| FileNameCode.LazyTail | src/app/components/events/BatchPhotoUpload.tsx:33 | The lazy `.*?` picks the shortest bracket tail that matches, or none |
| FileNameCode.TaggedFrom | src/app/components/events/BatchPhotoUpload.tsx:33 | The leftmost start and then the shortest tail of the tagged pattern, or none |
| FileNameCode.MatchTagged | src/app/components/events/BatchPhotoUpload.tsx:33 | None exactly when the tagged pattern occurs nowhere; otherwise the six digits at its leftmost, shortest match |
| FileNameCode.MatchSimple | src/app/components/events/BatchPhotoUpload.tsx:34-37 | None exactly when the pattern occurs nowhere; otherwise the captured digits of its leftmost occurrence |
| FileNameCode.MatchPattern | src/app/components/events/BatchPhotoUpload.tsx:32-38 | Each pattern returns its capture group at its leftmost match, or None when it does not occur; every capture is six digits of the name |
| FileNameCode.FirstMatchSpec | src/app/components/events/BatchPhotoUpload.tsx:40-46 | The result comes from the first pattern that matches; None exactly when none matches |
| FileNameCode.ExtractCode | src/app/components/events/BatchPhotoUpload.tsx:30-47 | A found code is six digits occurring in the name; null exactly when the name has no run of six digits |
| FileNameCode.SingleUnderscoreBeforeDot | src/app/components/events/BatchPhotoUpload.tsx:36 | With no bracket and a single underscore before six digits and a dot, the code is those six digits |
| FileNameCodeExamples.TaggedExample | src/app/components/events/BatchPhotoUpload.tsx:33 | The file `[EOS2123_123456].jpg` gives 123456 |
| FileNameCodeExamples.PriorityCatchAllAlone | src/app/components/events/BatchPhotoUpload.tsx:37 | On its own, the catch-all pattern takes the first digits, 000001 |
| FileNameCodeExamples.PriorityTagWins | src/app/components/events/BatchPhotoUpload.tsx:32-46 | Pattern order makes the tagged code 123456 win over the earlier 000001 |
| BatchPhotoUpload.FindByCode | src/app/components/events/BatchPhotoUpload.tsx:49-51 | Some gives the first participant holding the code; None exactly when no participant holds it |
| BatchPhotoUpload.ClassifyCases | src/app/components/events/BatchPhotoUpload.tsx:62-123 | Classify: a non-JPEG file, a name without a code and an unknown code each give their error. Success means no error and a participant found by the extracted code |
| BatchPhotoUpload.JpegByName | src/app/components/events/BatchPhotoUpload.tsx:66 | A `.JPG` name is accepted case-insensitively, whatever the type |
| BatchPhotoUpload.JpegSuffixWithoutType | src/app/components/events/BatchPhotoUpload.tsx:66 | A `.jpeg` name without the JPEG type is rejected |
| BatchPhotoUpload.JpegSuffixWithType | src/app/components/events/BatchPhotoUpload.tsx:66 | A file with the JPEG type is accepted |
| BatchPhotoUpload.Uploads | src/app/components/events/BatchPhotoUpload.tsx:104-115 | At most one upload per processed file |
| BatchPhotoUpload.ApplyGroups | src/app/components/events/BatchPhotoUpload.tsx:126-128 | Applying the associations keeps the participant list's length |
| BatchPhotoUpload.SuccessCount | src/app/components/events/BatchPhotoUpload.tsx:117-122 | No more successes than results |
| BatchPhotoUpload.ErrorCount | src/app/components/events/BatchPhotoUpload.tsx:178 | No more errors than results |
| BatchPhotoUpload.SuccessesAndErrors | src/app/components/events/BatchPhotoUpload.tsx:177-178 | Successes plus errors are all the results; no errors exactly when every file succeeded, no successes exactly when every file failed |
| BatchPhotoUpload.ProcessFile | src/app/components/events/BatchPhotoUpload.tsx:63-122 | One iteration: the outcome is the file's classification, and only a success adds its photo to the groups |
| BatchPhotoUpload.GroupsStep | src/app/components/events/BatchPhotoUpload.tsx:106-115 | The groups after file i are the groups before it, updated by that file's outcome |
| BatchPhotoUpload.ClassifyAll | src/app/components/events/BatchPhotoUpload.tsx:62-123 | One result per file |
| BatchPhotoUpload.ClassifyAllSpec | src/app/components/events/BatchPhotoUpload.tsx:62-123 | The j-th result is the classification of the j-th file |
| BatchPhotoUpload.ClassifyFiles | src/app/components/events/BatchPhotoUpload.tsx:62-123 | The loop returns every file's classification and the grouped uploads of the successes |
| BatchPhotoUpload.ApplyAll | src/app/components/events/BatchPhotoUpload.tsx:126-128 | Applying the associations changes only participants' photos |
| BatchPhotoUpload.ProcessPhotos | src/app/components/events/BatchPhotoUpload.tsx:57-133 | One result per file, each its classification; the participants gain the grouped photos; nothing else changes |
| UploadGrouping.Ids | src/app/components/events/BatchPhotoUpload.tsx:107 | The association ids, in order |
| UploadGrouping.Pids | src/app/components/events/BatchPhotoUpload.tsx:112 | The upload ids, in order |
| UploadGrouping.Dedup | src/app/components/events/BatchPhotoUpload.tsx:107-115 | Each id appears once, and the ids are exactly those of the input |
| UploadGrouping.GroupPhotosOfDistinct | src/app/components/events/BatchPhotoUpload.tsx:107 | With distinct ids, a participant's photos are those of its one association, or none |
| UploadGrouping.TotalPhotosUpdate | src/app/components/events/BatchPhotoUpload.tsx:109 | Replacing one association changes the photo total by the difference in its size |
| UploadGrouping.GroupPhotosUpdateOther | src/app/components/events/BatchPhotoUpload.tsx:109 | Replacing another participant's association leaves a participant's photos unchanged |
| UploadGrouping.AddToGroupsIds | src/app/components/events/BatchPhotoUpload.tsx:107-115 | An upload appends its id only when it is new, and ids stay distinct |
| UploadGrouping.AddToGroupsPhotos | src/app/components/events/BatchPhotoUpload.tsx:107-115 | An upload appends its url to exactly its participant's photos |
| UploadGrouping.AddToGroupsTotal | src/app/components/events/BatchPhotoUpload.tsx:107-115 | An upload adds exactly one photo in total |
| UploadGrouping.AddToGroupsStep | src/app/components/events/BatchPhotoUpload.tsx:107-115 | The combined one-upload step: ids, photos and total as above |
| UploadGrouping.GroupsInFirstMatchOrder | src/app/components/events/BatchPhotoUpload.tsx:107-115 | One association per participant, in order of first success |
| UploadGrouping.GroupsCollectInFileOrder | src/app/components/events/BatchPhotoUpload.tsx:107-115 | Each participant's photos are its uploads' urls in file order |
| UploadGrouping.GroupsTotal | src/app/components/events/BatchPhotoUpload.tsx:107-115 | The groups hold exactly one photo per upload |
| UploadGrouping.ApplyGroupsEffect | src/app/components/events/BatchPhotoUpload.tsx:126-128 | Each participant gains its grouped photos after its old ones |
| UploadGrouping.UploadEffect | src/app/components/events/BatchPhotoUpload.tsx:57-133 | After the run, each participant's photos are its old ones followed by its new urls in file order |
| UploadGrouping.UploadsMatchSuccesses | src/app/components/events/BatchPhotoUpload.tsx:117-128 | The number of photos applied equals the number of successful results |
| Cart.FindItem | src/app/components/sales/ShoppingCart.tsx:34-36 | Finds the first line with that photo and participant; None exactly when there is none |
| Cart.Increment | src/app/components/sales/ShoppingCart.tsx:39-43 | Exactly the lines with the id gain one unit |
| Cart.RemoveItem | src/app/components/sales/ShoppingCart.tsx:61-63 | An ordered subsequence holding exactly the lines with a different id, each kept as often as it occurs in the input |
| Cart.AddItemEffect | src/app/components/sales/ShoppingCart.tsx:33-59 | AddItem: an existing photo and participant line gains one unit and nothing else changes; otherwise one new line of quantity 1 is appended |
| Cart.AddItemWellFormed | src/app/components/sales/ShoppingCart.tsx:33-59 | AddItem: with a fresh id, adding keeps ids and photo/participant pairs distinct and quantities positive |
| Cart.IncrementWellFormed | src/app/components/sales/ShoppingCart.tsx:39-43 | Incrementing a line keeps the cart well formed |
| Cart.RemoveItemWellFormed | src/app/components/sales/ShoppingCart.tsx:61-63 | Removal keeps the cart well formed and the id gone |
| Cart.SetQuantityEffect | src/app/components/sales/ShoppingCart.tsx:65-73 | SetQuantity: a quantity of 0 or less removes the line; otherwise only that line's quantity changes |
| Cart.SetQuantityWellFormed | src/app/components/sales/ShoppingCart.tsx:65-73 | SetQuantity: setting a quantity keeps the cart well formed |
| Cart.AddItemTotalMerged | src/app/components/sales/ShoppingCart.tsx:38-43 | Adding a photo already in the cart raises the total by that line's price |
| Cart.BumpTotal | src/app/components/sales/ShoppingCart.tsx:75-77 | One more unit of a line raises the total by its price |
| Cart.IncrementOne | src/app/components/sales/ShoppingCart.tsx:39-43 | With distinct ids, incrementing by id changes exactly that one line |
| Cart.AddItemTotalAppended | src/app/components/sales/ShoppingCart.tsx:44-58 | Adding a new photo raises the total by its price |
| Cart.TotalUpdate | src/app/components/sales/ShoppingCart.tsx:75-77 | Replacing a line changes the total by the difference of the line totals |
| Cart.TotalNonNegative | src/app/components/sales/ShoppingCart.tsx:75-77 | Positive quantities and non-negative prices give a non-negative total; an empty cart totals 0 |
| SalesCart.Times | src/app/components/sales/ShoppingCart.tsx:85 | The inner loop runs quantity times when positive, else not at all |
| SalesCart.Repeat | src/app/components/sales/ShoppingCart.tsx:85-95 | n copies of the line |
| SalesCart.RequestOf | src/app/components/sales/ShoppingCart.tsx:86-94 | The sale request copies the line's participant, event, school, photo and price, with status paid |
| SalesCart.Recorded | src/app/components/sales/ShoppingCart.tsx:84-96 | Recording n units appends at most n sales |
| SalesCart.ShoppingCart.constructor | src/app/components/sales/ShoppingCart.tsx:30 | The cart starts empty |
| SalesCart.ShoppingCart.AddToCart | src/app/components/sales/ShoppingCart.tsx:33-59 | Lines become AddItem at the event's photo price, and the cart stays well formed |
| SalesCart.ShoppingCart.RemoveFromCart | src/app/components/sales/ShoppingCart.tsx:61-63 | Lines become RemoveItem, and the cart stays well formed |
| SalesCart.ShoppingCart.UpdateQuantity | src/app/components/sales/ShoppingCart.tsx:65-73 | Lines become SetQuantity, and the cart stays well formed |
| SalesCart.ShoppingCart.TotalPrice | src/app/components/sales/ShoppingCart.tsx:75-77 | An empty cart totals 0; a well-priced cart never totals below 0 |
| SalesCart.ShoppingCart.Checkout | src/app/components/sales/ShoppingCart.tsx:79-107 | Every unit of every line is offered to addPhotoSale in order; the cart empties and the old lines are handed on |
| SalesCart.SellItem | src/app/components/sales/ShoppingCart.tsx:85-95 | The inner loop records exactly the line's quantity of units |
| SalesCart.SellUnit | src/app/components/sales/ShoppingCart.tsx:86-94 | One unit adds one step of the recorded sales |
| SalesCart.UnitsOfNextItem | src/app/components/sales/ShoppingCart.tsx:84-85 | The next line's units follow the previous lines' units |
| SalesCart.UnitsPrefix | src/app/components/sales/ShoppingCart.tsx:84 | The units of the first lines are a prefix of all units |
| SalesCart.UnitsFromItems | src/app/components/sales/ShoppingCart.tsx:84-85 | Every unit is one of the cart lines |
| SalesCart.UnitsLength | src/app/components/sales/ShoppingCart.tsx:84-85 | The number of units is the sum of the quantities |
| SalesCart.RepeatPrice | src/app/components/sales/ShoppingCart.tsx:91 | m units of a line cost m times its price |
| SalesCart.RepeatLine | src/app/components/sales/ShoppingCart.tsx:75-77 | A line's units cost its line total |
| SalesCart.UnitsTotal | src/app/components/sales/ShoppingCart.tsx:75-96 | Units priced one by one add up to the cart total |
| SalesCart.RecordedExtends | src/app/components/sales/ShoppingCart.tsx:84-96 | Checkout only appends to the sales |
| SalesCart.RecordedPending | src/app/components/sales/ShoppingCart.tsx:93 | Every sale that checkout records has status pending, not the requested paid, because addPhotoSale overrides it |
| SalesCart.RecordedAll | src/app/components/sales/ShoppingCart.tsx:84-96 | When every unit's event exists, there is one sale per unit, each priced from its unit |
| SalesCart.RecordedRevenue | src/app/components/sales/ShoppingCart.tsx:84-96 | The recorded sales add the units' prices to the sales total |
| SalesCart.CheckoutChargesTotal | src/app/components/sales/ShoppingCart.tsx:75-96 | Checkout records one sale per unit and adds exactly the cart total to the sales |
| Locator.ItemPriceCases | src/app/localizar/page.tsx:49 | A missing or zero product price falls back to the event's photo price; otherwise the product price is used |
| Locator.AfterSearchSpec | src/app/localizar/page.tsx:28-35 | AfterSearch: a blank query changes nothing; otherwise the results are exactly the participants whose code equals the trimmed, lowercased query, in order, each kept as often as it occurs in the input |
| Locator.WhatsAppMessageMentionsAll | src/app/localizar/page.tsx:113 | WhatsAppMessage: the message names the guardian, the student, the class and the school, in that order |
| Locator.LocatorPage.constructor | src/app/localizar/page.tsx:15-26 | Empty search, cart and form; cart and modal closed |
| Locator.LocatorPage.HandleSearch | src/app/localizar/page.tsx:28-35 | The search state becomes AfterSearch; the rest is unchanged |
| Locator.LocatorPage.AddToCart | src/app/localizar/page.tsx:43-75 | Lines become AddItem at the product-or-event price, and the cart stays well formed |
| Locator.LocatorPage.RemoveFromCart | src/app/localizar/page.tsx:77-79 | Lines become RemoveItem; the rest is unchanged |
| Locator.LocatorPage.UpdateQuantity | src/app/localizar/page.tsx:81-89 | Lines become SetQuantity; the rest is unchanged |
| Locator.LocatorPage.TotalPrice | src/app/localizar/page.tsx:91-93 | An empty cart totals 0; a well-priced cart never totals below 0 |
| Locator.LocatorPage.Checkout | src/app/localizar/page.tsx:95-100 | Empties and closes the cart without recording sales |
| Locator.LocatorPage.HandleWhatsAppRequest | src/app/localizar/page.tsx:105-128 | An incomplete form sends nothing and changes nothing; a complete one yields the message, resets the form and closes the modal |
| Locator.LocatorPage.ResetWhatsAppForm | src/app/localizar/page.tsx:130-138 | Empties the form and closes the modal |
| Locator.ZeroProductPriceFallsBack | src/app/localizar/page.tsx:49 | A product price of 0 puts the event's price on the new line and into the total |
| ParticipantsList.NextSortSpec | src/app/components/events/ParticipantsList.tsx:38-45 | Clicking the current column flips the order; another column is selected ascending |
| ParticipantsList.BeforeTransitive | src/app/components/events/ParticipantsList.tsx:53-62 | The comparator's strict order is transitive |
| ParticipantsList.BeforeAsymmetric | src/app/components/events/ParticipantsList.tsx:53-62 | The comparator's strict order is asymmetric |
| ParticipantsList.Insert | src/app/components/events/ParticipantsList.tsx:53-62 | Insertion adds exactly the one element |
| ParticipantsList.SortView | src/app/components/events/ParticipantsList.tsx:53-62 | Sorting is a permutation |
| ParticipantsList.InsertSorted | src/app/components/events/ParticipantsList.tsx:53-62 | Insertion keeps the list sorted |
| ParticipantsList.ConsSorted | src/app/components/events/ParticipantsList.tsx:53-62 | A head that nothing in the rest precedes keeps the list sorted |
| ParticipantsList.PrependSorted | src/app/components/events/ParticipantsList.tsx:53-62 | A head that precedes the first element keeps the list sorted |
| ParticipantsList.SortViewSorted | src/app/components/events/ParticipantsList.tsx:53-62 | The sorted view is ordered by the column and direction |
| ParticipantsList.ViewSpec | src/app/components/events/ParticipantsList.tsx:47-62 | View: the view is sorted, is a permutation of the matching participants, and holds exactly those whose name, class or type contains the term |
| ParticipantsList.EmptyTermKeepsAll | src/app/components/events/ParticipantsList.tsx:47-52 | An empty search term shows every participant |
| ParticipantsList.NormalizeHeaders | src/app/components/events/ParticipantsList.tsx:79 | Each header is trimmed and lowercased |
| ParticipantsList.RowsFrom | src/app/components/events/ParticipantsList.tsx:98-113 | At most one participant per data line |
| ParticipantsList.RowsFromSpec | src/app/components/events/ParticipantsList.tsx:98-113 | Each imported participant belongs to the event, is a student with no photos, and has a non-empty name and class |
| ParticipantsList.ImportPlanColumns | src/app/components/events/ParticipantsList.tsx:82-83 | ImportPlan: the rows are read from the first header naming the name column and the first header naming the class column |
| ParticipantsList.ImportPlanSpec | src/app/components/events/ParticipantsList.tsx:76-126 | ImportPlan: no non-blank lines means the import fails; a missing name or class column aborts the import; otherwise there are fewer rows than lines, all valid students of the event |
| ParticipantsList.RowsFromStep | src/app/components/events/ParticipantsList.tsx:98-113 | One loop step appends the line's row only when it has both name and class |
| ParticipantsList.CollectRows | src/app/components/events/ParticipantsList.tsx:96-113 | The loop collects exactly RowsFrom over all data lines |
| ParticipantsList.ParseImport | src/app/components/events/ParticipantsList.tsx:76-113 | Parsing yields the import plan |
| ParticipantsList.ParticipantsListView.constructor | src/app/components/events/ParticipantsList.tsx:34-36 | Empty term, sorted by name ascending |
| ParticipantsList.ParticipantsListView.HandleSort | src/app/components/events/ParticipantsList.tsx:38-45 | Column and order become NextSort; the term is unchanged |
| ParticipantsList.ParticipantsListView.ParseAndAddParticipants | src/app/components/events/ParticipantsList.tsx:76-126 | The outcome is the plan; a non-empty plan is added as one batch for the event; anything else leaves the store unchanged |
| ParticipantsList.ExportLines | src/app/components/events/ParticipantsList.tsx:177-178 | One line per shown participant, in order |
| ParticipantsList.ExportFileNameSpec | src/app/components/events/ParticipantsList.tsx:184 | ExportFileName: the file name starts with `participantes_`, ends with `.csv` and contains no whitespace |
| ParticipantsList.ExportFileNameKeepsTitle | src/app/components/events/ParticipantsList.tsx:184 | ExportFileName: a title without whitespace appears unchanged between the prefix and `.csv` |
| ParticipantsList.ExportFileNameRun | src/app/components/events/ParticipantsList.tsx:184 | ExportFileName: a whitespace run inside the title becomes one `_` between the replaced text before and after it |
| Text.ReplaceWithoutWhitespace | src/app/components/events/ParticipantsList.tsx:184 | `replace(/\s+/g, rep)` leaves text without whitespace unchanged |
| Text.ReplaceWhitespaceRun | src/app/components/events/BatchPhotoUpload.tsx:104 | `replace(/\s+/g, rep)` turns each maximal whitespace run into exactly one `rep` and replaces the text on either side on its own |
| Text.ReplaceRunsAppend | src/app/components/events/ParticipantsList.tsx:184 | Text ending outside the replaced class is replaced independently of what follows it |
| ParticipantsList.Reimported | src/app/components/events/ParticipantsList.tsx:104-111 | The participants an import rebuilds from exported names and classes |
| ParticipantsList.TypeNameLacks | src/app/components/events/ParticipantsList.tsx:177 | A type name contains no comma or line break |
| ParticipantsList.ExportLineReadsBack | src/app/components/events/ParticipantsList.tsx:177 | An exported line of a clean participant is non-blank and reads back as that participant's name and class |
| ParticipantsList.ExportHeaderCells | src/app/components/events/ParticipantsList.tsx:176 | Each export header is trimmed and lowercases to its imported form |
| ParticipantsList.NormalizeTrimmed | src/app/components/events/ParticipantsList.tsx:79 | Trimmed headers normalise to their lowercase forms |
| ParticipantsList.ExportHeaderNormalized | src/app/components/events/ParticipantsList.tsx:176-179 | The export header line normalises to nome, turma, tipo, qr code |
| ParticipantsList.ImportedHeaderIndices | src/app/components/events/ParticipantsList.tsx:82-83 | In those headers the name column is 0 and the class column is 1 |
| ParticipantsList.ExportHeaderClean | src/app/components/events/ParticipantsList.tsx:176-178 | The header line is non-blank and has no line break |
| ParticipantsList.ExportHeaderColumns | src/app/components/events/ParticipantsList.tsx:82-83 | Importing the export header finds the name at 0 and the class at 1 |
| ParticipantsList.RowsFromExport | src/app/components/events/ParticipantsList.tsx:98-113 | Importing exported lines rebuilds the exported participants in order |
| ParticipantsList.ExportLinesClean | src/app/components/events/ParticipantsList.tsx:175-178 | Every exported line is non-blank and has no line break |
| ParticipantsList.ImportExported | src/app/components/events/ParticipantsList.tsx:76-113 | Any suitable header plus exported lines imports as the exported participants |
| ParticipantsList.ExportImportRoundTrip | src/app/components/events/ParticipantsList.tsx:174-187 | Importing an export gives back every participant's name and class, in order, as students of the event |
| ExportUtils.TypeLabel | src/app/components/events/ExportUtils.tsx:30-31 | Aluno for students, Professor for teachers, Funcionário for everyone else |
| ExportUtils.RowLines | src/app/components/events/ExportUtils.tsx:27-41 | One row line per participant, in order |
| ExportUtils.ExportParticipantsToCsv | src/app/components/events/ExportUtils.tsx:10-63 | An empty list exports nothing; otherwise the content is the BOM followed by the CSV text |
| ExportUtils.ExportParticipantsToExcel | src/app/components/events/ExportUtils.tsx:298-302 | The Excel export is the CSV export |
| ExportUtils.QuotedUnescaped | src/app/components/events/ExportUtils.tsx:28-29 | Quoting wraps the text unchanged, adding exactly two quote marks and escaping nothing |
| ExportUtils.QuotedLacks | src/app/components/events/ExportUtils.tsx:28-29 | Quoting adds no separator character |
| ExportUtils.DigitsLack | src/app/components/events/ExportUtils.tsx:33 | A count in digits contains no separator |
| ExportUtils.TypeLabelLacks | src/app/components/events/ExportUtils.tsx:30-31 | A type label contains no comma or line break |
| ExportUtils.CellsLack | src/app/components/events/ExportUtils.tsx:27-37 | Cells of clean fields contain no separator |
| ExportUtils.RowCells | src/app/components/events/ExportUtils.tsx:27-37 | RowLine: a clean row splits back into eight cells: quoted name and class, type label, code or id, photo count, date, Ativo, quoted event title |
| ExportUtils.HeadersLackSeparators | src/app/components/events/ExportUtils.tsx:16-25 | No header contains a comma or line break |
| ExportUtils.HeaderCells | src/app/components/events/ExportUtils.tsx:40 | CsvContent: the header line splits back into the eight headers |
| ExportUtils.ContentLines | src/app/components/events/ExportUtils.tsx:39-42 | CsvContent: the content splits into the header line and one row line per participant, in order |
| ExportUtils.FileNameSpec | src/app/components/events/ExportUtils.tsx:54 | FileName: the file name starts with `participantes_`, keeps the title's ASCII letters and digits, turns every other character into `_`, and ends with `.csv` |
| Dashboard.FilteredEventsSpec | src/app/dashboard/page.tsx:43-72 | FilteredEvents: the filter keeps, in order, exactly the events that pass all six tests, each kept as often as it occurs in the input |
| Dashboard.InactiveKeepsAll | src/app/dashboard/page.tsx:46-68 | An inactive filter passes every event |
| Dashboard.NoActiveFilterKeepsAll | src/app/dashboard/page.tsx:43-72 | With no active filter every event is shown |
| Dashboard.EmptyFiltersKeepAll | src/app/dashboard/page.tsx:33-40 | The initial filters show every event |
| Dashboard.PriceBounds | src/app/dashboard/page.tsx:59-60 | A price bound of 0 counts as no bound; non-zero bounds keep exactly the prices between them |
| Dashboard.TextMatchCaseInsensitive | src/app/dashboard/page.tsx:46-49 | Text matching ignores case on both sides, and a text matches itself |
| Dashboard.ClearingWidens | src/app/dashboard/page.tsx:43-72 | Clearing any one filter can only add events |
| Dashboard.DashboardPage.constructor | src/app/dashboard/page.tsx:33-40 | The filters start empty |
| Dashboard.DashboardPage.HandleSearchFilters | src/app/dashboard/page.tsx:109-111 | The filters become the given ones |
| Dashboard.DashboardPage.HandleClearFilters | src/app/dashboard/page.tsx:113-122 | The filters are reset to empty |
| Dashboard.DashboardPage.Shown | src/app/dashboard/page.tsx:43-72 | The shown events are an ordered subsequence passing the filters, each kept as often as it occurs; with empty filters, all events |
| AdvancedSearch.Get | src/app/components/dashboard/AdvancedSearch.tsx:16-29 | Reading a field gives a value of that field's kind |
| AdvancedSearch.WithField | src/app/components/dashboard/AdvancedSearch.tsx:43 | Setting a field changes that field to the value and leaves the other five |
| AdvancedSearch.FiltersExtensional | src/app/components/dashboard/AdvancedSearch.tsx:16-29 | Filters that agree on all six fields are equal |
| AdvancedSearch.WithDateSpec | src/app/components/dashboard/AdvancedSearch.tsx:51 | Setting one end of the date range keeps the other |
| AdvancedSearch.WithPriceSpec | src/app/components/dashboard/AdvancedSearch.tsx:60 | Setting one end of the price range keeps the other |
| AdvancedSearch.BadgeIf | src/app/components/dashboard/AdvancedSearch.tsx:263-321 | A field shows one badge exactly when it is active |
| AdvancedSearch.Position | src/app/components/dashboard/AdvancedSearch.tsx:263-321 | Each field has its place among the six badges |
| AdvancedSearch.BadgesFromMembers | src/app/components/dashboard/AdvancedSearch.tsx:263-321 | The badges from a place on are exactly the active fields from that place |
| AdvancedSearch.ConsPlaced | src/app/components/dashboard/AdvancedSearch.tsx:263-321 | A badge at its place followed by the later badges stays in place order |
| AdvancedSearch.AscendingInOrder | src/app/components/dashboard/AdvancedSearch.tsx:263-321 | Strictly increasing places are display order |
| AdvancedSearch.BadgesFromPlaced | src/app/components/dashboard/AdvancedSearch.tsx:263-321 | The badges from a place on are in place order |
| AdvancedSearch.BadgesFromAscending | src/app/components/dashboard/AdvancedSearch.tsx:263-321 | The badges from a place on have strictly increasing places |
| AdvancedSearch.BadgesSpec | src/app/components/dashboard/AdvancedSearch.tsx:261-323 | At most six badges, exactly one per active filter, in display order; none exactly when no filter is active |
| AdvancedSearch.ClearValue | src/app/components/dashboard/AdvancedSearch.tsx:268-318 | A badge's X resets its own field |
| AdvancedSearch.ActiveOwnField | src/app/components/dashboard/AdvancedSearch.tsx:79-88 | Whether a filter is active depends only on its own field |
| AdvancedSearch.DropOneBadge | src/app/components/dashboard/AdvancedSearch.tsx:263-321 | Deactivating one filter alone removes one badge |
| AdvancedSearch.ClearBadge | src/app/components/dashboard/AdvancedSearch.tsx:266-319 | Clicking a badge's X deactivates exactly that filter and removes one badge |
| AdvancedSearch.EmptyFiltersInactive | src/app/components/dashboard/AdvancedSearch.tsx:33-40 | The initial filters have no active filter and no badge |
| AdvancedSearch.AdvancedSearchPanel.constructor | src/app/components/dashboard/AdvancedSearch.tsx:32-40 | Closed, with empty filters |
| AdvancedSearch.AdvancedSearchPanel.Toggle | src/app/components/dashboard/AdvancedSearch.tsx:109 | Opens or closes the panel; the filters are unchanged |
| AdvancedSearch.AdvancedSearchPanel.HandleFilterChange | src/app/components/dashboard/AdvancedSearch.tsx:42-46 | Sets one field and reports the new filters |
| AdvancedSearch.AdvancedSearchPanel.HandleDateRangeChange | src/app/components/dashboard/AdvancedSearch.tsx:48-55 | Sets one date end and reports the new filters |
| AdvancedSearch.AdvancedSearchPanel.HandlePriceRangeChange | src/app/components/dashboard/AdvancedSearch.tsx:57-64 | Sets one price end and reports the new filters |
| AdvancedSearch.AdvancedSearchPanel.ClearAllFilters | src/app/components/dashboard/AdvancedSearch.tsx:66-77 | Resets the filters to empty |
| AdvancedSearch.AdvancedSearchPanel.ActiveFiltersCount | src/app/components/dashboard/AdvancedSearch.tsx:79-88 | The counter equals the number of badges shown, at most six |
| AdvancedSearch.ClearedCountIsZero | src/app/components/dashboard/AdvancedSearch.tsx:66-88 | After clearing, the counter is 0 |
| AnalyticsCharts.OccurrencesSnoc | src/app/components/dashboard/AnalyticsCharts.tsx:36-44 | One more item adds one occurrence to its own key only |
| AnalyticsCharts.OccurrencesOfMember | src/app/components/dashboard/AnalyticsCharts.tsx:36-44 | A present item's key occurs at least once |
| AnalyticsCharts.BumpSpec | src/app/components/dashboard/AnalyticsCharts.tsx:37 | Counting a key raises its entry by one, or appends a new entry with count 1 when the key is new |
| AnalyticsCharts.BumpSum | src/app/components/dashboard/AnalyticsCharts.tsx:37 | Counting adds one to the total |
| AnalyticsCharts.BumpDistinct | src/app/components/dashboard/AnalyticsCharts.tsx:37 | Counting keeps keys distinct |
| AnalyticsCharts.TallySum | src/app/components/dashboard/AnalyticsCharts.tsx:36-44 | A tally's counts add up to the number of events |
| AnalyticsCharts.TallyDistinct | src/app/components/dashboard/AnalyticsCharts.tsx:36-44 | A tally has one entry per key |
| AnalyticsCharts.CountForBump | src/app/components/dashboard/AnalyticsCharts.tsx:37 | Counting one key changes only that key's count |
| AnalyticsCharts.TallyCountFor | src/app/components/dashboard/AnalyticsCharts.tsx:36-44 | A key's count is its number of occurrences |
| AnalyticsCharts.TallyPositive | src/app/components/dashboard/AnalyticsCharts.tsx:36-44 | Every tally entry has count at least 1 |
| AnalyticsCharts.TallyCounts | src/app/components/dashboard/AnalyticsCharts.tsx:36-44 | Each entry's count is its key's number of occurrences, at least 1 |
| AnalyticsCharts.TallyCovers | src/app/components/dashboard/AnalyticsCharts.tsx:36-44 | Every event's key has an entry |
| AnalyticsCharts.TallySpec | src/app/components/dashboard/AnalyticsCharts.tsx:36-44 | Tally: distinct keys, exact positive counts, every key covered, counts adding up to the number of events |
| AnalyticsCharts.StatusRows | src/app/components/dashboard/AnalyticsCharts.tsx:51-55 | One row per status entry, with its status and count; no events give no rows |
| AnalyticsCharts.StatusRowsPercentages | src/app/components/dashboard/AnalyticsCharts.tsx:54 | The percentages times the number of events equal 100 times the sum of the counts |
| AnalyticsCharts.StatusPercentagesSum | src/app/components/dashboard/AnalyticsCharts.tsx:51-55 | For a non-empty list, the status percentages add up to exactly 100 |
| AnalyticsCharts.RowsOfFullTally | src/app/components/dashboard/AnalyticsCharts.tsx:51-55 | Rows of a tally that covers all events add up to 100 percent |
| AnalyticsCharts.PercentagesTotal | src/app/components/dashboard/AnalyticsCharts.tsx:54 | Counts summing to the total give a percentage sum of 100 |
| AnalyticsCharts.StatusChartSpec | src/app/components/dashboard/AnalyticsCharts.tsx:36-55 | StatusData: no events give an empty chart; otherwise the chart has at most one row per event, positive exact counts, distinct statuses and percentages adding up to 100 |
| AnalyticsCharts.TallyNoLonger | src/app/components/dashboard/AnalyticsCharts.tsx:36-44 | A tally has no more entries than events |
| AnalyticsCharts.SchoolDataSpec | src/app/components/dashboard/AnalyticsCharts.tsx:41-44 | SchoolData: the school tally has distinct schools with exact positive counts, covers every event's school and sums to the number of events |
| AnalyticsCharts.InsertByCountPerm | src/app/components/dashboard/AnalyticsCharts.tsx:58 | Insertion by count adds exactly the one entry |
| AnalyticsCharts.InsertByCountSorted | src/app/components/dashboard/AnalyticsCharts.tsx:58 | Insertion by count keeps descending order |
| AnalyticsCharts.SortByCountSpec | src/app/components/dashboard/AnalyticsCharts.tsx:58 | Sorting by count is a permutation in descending order |
| AnalyticsCharts.TopSchoolsSpec | src/app/components/dashboard/AnalyticsCharts.tsx:56-59 | TopSchools: at most five schools, exactly five when there are that many, all of them when fewer, each taken from the tally |
| AnalyticsCharts.TopSchoolsRanked | src/app/components/dashboard/AnalyticsCharts.tsx:56-59 | TopSchools: the top schools are in descending order, and no school left out has more events than the last one shown |
| AnalyticsCharts.AverageEventSize | src/app/components/dashboard/AnalyticsCharts.tsx:67-69 | 0 for no events; otherwise the average times the number of events is the participant total |
| AnalyticsCharts.MonthlyMatchesTally | src/app/components/dashboard/AnalyticsCharts.tsx:15-34 | Monthly: the monthly chart's months and event counts are the tally of the events' months |
| AnalyticsCharts.AddToMonthMatchesBump | src/app/components/dashboard/AnalyticsCharts.tsx:21-29 | Adding an event to its month matches counting that month in the tally |
| AnalyticsCharts.AddToMonthSums | src/app/components/dashboard/AnalyticsCharts.tsx:21-31 | Adding an event raises the participant and revenue totals by that event's amounts |
| AnalyticsCharts.MonthlySums | src/app/components/dashboard/AnalyticsCharts.tsx:15-34 | Monthly: the monthly participants and revenue add up to the overall totals |
| AnalyticsCharts.MonthlySpec | src/app/components/dashboard/AnalyticsCharts.tsx:15-50 | Monthly: distinct months with exact positive event counts; events, participants and revenue add up to the overall figures |
| AnalyticsCharts.SameCounts | src/app/components/dashboard/AnalyticsCharts.tsx:15-34 | Matching counts have matching totals |
| DashboardMetrics.ComputeMetrics | src/app/components/dashboard/DashboardMetrics.tsx:11-22 | The event count is the number of events; active events are at most that, and 0 exactly when no event is active |
| DashboardMetrics.MetricsAppend | src/app/components/dashboard/DashboardMetrics.tsx:11-22 | The metrics of two lists put together are the sums of their metrics |
| DashboardMetrics.EstimateAtThirtyPercent | src/app/components/dashboard/DashboardMetrics.tsx:13 | When every commission is 30%, the estimate equals the analytics panel's total revenue |
| DashboardMetrics.ActiveOccurrences | src/app/components/dashboard/DashboardMetrics.tsx:14 | Active events are the occurrences of the active status |
| DashboardMetrics.MetricsMatchCharts | src/app/components/dashboard/DashboardMetrics.tsx:11-22 | The participants card matches the monthly chart, and the active card matches the status chart |
| ParticipantForm.FromInitialSpec | src/app/components/events/ParticipantForm.tsx:41-54 | Given fields are copied, missing ones become blank and a missing type becomes aluno. With photos and no profile photo, the first photo becomes the profile photo |
| ParticipantForm.ParticipantFormState.constructor | src/app/components/events/ParticipantForm.tsx:33-39 | A blank student form with no error |
| ParticipantForm.ParticipantFormState.LoadInitialData | src/app/components/events/ParticipantForm.tsx:41-54 | No initial data changes nothing; otherwise the form becomes FromInitial of it |
| ParticipantForm.ParticipantFormState.HandleSubmit | src/app/components/events/ParticipantForm.tsx:56-73 | A blank name or class sets the required message and submits nothing; otherwise the form is submitted as it is and the error cleared |
| ParticipantForm.ParticipantFormState.HandleSetProfilePhoto | src/app/components/events/ParticipantForm.tsx:75-77 | Only the profile photo changes |
| WelcomeModal.HandlersKeepValid | src/app/components/onboarding/WelcomeModal.tsx:102-115 | Every handler keeps the step among the three. Next advances by one except on the last step; only finishing or skipping closes, and closing records completion |
| WelcomeModal.BackUndoesNext | src/app/components/onboarding/WelcomeModal.tsx:169-176 | Back undoes a Next that advanced |
| WelcomeModal.PressesToFinish | src/app/components/onboarding/WelcomeModal.tsx:102-110 | From any step, the tour stays open until the last step, and the next press completes it |
| WelcomeModal.TourFromStart | src/app/components/onboarding/WelcomeModal.tsx:102-110 | From the start, two presses reach the last step and the third completes the tour |
| WelcomeModal.ProgressSpec | src/app/components/onboarding/WelcomeModal.tsx:141-151 | Three segments, of which exactly the first step+1 are coloured |
| WelcomeModal.NextLabelTellsOutcome | src/app/components/onboarding/WelcomeModal.tsx:177-180 | The button reads Começar! exactly when pressing it closes the modal, and Próximo exactly when it advances |
| WelcomeModal.WelcomeModalState.constructor | src/app/components/onboarding/WelcomeModal.tsx:15 | Starts open at step 0, not completed |
| WelcomeModal.WelcomeModalState.NextStep | src/app/components/onboarding/WelcomeModal.tsx:102-110 | The state becomes NextOf of the old state |
| WelcomeModal.WelcomeModalState.Back | src/app/components/onboarding/WelcomeModal.tsx:169-176 | The state becomes BackOf of the old state |
| WelcomeModal.WelcomeModalState.SkipOnboarding | src/app/components/onboarding/WelcomeModal.tsx:112-115 | The state becomes SkipOf of the old state: closed and completed |

## Left out

- Persistence is left out: the `fetch` calls to `/api/events` and `/api/participants`, and the `localStorage` flag. The flag is only the modal's `completed` field.
- Rendering, toasts, `alert`, `console` output, print windows, file pickers and downloads are left out. The model returns the content, file name, message or outcome instead.
- The QR-code print sheet of `ExportUtils.tsx` (lines 68-293) is left out. It only builds HTML for a print window.
- `updateAppConfig` is left out. It is a plain merge into a settings record that no other modelled operation reads.
- `formatDate` and `formatCurrency` in `src/lib/utils.ts` are left out, because they depend on locale formatting.
- The `toFixed` labels are left out. Sale amounts, metric cards and chart percentages are kept as exact reals, and the display string is not modelled.
- Dates, the clock and randomness are parameters: the month label, the date comparison, today's date, ISO timestamps, photo-URL stamps, random draws and new ids.
- Utils.GenerateQRCode: the draw is the integer that `Math.floor(Math.random() * 900000)` produces, not a float.
- EventsStore.Store.GenerateQRCode: the retry loop is modelled over a finite stream of draws. The caller must supply a stream containing a draw whose code is unused. That is the loop's own termination assumption.
- SalesCart.ShoppingCart.Checkout: the `paid` status the checkout requests is overwritten with `pending` by `addPhotoSale`, as the code does; RecordedPending states this. An item whose event is missing records nothing. The `onCheckout` and `onClose` callbacks are represented by returning the old lines.
- EventsStore.Store.AddParticipantsBatch: the model keeps two behaviours of the code. A batch spanning several events credits them all to the first event (MixedBatchMiscounts). Codes in a batch are checked only against participants from before the batch, so they may repeat (BatchCodesMayRepeat).
- ParticipantsList.ExportImportRoundTrip: the round trip carries name and class only, because the import sets type `aluno` and a fresh QR code. It also needs names and classes that are non-blank, trimmed and free of commas and line breaks.
- `toLowerCase` is modelled for ASCII and Latin-1 letters only; other scripts, and lowercasings that produce several characters (such as U+0130), are left out. The whitespace class of `trim` and `\s` is the full ECMAScript WhiteSpace and LineTerminator set.
- ExportUtils.FileName: a character above U+FFFF in the title (an emoji, say) becomes two `_` in the program, one per UTF-16 code unit, because the pattern has no `u` flag; the model turns it into one `_`.
- JavaScript string comparison is modelled as character-by-character order. UTF-16 code units above U+FFFF are not distinguished.
- Object key order is simplified: `Object.entries` lists integer-like keys first, but the model keeps insertion order for month, status and school tallies.
- `encodeURIComponent`, `window.open` and the WhatsApp URL are left out; the model returns the message text.
- Dashboard handlers that only open forms or navigate are left out: create, edit, view and submit of events.
- The form's `onChange` setters, the step titles and contents of the onboarding tour, and `userName` are left out.

=== FILE: AdvancedSearch.dfy ===
/** The advanced-search panel of the dashboard (AdvancedSearch.tsx): the
    `SearchFilters` record, the handlers that replace one of its fields and
    pass the new record to `onSearch`, the reset, and the count of active
    filters shown on the toggle button, one per badge under the search bar.
    The `onSearch` callback is modelled by returning the record it would be
    given; `onClear` carries no data and is left to the dashboard. */
module AdvancedSearch {
  import opened Seqs
  import opened Domain

  /** `'all'` or one of the three event statuses. */
  datatype StatusFilter = AllStatuses | OnlyStatus(status: EventStatus)

  /** `dateRange: { start?, end? }`; `{}` is two absent ends. */
  datatype DateRange = DateRange(start: Option<string>, end: Option<string>)

  /** `priceRange: { min?, max? }`. */
  datatype PriceRange = PriceRange(min: Option<real>, max: Option<real>)

  datatype SearchFilters = SearchFilters(
    search: string,
    status: StatusFilter,
    dateRange: DateRange,
    priceRange: PriceRange,
    school: string,
    contact: string)

  const NoDates := DateRange(None, None)
  const NoPrices := PriceRange(None, None)

  /** The initial and the cleared record. */
  const EmptyFilters := SearchFilters("", AllStatuses, NoDates, NoPrices, "", "")

  /** JavaScript truthiness of an optional date: absent or '' is falsy. */
  predicate DateSet(d: Option<string>)
  {
    d.Some? && d.value != ""
  }

  /** JavaScript truthiness of an optional price: absent or 0 is falsy. */
  predicate PriceSet(p: Option<real>)
  {
    p.Some? && p.value != 0.0
  }

  /** The six keys of the record; each has a badge and counts once. */
  datatype Key = SearchKey | StatusKey | DateRangeKey | PriceRangeKey | SchoolKey | ContactKey

  /** The value of one field, tagged with its key: what `handleFilterChange`
      receives as `(key, value)`. */
  datatype FieldValue =
    | SearchValue(text: string)
    | StatusValue(status: StatusFilter)
    | DateRangeValue(dates: DateRange)
    | PriceRangeValue(prices: PriceRange)
    | SchoolValue(text: string)
    | ContactValue(text: string)

  function KeyOf(v: FieldValue): Key
  {
    match v
    case SearchValue(_) => SearchKey
    case StatusValue(_) => StatusKey
    case DateRangeValue(_) => DateRangeKey
    case PriceRangeValue(_) => PriceRangeKey
    case SchoolValue(_) => SchoolKey
    case ContactValue(_) => ContactKey
  }

  /** `filters[key]`. */
  function Get(f: SearchFilters, k: Key): (v: FieldValue)
    ensures KeyOf(v) == k
  {
    match k
    case SearchKey => SearchValue(f.search)
    case StatusKey => StatusValue(f.status)
    case DateRangeKey => DateRangeValue(f.dateRange)
    case PriceRangeKey => PriceRangeValue(f.priceRange)
    case SchoolKey => SchoolValue(f.school)
    case ContactKey => ContactValue(f.contact)
  }

  /** `{ ...filters, [key]: value }`: the named field gets the value, every
      other field keeps its own. */
  function WithField(f: SearchFilters, v: FieldValue): (r: SearchFilters)
    ensures Get(r, KeyOf(v)) == v
    ensures forall k :: k != KeyOf(v) ==> Get(r, k) == Get(f, k)
  {
    match v
    case SearchValue(s) => f.(search := s)
    case StatusValue(s) => f.(status := s)
    case DateRangeValue(d) => f.(dateRange := d)
    case PriceRangeValue(p) => f.(priceRange := p)
    case SchoolValue(s) => f.(school := s)
    case ContactValue(s) => f.(contact := s)
  }

  /** Two records agreeing on all six keys are the same record, so the
      postcondition of `WithField` says everything about its result. */
  lemma FiltersExtensional(f: SearchFilters, g: SearchFilters)
    requires forall k :: Get(f, k) == Get(g, k)
    ensures f == g
  {
    assert Get(f, SearchKey) == Get(g, SearchKey);
    assert Get(f, StatusKey) == Get(g, StatusKey);
    assert Get(f, DateRangeKey) == Get(g, DateRangeKey);
    assert Get(f, PriceRangeKey) == Get(g, PriceRangeKey);
    assert Get(f, SchoolKey) == Get(g, SchoolKey);
    assert Get(f, ContactKey) == Get(g, ContactKey);
  }

  /** Which end of the date range, or of the price range, a handler sets. */
  datatype RangeEnd = Lower | Upper

  /** `{ ...filters.dateRange, [type]: value }`. */
  function WithDate(d: DateRange, which: RangeEnd, value: string): DateRange
  {
    if which == Lower then d.(start := Some(value)) else d.(end := Some(value))
  }

  /** `{ ...filters.priceRange, [type]: value }`. */
  function WithPrice(p: PriceRange, which: RangeEnd, value: real): PriceRange
  {
    if which == Lower then p.(min := Some(value)) else p.(max := Some(value))
  }

  /** The date handler sets the chosen end and keeps the other one. */
  lemma WithDateSpec(d: DateRange, which: RangeEnd, value: string)
    ensures which == Lower ==> WithDate(d, which, value) == DateRange(Some(value), d.end)
    ensures which == Upper ==> WithDate(d, which, value) == DateRange(d.start, Some(value))
  {
  }

  /** The price handler sets the chosen bound and keeps the other one. */
  lemma WithPriceSpec(p: PriceRange, which: RangeEnd, value: real)
    ensures which == Lower ==> WithPrice(p, which, value) == PriceRange(Some(value), p.max)
    ensures which == Upper ==> WithPrice(p, which, value) == PriceRange(p.min, Some(value))
  {
  }

  /** The condition under which a key counts as an active filter and its
      badge is shown. */
  predicate FilterActive(f: SearchFilters, k: Key)
  {
    match k
    case SearchKey => f.search != ""
    case StatusKey => f.status != AllStatuses
    case DateRangeKey => DateSet(f.dateRange.start) || DateSet(f.dateRange.end)
    case PriceRangeKey => PriceSet(f.priceRange.min) || PriceSet(f.priceRange.max)
    case SchoolKey => f.school != ""
    case ContactKey => f.contact != ""
  }

  /** One badge, when its key is active. */
  function BadgeIf(f: SearchFilters, k: Key): (r: seq<Key>)
    ensures |r| == (if FilterActive(f, k) then 1 else 0)
    ensures forall j :: j in r <==> j == k && FilterActive(f, k)
  {
    if FilterActive(f, k) then [k] else []
  }

  /** The key of the badge at each display position. */
  function KeyAt(i: nat): Key
    requires i < 6
  {
    if i == 0 then SearchKey
    else if i == 1 then StatusKey
    else if i == 2 then DateRangeKey
    else if i == 3 then PriceRangeKey
    else if i == 4 then SchoolKey
    else ContactKey
  }

  /** The display position of a key's badge. */
  function Position(k: Key): (i: nat)
    ensures i < 6 && KeyAt(i) == k
  {
    match k
    case SearchKey => 0
    case StatusKey => 1
    case DateRangeKey => 2
    case PriceRangeKey => 3
    case SchoolKey => 4
    case ContactKey => 5
  }

  /** The badges from display position `i` on. */
  function BadgesFrom(f: SearchFilters, i: nat): seq<Key>
    requires i <= 6
    decreases 6 - i
  {
    if i == 6 then [] else BadgeIf(f, KeyAt(i)) + BadgesFrom(f, i + 1)
  }

  /** The badges rendered under the search bar, each under its own
      condition, in display order. */
  function Badges(f: SearchFilters): seq<Key>
  {
    BadgesFrom(f, 0)
  }

  /** From position `i` on, a key has a badge exactly when it is active and
      sits at `i` or later. */
  lemma {:induction false} BadgesFromMembers(f: SearchFilters, i: nat)
    requires i <= 6
    ensures |BadgesFrom(f, i)| <= 6 - i
    ensures forall k :: k in BadgesFrom(f, i) <==> Position(k) >= i && FilterActive(f, k)
    decreases 6 - i
  {
    if i < 6 {
      BadgesFromMembers(f, i + 1);
      forall k ensures k in BadgesFrom(f, i) <==> Position(k) >= i && FilterActive(f, k) {
        assert Position(k) == i ==> k == KeyAt(i);
      }
    }
  }

  /** Keys strictly in display order. */
  predicate InDisplayOrder(ks: seq<Key>)
  {
    forall m, n :: 0 <= m < n < |ks| ==> Position(ks[m]) < Position(ks[n])
  }

  /** Keys none of which is displayed before position `i`. */
  predicate PlacedFrom(ks: seq<Key>, i: nat)
  {
    forall m :: 0 <= m < |ks| ==> Position(ks[m]) >= i
  }

  lemma ConsPlaced(k: Key, rest: seq<Key>, i: nat)
    requires Position(k) == i && PlacedFrom(rest, i + 1)
    ensures PlacedFrom([k] + rest, i)
  {
    var all := [k] + rest;
    forall m | 0 < m < |all| ensures all[m] == rest[m - 1] { }
  }

  /** Each key displayed before the next one. */
  predicate Ascending(ks: seq<Key>)
  {
    |ks| <= 1 || (Position(ks[0]) < Position(ks[1]) && Ascending(ks[1..]))
  }

  /** Keys displayed each before the next are in display order pairwise. */
  lemma {:induction false} AscendingInOrder(ks: seq<Key>)
    requires Ascending(ks)
    ensures InDisplayOrder(ks)
  {
    if |ks| > 1 {
      var tail := ks[1..];
      AscendingInOrder(tail);
      forall m, n | 0 <= m < n < |ks| ensures Position(ks[m]) < Position(ks[n]) {
        assert ks[n] == tail[n - 1];
        if m == 0 {
          if n > 1 {
            assert ks[1] == tail[0];
          }
        } else {
          assert ks[m] == tail[m - 1];
        }
      }
    }
  }

  /** No badge from position `i` on is displayed before `i`. */
  lemma {:induction false} BadgesFromPlaced(f: SearchFilters, i: nat)
    requires i <= 6
    ensures PlacedFrom(BadgesFrom(f, i), i)
    decreases 6 - i
  {
    if i < 6 {
      BadgesFromPlaced(f, i + 1);
      var head := BadgeIf(f, KeyAt(i));
      var rest := BadgesFrom(f, i + 1);
      assert BadgesFrom(f, i) == head + rest;
      if head == [] {
        assert head + rest == rest;
      } else {
        assert head[0] in head;
        assert head == [KeyAt(i)];
        ConsPlaced(KeyAt(i), rest, i);
      }
  }
  }

  /** From position `i` on, each badge is displayed before the next. */
  lemma {:induction false} BadgesFromAscending(f: SearchFilters, i: nat)
    requires i <= 6
    ensures Ascending(BadgesFrom(f, i))
    decreases 6 - i
  {
    if i < 6 {
      BadgesFromAscending(f, i + 1);
      var head := BadgeIf(f, KeyAt(i));
      var rest := BadgesFrom(f, i + 1);
      assert BadgesFrom(f, i) == head + rest;
      if head == [] {
        assert head + rest == rest;
      } else {
        assert head[0] in head;
        assert head == [KeyAt(i)];
        BadgesFromPlaced(f, i + 1);
        var all := [KeyAt(i)] + rest;
        assert all[1..] == rest;
        if rest != [] {
          assert all[1] == rest[0];
        }
      }
    }
  }

  /** At most six badges, one per active key and none for an inactive one,
      in display order and so none twice; none at all exactly when no key is
      active. */
  lemma BadgesSpec(f: SearchFilters)
    ensures |Badges(f)| <= 6
    ensures forall k :: k in Badges(f) <==> FilterActive(f, k)
    ensures forall m, n :: 0 <= m < n < |Badges(f)| ==> Position(Badges(f)[m]) < Position(Badges(f)[n])
    ensures Badges(f) == [] <==> forall k :: !FilterActive(f, k)
  {
    BadgesFromMembers(f, 0);
    BadgesFromAscending(f, 0);
    AscendingInOrder(Badges(f));
    if Badges(f) != [] {
      assert Badges(f)[0] in Badges(f);
    }
  }

  /** The value the remove button of a badge writes into its field. */
  function ClearValue(k: Key): (v: FieldValue)
    ensures KeyOf(v) == k
  {
    match k
    case SearchKey => SearchValue("")
    case StatusKey => StatusValue(AllStatuses)
    case DateRangeKey => DateRangeValue(NoDates)
    case PriceRangeKey => PriceRangeValue(NoPrices)
    case SchoolKey => SchoolValue("")
    case ContactKey => ContactValue("")
  }

  /** Whether a key is active depends on its own field only. */
  lemma ActiveOwnField(f: SearchFilters, g: SearchFilters, k: Key)
    requires Get(f, k) == Get(g, k)
    ensures FilterActive(f, k) == FilterActive(g, k)
  {
  }

  /** Turning one active key off, and nothing else, removes exactly one
      badge from position `i` on when the key's badge sits there. */
  lemma {:induction false} DropOneBadge(f: SearchFilters, g: SearchFilters, k: Key, i: nat)
    requires i <= 6
    requires FilterActive(f, k) && !FilterActive(g, k)
    requires forall j :: j != k ==> FilterActive(g, j) == FilterActive(f, j)
    ensures |BadgesFrom(g, i)| == |BadgesFrom(f, i)| - (if Position(k) >= i then 1 else 0)
    decreases 6 - i
  {
    if i < 6 {
      DropOneBadge(f, g, k, i + 1);
      assert Position(k) == i <==> KeyAt(i) == k;
    }
  }

  /** Removing a badge turns its filter off and leaves every other badge as
      it was; the count drops by one when the filter was active. */
  lemma ClearBadge(f: SearchFilters, k: Key)
    ensures !FilterActive(WithField(f, ClearValue(k)), k)
    ensures forall j :: j != k ==> FilterActive(WithField(f, ClearValue(k)), j) == FilterActive(f, j)
    ensures FilterActive(f, k) ==> |Badges(WithField(f, ClearValue(k)))| == |Badges(f)| - 1
  {
    var g := WithField(f, ClearValue(k));
    forall j | j != k ensures FilterActive(g, j) == FilterActive(f, j) {
      ActiveOwnField(f, g, j);
    }
    if FilterActive(f, k) {
      DropOneBadge(f, g, k, 0);
    }
  }

  /** With the initial or the cleared record no badge is shown. */
  lemma EmptyFiltersInactive()
    ensures forall k :: !FilterActive(EmptyFilters, k)
    ensures Badges(EmptyFilters) == []
  {
    BadgesSpec(EmptyFilters);
  }

  class AdvancedSearchPanel {
    var isOpen: bool
    var filters: SearchFilters

    constructor()
      ensures !isOpen && filters == EmptyFilters
    {
      isOpen := false;
      filters := EmptyFilters;
    }

    /** The filters button: open or close the panel. */
    method Toggle()
      modifies this
      ensures isOpen == !old(isOpen) && filters == old(filters)
    {
      isOpen := !isOpen;
    }

    /** `handleFilterChange`: replace one field; the result is the record
        passed to `onSearch`. */
    method HandleFilterChange(v: FieldValue) returns (searched: SearchFilters)
      modifies this
      ensures filters == WithField(old(filters), v) && searched == filters
      ensures isOpen == old(isOpen)
    {
      match v {
        case SearchValue(s) => filters := filters.(search := s);
        case StatusValue(s) => filters := filters.(status := s);
        case DateRangeValue(d) => filters := filters.(dateRange := d);
        case PriceRangeValue(p) => filters := filters.(priceRange := p);
        case SchoolValue(s) => filters := filters.(school := s);
        case ContactValue(s) => filters := filters.(contact := s);
      }
      searched := filters;
    }

    /** `handleDateRangeChange`: set one end of the date range. */
    method HandleDateRangeChange(which: RangeEnd, value: string) returns (searched: SearchFilters)
      modifies this
      ensures filters == WithField(old(filters), DateRangeValue(WithDate(old(filters).dateRange, which, value)))
      ensures searched == filters && isOpen == old(isOpen)
    {
      var dates := filters.dateRange;
      if which == Lower {
        dates := dates.(start := Some(value));
      } else {
        dates := dates.(end := Some(value));
      }
      filters := filters.(dateRange := dates);
      searched := filters;
    }

    /** `handlePriceRangeChange`: set one bound of the price range. */
    method HandlePriceRangeChange(which: RangeEnd, value: real) returns (searched: SearchFilters)
      modifies this
      ensures filters == WithField(old(filters), PriceRangeValue(WithPrice(old(filters).priceRange, which, value)))
      ensures searched == filters && isOpen == old(isOpen)
    {
      var prices := filters.priceRange;
      if which == Lower {
        prices := prices.(min := Some(value));
      } else {
        prices := prices.(max := Some(value));
      }
      filters := filters.(priceRange := prices);
      searched := filters;
    }

    /** `clearAllFilters`: back to the empty record. */
    method ClearAllFilters()
      modifies this
      ensures filters == EmptyFilters && isOpen == old(isOpen)
    {
      filters := EmptyFilters;
    }

    /** `getActiveFiltersCount`: one for each active key. */
    method ActiveFiltersCount() returns (count: nat)
      ensures count == |Badges(filters)| && count <= 6
    {
      count := 0;
      if filters.search != "" {
        count := count + 1;
      }
      if filters.status != AllStatuses {
        count := count + 1;
      }
      assert count == |Badges(filters)| - |BadgesFrom(filters, 2)|;
      if DateSet(filters.dateRange.start) || DateSet(filters.dateRange.end) {
        count := count + 1;
      }
      if PriceSet(filters.priceRange.min) || PriceSet(filters.priceRange.max) {
        count := count + 1;
      }
      assert count == |Badges(filters)| - |BadgesFrom(filters, 4)|;
      if filters.school != "" {
        count := count + 1;
      }
      if filters.contact != "" {
        count := count + 1;
      }
      assert count == |Badges(filters)| - |BadgesFrom(filters, 6)|;
      BadgesSpec(filters);
    }
  }

  /** After clearing all filters the count is zero. */
  lemma ClearedCountIsZero()
    ensures |Badges(EmptyFilters)| == 0
  {
    EmptyFiltersInactive();
  }
}

=== FILE: AnalyticsCharts.dfy ===
/** The analytics panel of the dashboard (AnalyticsCharts.tsx): the
    `reduce` folds that tally events per status, per school and per month,
    the five schools with most events, the total commission revenue and the
    average event size. A tally is the dictionary the fold builds, kept as
    its `Object.entries` list: one entry per key, in the order the keys
    were first met. The month of an event is `monthOf(startDate)`, standing
    for the `pt-BR` short month-and-year label of its start date. */
module AnalyticsCharts {
  import opened Seqs
  import opened Domain

  // ----- tallies -----

  /** One `[key, count]` pair of a tally. */
  datatype Entry<K> = Entry(key: K, count: nat)

  predicate DistinctKeys<K(==)>(t: seq<Entry<K>>)
  {
    forall i, j :: 0 <= i < j < |t| ==> t[i].key != t[j].key
  }

  /** How many elements of `xs` have key `k`. */
  function Occurrences<T, K(==)>(xs: seq<T>, key: T -> K, k: K): nat
  {
    if xs == [] then 0 else (if key(xs[0]) == k then 1 else 0) + Occurrences(xs[1..], key, k)
  }

  lemma {:induction false} OccurrencesSnoc<T, K>(xs: seq<T>, y: T, key: T -> K, k: K)
    ensures Occurrences(xs + [y], key, k) == Occurrences(xs, key, k) + (if key(y) == k then 1 else 0)
  {
    if xs != [] {
      assert (xs + [y])[1..] == xs[1..] + [y];
      OccurrencesSnoc(xs[1..], y, key, k);
    }
  }

  /** An element's key occurs at least once. */
  lemma {:induction false} OccurrencesOfMember<T, K>(xs: seq<T>, key: T -> K, x: T)
    requires x in xs
    ensures Occurrences(xs, key, key(x)) >= 1
  {
    if xs[0] != x {
      OccurrencesOfMember(xs[1..], key, x);
    }
  }

  /** One step of the fold: `acc[k] = (acc[k] || 0) + 1`. */
  function Bump<K(==)>(t: seq<Entry<K>>, k: K): seq<Entry<K>>
  {
    match FindIndex(t, (e: Entry<K>) => e.key == k)
    case Some(i) => t[i := Entry(k, t[i].count + 1)]
    case None => t + [Entry(k, 1)]
  }

  /** `xs.reduce((acc, x) => { acc[key(x)] = (acc[key(x)] || 0) + 1 }, {})`. */
  function Tally<T, K(==)>(xs: seq<T>, key: T -> K): seq<Entry<K>>
    decreases |xs|
  {
    if xs == [] then [] else Bump(Tally(xs[..|xs| - 1], key), key(xs[|xs| - 1]))
  }

  function CountOf<K>(e: Entry<K>): int
  {
    e.count
  }

  /** One bump adds one to the count of its key, a new key entering with
      count 1 at the end, and leaves every other entry alone. */
  lemma BumpSpec<K>(t: seq<Entry<K>>, k: K)
    ensures (exists i :: 0 <= i < |t| && t[i].key == k) ==> |Bump(t, k)| == |t|
    ensures (forall i :: 0 <= i < |t| ==> t[i].key != k) ==> Bump(t, k) == t + [Entry(k, 1)]
    ensures forall i :: 0 <= i < |t| ==>
              Bump(t, k)[i] == (if t[i].key == k && (forall j :: 0 <= j < i ==> t[j].key != k)
                                then Entry(k, t[i].count + 1) else t[i])
  {
  }

  /** So the counts of a bumped tally add up to one more. */
  lemma BumpSum<K>(t: seq<Entry<K>>, k: K)
    ensures SumInt(Bump(t, k), CountOf) == SumInt(t, CountOf) + 1
  {
    match FindIndex(t, (e: Entry<K>) => e.key == k)
    case Some(i) =>
      SumIntUpdate(t, i, Entry(k, t[i].count + 1), CountOf);
    case None =>
      SumIntAppend(t, [Entry(k, 1)], CountOf);
      assert SumInt([Entry(k, 1)], CountOf) == 1;
  }

  /** Bumping keeps the keys distinct. */
  lemma BumpDistinct<K>(t: seq<Entry<K>>, k: K)
    requires DistinctKeys(t)
    ensures DistinctKeys(Bump(t, k))
  {
  }

  /** The counts of a tally add up to the number of elements. */
  lemma {:induction false} TallySum<T, K>(xs: seq<T>, key: T -> K)
    ensures SumInt(Tally(xs, key), CountOf) == |xs|
    decreases |xs|
  {
    if xs != [] {
      TallySum(xs[..|xs| - 1], key);
      BumpSum(Tally(xs[..|xs| - 1], key), key(xs[|xs| - 1]));
    }
  }

  /** A tally holds each key once. */
  lemma {:induction false} TallyDistinct<T, K>(xs: seq<T>, key: T -> K)
    ensures DistinctKeys(Tally(xs, key))
    decreases |xs|
  {
    if xs != [] {
      TallyDistinct(xs[..|xs| - 1], key);
      BumpDistinct(Tally(xs[..|xs| - 1], key), key(xs[|xs| - 1]));
    }
  }

  /** The count a tally holds for `k`, 0 when it has no entry for `k`. */
  function CountFor<K(==)>(t: seq<Entry<K>>, k: K): nat
  {
    match FindIndex(t, (e: Entry<K>) => e.key == k)
    case Some(i) => t[i].count
    case None => 0
  }

  /** Bumping `y` adds one to the count for `y` and nothing to any other. */
  lemma CountForBump<K>(t: seq<Entry<K>>, y: K, k: K)
    ensures CountFor(Bump(t, y), k) == CountFor(t, k) + (if k == y then 1 else 0)
  {
    var r := Bump(t, y);
    var hit := (e: Entry<K>) => e.key == k;
    match FindIndex(t, (e: Entry<K>) => e.key == y)
    case Some(i) =>
      FindIndexAgree(r, hit, t, hit);
    case None =>
      FindIndexSnoc(t, Entry(y, 1), hit);
  }

  /** For every key, the tally's count is the number of elements with it. */
  lemma {:induction false} TallyCountFor<T, K>(xs: seq<T>, key: T -> K, k: K)
    ensures CountFor(Tally(xs, key), k) == Occurrences(xs, key, k)
    decreases |xs|
  {
    if xs != [] {
      var init := xs[..|xs| - 1];
      var y := xs[|xs| - 1];
      assert xs == init + [y];
      TallyCountFor(init, key, k);
      CountForBump(Tally(init, key), key(y), k);
      OccurrencesSnoc(init, y, key, k);
    }
  }

  /** Every entry of a tally has a positive count. */
  lemma {:induction false} TallyPositive<T, K>(xs: seq<T>, key: T -> K)
    ensures forall i :: 0 <= i < |Tally(xs, key)| ==> Tally(xs, key)[i].count >= 1
    decreases |xs|
  {
    if xs != [] {
      TallyPositive(xs[..|xs| - 1], key);
      BumpSpec(Tally(xs[..|xs| - 1], key), key(xs[|xs| - 1]));
    }
  }

  /** Every count is the number of elements with that key, so at least one. */
  lemma TallyCounts<T, K>(xs: seq<T>, key: T -> K)
    ensures forall i :: 0 <= i < |Tally(xs, key)| ==>
              Tally(xs, key)[i].count == Occurrences(xs, key, Tally(xs, key)[i].key) >= 1
  {
    var t := Tally(xs, key);
    TallyDistinct(xs, key);
    TallyPositive(xs, key);
    forall i | 0 <= i < |t| ensures t[i].count == Occurrences(xs, key, t[i].key) {
      TallyCountFor(xs, key, t[i].key);
    }
  }

  /** Every element's key has an entry. */
  lemma TallyCovers<T, K>(xs: seq<T>, key: T -> K)
    ensures forall x :: x in xs ==> exists i :: 0 <= i < |Tally(xs, key)| && Tally(xs, key)[i].key == key(x)
  {
    var t := Tally(xs, key);
    forall x | x in xs ensures exists i :: 0 <= i < |t| && t[i].key == key(x) {
      TallyCountFor(xs, key, key(x));
      OccurrencesOfMember(xs, key, x);
    }
  }

  /** The tally holds one entry per distinct key of `xs`, each with the
      number of elements having that key (so at least one), and the counts
      add up to the number of elements. */
  lemma TallySpec<T, K>(xs: seq<T>, key: T -> K)
    ensures DistinctKeys(Tally(xs, key))
    ensures forall i :: 0 <= i < |Tally(xs, key)| ==>
              Tally(xs, key)[i].count == Occurrences(xs, key, Tally(xs, key)[i].key) >= 1
    ensures forall x :: x in xs ==> exists i :: 0 <= i < |Tally(xs, key)| && Tally(xs, key)[i].key == key(x)
    ensures SumInt(Tally(xs, key), CountOf) == |xs|
  {
    TallyDistinct(xs, key);
    TallyCounts(xs, key);
    TallyCovers(xs, key);
    TallySum(xs, key);
  }

  // ----- status and school charts -----

  function StatusOf(e: Event): EventStatus
  {
    e.status
  }

  function SchoolOf(e: Event): string
  {
    e.school
  }

  /** `statusData`: events per status. */
  function StatusData(evs: seq<Event>): seq<Entry<EventStatus>>
  {
    Tally(evs, StatusOf)
  }

  /** `schoolData`: events per school name. */
  function SchoolData(evs: seq<Event>): seq<Entry<string>>
  {
    Tally(evs, SchoolOf)
  }

  /** A row of the status chart; the percentage is exact, before
      `toFixed(1)`. */
  datatype StatusRow = StatusRow(status: EventStatus, count: nat, percentage: real)

  function StatusRows(t: seq<Entry<EventStatus>>, total: nat): (r: seq<StatusRow>)
    requires total > 0 || t == []
    ensures |r| == |t|
    ensures forall i :: 0 <= i < |t| ==> r[i].status == t[i].key && r[i].count == t[i].count
  {
    if t == [] then []
    else [StatusRow(t[0].key, t[0].count, (t[0].count as real / total as real) * 100.0)] + StatusRows(t[1..], total)
  }

  function PercentageOf(r: StatusRow): real
  {
    r.percentage
  }

  lemma {:induction false} StatusRowsPercentages(t: seq<Entry<EventStatus>>, total: nat)
    requires total > 0
    ensures SumReal(StatusRows(t, total), PercentageOf) * (total as real) == (SumInt(t, CountOf) as real) * 100.0
  {
    if t != [] {
      StatusRowsPercentages(t[1..], total);
      var n := total as real;
      var c := t[0].count as real;
      var rest := SumReal(StatusRows(t[1..], total), PercentageOf);
      calc {
        SumReal(StatusRows(t, total), PercentageOf) * n;
        ((c / n) * 100.0 + rest) * n;
        (c / n) * n * 100.0 + rest * n;
        { assert (c / n) * n == c; }
        c * 100.0 + (SumInt(t[1..], CountOf) as real) * 100.0;
      }
    }
  }


  lemma CancelFactor(a: real, b: real, n: real)
    requires n > 0.0 && a * n == b * n
    ensures a == b
  {
    assert (a - b) * n == 0.0;
  }

  /** The percentages of the status chart add up to 100. */
  lemma StatusPercentagesSum(evs: seq<Event>)
    requires evs != []
    ensures SumReal(StatusRows(StatusData(evs), |evs|), PercentageOf) == 100.0
  {
    TallySum(evs, StatusOf);
    RowsOfFullTally(StatusData(evs), |evs|);
  }

  /** Rows over counts that add up to the total have percentages adding up
      to 100. */
  lemma RowsOfFullTally(t: seq<Entry<EventStatus>>, total: nat)
    requires total > 0 && SumInt(t, CountOf) == total
    ensures SumReal(StatusRows(t, total), PercentageOf) == 100.0
  {
    StatusRowsPercentages(t, total);
    PercentagesTotal(SumReal(StatusRows(t, total), PercentageOf), SumInt(t, CountOf), total);
  }

  lemma PercentagesTotal(total: real, c: int, n: nat)
    requires n > 0 && c == n
    requires total * (n as real) == (c as real) * 100.0
    ensures total == 100.0
  {
    CancelFactor(total, 100.0, n as real);
  }

  /** `analyticsData.status`: one row per status that occurs, at least one
      event each, the counts adding up to the number of events and the
      percentages to 100. */
  lemma StatusChartSpec(evs: seq<Event>)
    ensures var rows := StatusRows(StatusData(evs), |evs|);
            |rows| <= |evs| &&
            (forall i :: 0 <= i < |rows| ==>
               rows[i].count >= 1 && rows[i].count == Occurrences(evs, StatusOf, rows[i].status)) &&
            (forall i, j :: 0 <= i < j < |rows| ==> rows[i].status != rows[j].status) &&
            (evs == [] ==> rows == []) &&
            (evs != [] ==> SumReal(rows, PercentageOf) == 100.0)
  {
    TallyCounts(evs, StatusOf);
    TallyDistinct(evs, StatusOf);
    TallyNoLonger(evs, StatusOf);
    if evs != [] {
      StatusPercentagesSum(evs);
    }
  }

  /** A tally has no more entries than elements. */
  lemma TallyNoLonger<T, K>(xs: seq<T>, key: T -> K)
    ensures |Tally(xs, key)| <= |xs|
  {
    TallySpec(xs, key);
    var t := Tally(xs, key);
    OnesBelowSum(t);
  }

  lemma {:induction false} OnesBelowSum<K>(t: seq<Entry<K>>)
    requires forall i :: 0 <= i < |t| ==> t[i].count >= 1
    ensures |t| <= SumInt(t, CountOf)
  {
    if t != [] {
      OnesBelowSum(t[1..]);
    }
  }

  /** `schoolData` has one entry per school, counts summing to the number of
      events. */
  lemma SchoolDataSpec(evs: seq<Event>)
    ensures DistinctKeys(SchoolData(evs))
    ensures forall i :: 0 <= i < |SchoolData(evs)| ==>
              SchoolData(evs)[i].count == Occurrences(evs, SchoolOf, SchoolData(evs)[i].key) >= 1
    ensures forall e :: e in evs ==> exists i :: 0 <= i < |SchoolData(evs)| && SchoolData(evs)[i].key == e.school
    ensures SumInt(SchoolData(evs), CountOf) == |evs|
  {
    TallySpec(evs, SchoolOf);
  }

  // ----- top schools -----

  predicate NonIncreasing<K>(s: seq<Entry<K>>)
  {
    forall i, j :: 0 <= i < j < |s| ==> s[i].count >= s[j].count
  }

  /** Place `x` after every entry whose count is at least its own. */
  function InsertByCount<K>(s: seq<Entry<K>>, x: Entry<K>): seq<Entry<K>>
  {
    if s == [] then [x]
    else if s[0].count >= x.count then [s[0]] + InsertByCount(s[1..], x)
    else [x] + s
  }

  /** Inserting adds `x` to the entries. */
  lemma {:induction false} InsertByCountPerm<K>(s: seq<Entry<K>>, x: Entry<K>)
    ensures multiset(InsertByCount(s, x)) == multiset(s) + multiset{x}
  {
    if s != [] && s[0].count >= x.count {
      InsertByCountPerm(s[1..], x);
      assert s == [s[0]] + s[1..];
    }
  }

  /** Inserting keeps the entries in non-increasing count order. */
  lemma {:induction false} InsertByCountSorted<K>(s: seq<Entry<K>>, x: Entry<K>)
    requires NonIncreasing(s)
    ensures NonIncreasing(InsertByCount(s, x))
  {
    if s != [] && s[0].count >= x.count {
      var rest := InsertByCount(s[1..], x);
      InsertByCountSorted(s[1..], x);
      InsertByCountPerm(s[1..], x);
      var r := [s[0]] + rest;
      forall j | 0 < j < |r| ensures r[0].count >= r[j].count {
        assert r[j] == rest[j - 1];
        assert rest[j - 1] in multiset(rest);
        if rest[j - 1] != x {
          assert rest[j - 1] in multiset(s[1..]);
          var m :| 0 <= m < |s[1..]| && s[1..][m] == rest[j - 1];
          assert s[m + 1] == rest[j - 1];
        }
      }
    }
  }

  /** `.sort((a, b) => b.count - a.count)`: `Array.prototype.sort` is
      stable, so entries with equal counts keep their tally order, which an
      insertion that goes after equal counts reproduces. */
  function SortByCount<K>(t: seq<Entry<K>>): seq<Entry<K>>
    decreases |t|
  {
    if t == [] then [] else InsertByCount(SortByCount(t[..|t| - 1]), t[|t| - 1])
  }

  /** Sorting permutes the entries into non-increasing count order. */
  lemma {:induction false} SortByCountSpec<K>(t: seq<Entry<K>>)
    ensures multiset(SortByCount(t)) == multiset(t)
    ensures NonIncreasing(SortByCount(t))
    decreases |t|
  {
    if t != [] {
      assert t == t[..|t| - 1] + [t[|t| - 1]];
      SortByCountSpec(t[..|t| - 1]);
      InsertByCountPerm(SortByCount(t[..|t| - 1]), t[|t| - 1]);
      InsertByCountSorted(SortByCount(t[..|t| - 1]), t[|t| - 1]);
    }
  }

  /** `analyticsData.schools`: the first five of the sorted tally. */
  function TopSchools(evs: seq<Event>): seq<Entry<string>>
  {
    var sorted := SortByCount(SchoolData(evs));
    if |sorted| <= 5 then sorted else sorted[..5]
  }

  /** At most five entries, five whenever there are five schools, each an
      entry of the tally. */
  lemma TopSchoolsSpec(evs: seq<Event>)
    ensures |TopSchools(evs)| <= 5
    ensures |SchoolData(evs)| >= 5 ==> |TopSchools(evs)| == 5
    ensures |SchoolData(evs)| < 5 ==> |TopSchools(evs)| == |SchoolData(evs)|
    ensures forall e :: e in TopSchools(evs) ==> e in SchoolData(evs)
  {
    var t := SchoolData(evs);
    var sorted := SortByCount(t);
    SortByCountSpec(t);
    assert |sorted| == |t| by {
      assert |multiset(sorted)| == |multiset(t)|;
    }
    forall e | e in TopSchools(evs) ensures e in t {
      assert e in multiset(sorted);
    }
  }

  /** The five are in non-increasing count order, and every school left out
      has no more events than the last one shown. */
  lemma TopSchoolsRanked(evs: seq<Event>)
    ensures NonIncreasing(TopSchools(evs))
    ensures forall e :: e in SchoolData(evs) && e !in TopSchools(evs) ==>
              e.count <= TopSchools(evs)[|TopSchools(evs)| - 1].count
  {
    var t := SchoolData(evs);
    var sorted := SortByCount(t);
    var top := TopSchools(evs);
    SortByCountSpec(t);
    forall e | e in t && e !in top ensures e.count <= top[|top| - 1].count {
      assert e in multiset(sorted);
      var k :| 0 <= k < |sorted| && sorted[k] == e;
      assert k >= |top|;
    }
  }

  // ----- revenue and size -----

  /** `participantsCount * photoPrice * (commission / 100)`. */
  function Revenue(e: Event): real
  {
    (e.participantsCount as real) * e.photoPrice * (e.commission / 100.0)
  }

  /** `totalRevenue`. */
  function TotalRevenue(evs: seq<Event>): real
  {
    SumReal(evs, Revenue)
  }

  function ParticipantsOf(e: Event): int
  {
    e.participantsCount
  }

  /** `averageEventSize`, before `toFixed(0)`: 0 with no events, otherwise
      the value that, times the number of events, gives the total number of
      participants. */
  function AverageEventSize(evs: seq<Event>): (avg: real)
    ensures evs == [] ==> avg == 0.0
    ensures evs != [] ==> avg * (|evs| as real) == SumInt(evs, ParticipantsOf) as real
  {
    if |evs| > 0 then (SumInt(evs, ParticipantsOf) as real) / (|evs| as real) else 0.0
  }

  // ----- monthly chart -----

  datatype MonthTotals = MonthTotals(month: string, events: nat, participants: int, revenue: real)

  /** One step of the monthly fold for an event in `month`. */
  function AddToMonth(acc: seq<MonthTotals>, e: Event, month: string): seq<MonthTotals>
  {
    match FindIndex(acc, (m: MonthTotals) => m.month == month)
    case Some(i) =>
      acc[i := acc[i].(events := acc[i].events + 1,
                       participants := acc[i].participants + e.participantsCount,
                       revenue := acc[i].revenue + Revenue(e))]
    case None => acc + [MonthTotals(month, 1, e.participantsCount, Revenue(e))]
  }

  /** `monthlyData`, as the list `Object.entries` gives. */
  function Monthly(evs: seq<Event>, monthOf: string -> string): seq<MonthTotals>
    decreases |evs|
  {
    if evs == [] then []
    else AddToMonth(Monthly(evs[..|evs| - 1], monthOf), evs[|evs| - 1], monthOf(evs[|evs| - 1].startDate))
  }

  function MonthParticipants(m: MonthTotals): int
  {
    m.participants
  }

  function MonthRevenue(m: MonthTotals): real
  {
    m.revenue
  }

  /** The month label of an event. */
  function MonthKey(monthOf: string -> string): Event -> string
  {
    (e: Event) => monthOf(e.startDate)
  }

  /** The months and their event counts are the tally of the events by
      month, entry for entry. */
  lemma {:induction false} MonthlyMatchesTally(evs: seq<Event>, monthOf: string -> string)
    ensures var m := Monthly(evs, monthOf);
            var t := Tally(evs, MonthKey(monthOf));
            |m| == |t| && forall i :: 0 <= i < |m| ==> m[i].month == t[i].key && m[i].events == t[i].count
    decreases |evs|
  {
    if evs != [] {
      var key := MonthKey(monthOf);
      var init := evs[..|evs| - 1];
      var e := evs[|evs| - 1];
      MonthlyMatchesTally(init, monthOf);
      assert key(e) == monthOf(e.startDate);
      AddToMonthMatchesBump(Monthly(init, monthOf), Tally(init, key), e, key(e));
    }
  }

  /** Adding an event to matching month rows and tally keeps them matching. */
  lemma AddToMonthMatchesBump(m: seq<MonthTotals>, t: seq<Entry<string>>, e: Event, month: string)
    requires |m| == |t| && forall i :: 0 <= i < |m| ==> m[i].month == t[i].key && m[i].events == t[i].count
    ensures var m' := AddToMonth(m, e, month);
            var t' := Bump(t, month);
            |m'| == |t'| && forall i :: 0 <= i < |m'| ==> m'[i].month == t'[i].key && m'[i].events == t'[i].count
  {
    FindIndexAgree(m, (x: MonthTotals) => x.month == month, t, (x: Entry<string>) => x.key == month);
  }

  /** Each step adds the event to the monthly sums. */
  lemma AddToMonthSums(acc: seq<MonthTotals>, e: Event, month: string)
    ensures SumInt(AddToMonth(acc, e, month), MonthParticipants) == SumInt(acc, MonthParticipants) + e.participantsCount
    ensures SumReal(AddToMonth(acc, e, month), MonthRevenue) == SumReal(acc, MonthRevenue) + Revenue(e)
  {
    match FindIndex(acc, (m: MonthTotals) => m.month == month)
    case Some(i) =>
      var m := acc[i].(events := acc[i].events + 1,
                       participants := acc[i].participants + e.participantsCount,
                       revenue := acc[i].revenue + Revenue(e));
      SumIntUpdate(acc, i, m, MonthParticipants);
      SumRealUpdate(acc, i, m, MonthRevenue);
    case None =>
      var m := MonthTotals(month, 1, e.participantsCount, Revenue(e));
      SumIntAppend(acc, [m], MonthParticipants);
      SumRealAppend(acc, [m], MonthRevenue);
      assert SumInt([m], MonthParticipants) == e.participantsCount;
      assert SumReal([m], MonthRevenue) == Revenue(e);
  }

  /** The monthly participants add up to all participants, and the monthly
      revenue to the total revenue. */
  lemma {:induction false} MonthlySums(evs: seq<Event>, monthOf: string -> string)
    ensures SumInt(Monthly(evs, monthOf), MonthParticipants) == SumInt(evs, ParticipantsOf)
    ensures SumReal(Monthly(evs, monthOf), MonthRevenue) == TotalRevenue(evs)
    decreases |evs|
  {
    if evs != [] {
      var init := evs[..|evs| - 1];
      var e := evs[|evs| - 1];
      assert evs == init + [e];
      MonthlySums(init, monthOf);
      AddToMonthSums(Monthly(init, monthOf), e, monthOf(e.startDate));
      SumIntAppend(init, [e], ParticipantsOf);
      SumRealAppend(init, [e], Revenue);
    }
  }

  function MonthEvents(m: MonthTotals): int
  {
    m.events
  }

  /** `analyticsData.monthly`: one row per month, each counting the events
      in that month; the counts add up to the number of events, and the
      participants and revenue to their totals. */
  lemma MonthlySpec(evs: seq<Event>, monthOf: string -> string)
    ensures var m := Monthly(evs, monthOf);
            (forall i, j :: 0 <= i < j < |m| ==> m[i].month != m[j].month) &&
            (forall i :: 0 <= i < |m| ==>
               m[i].events == Occurrences(evs, MonthKey(monthOf), m[i].month) >= 1) &&
            SumInt(m, MonthEvents) == |evs| &&
            SumInt(m, MonthParticipants) == SumInt(evs, ParticipantsOf) &&
            SumReal(m, MonthRevenue) == TotalRevenue(evs)
  {
    var key := MonthKey(monthOf);
    var m := Monthly(evs, monthOf);
    var t := Tally(evs, key);
    MonthlyMatchesTally(evs, monthOf);
    TallyDistinct(evs, key);
    TallyCounts(evs, key);
    TallySum(evs, key);
    MonthlySums(evs, monthOf);
    SameCounts(m, t);
  }

  lemma {:induction false} SameCounts(m: seq<MonthTotals>, t: seq<Entry<string>>)
    requires |m| == |t| && forall i :: 0 <= i < |m| ==> m[i].events == t[i].count
    ensures SumInt(m, MonthEvents) == SumInt(t, CountOf)
  {
    if m != [] {
      SameCounts(m[1..], t[1..]);
    }
  }
}

=== FILE: BatchPhotoUpload.dfy ===
/** Batch photo upload (BatchPhotoUpload.tsx, `processPhotos`): every file is
    checked for JPEG, its name searched for a participant code and the code
    looked up in the roster; the photos of successful files are grouped per
    participant and handed to the store once per participant. The upload
    itself, `Date.now()` and the file list object are abstracted: a file is its
    name and MIME type, and the clock readings are parameters. */
module BatchPhotoUpload {
  import opened Seqs
  import opened Text
  import opened Domain
  import opened FileNameCode
  import opened EventsStore

  datatype UploadFile = UploadFile(name: string, mimeType: string)

  /** `file.type.includes('image/jpeg') || file.name.toLowerCase().endsWith('.jpg')`. */
  predicate IsJpeg(f: UploadFile)
  {
    Contains(f.mimeType, "image/jpeg") || EndsWith(ToLower(f.name), ".jpg")
  }

  /** `PhotoProcessingResult`. */
  datatype Outcome = Outcome(
    fileName: string,
    qrCode: Option<string>,
    participant: Option<Participant>,
    error: Option<string>,
    success: bool)

  const NotJpegError: string := "Arquivo não é uma imagem JPG"
  const NoCodeError: string := "QR Code não encontrado no nome do arquivo"

  function UnknownCodeError(code: string): string
  {
    "Participante com QR Code " + code + " não encontrado"
  }

  /** `findParticipantByQRCode`: the first roster entry holding the code. */
  function FindByCode(roster: seq<Participant>, code: string): (r: Option<Participant>)
    ensures r.Some? ==> exists k :: 0 <= k < |roster| && roster[k] == r.value && r.value.qrCode == code &&
                                    forall j :: 0 <= j < k ==> roster[j].qrCode != code
    ensures r.None? <==> !CodeInUse(roster, code)
  {
    var r := Find(roster, (p: Participant) => p.qrCode == code);
    assert r.None? ==> !CodeInUse(roster, code) by {
      if r.None? {
        forall i | 0 <= i < |roster| ensures roster[i].qrCode != code {
          assert roster[i] in roster;
        }
      }
    }
    r
  }

  /** What one iteration of the loop records for one file. */
  function Classify(roster: seq<Participant>, f: UploadFile): (r: Outcome)
  {
    if !IsJpeg(f) then Outcome(f.name, None, None, Some(NotJpegError), false)
    else match ExtractCode(f.name)
      case None => Outcome(f.name, None, None, Some(NoCodeError), false)
      case Some(code) =>
        match FindByCode(roster, code)
        case None => Outcome(f.name, Some(code), None, Some(UnknownCodeError(code)), false)
        case Some(p) => Outcome(f.name, Some(code), Some(p), None, true)
  }

  /** The four cases of a file, and what each records. */
  lemma ClassifyCases(roster: seq<Participant>, f: UploadFile)
    ensures Classify(roster, f).fileName == f.name
    ensures Classify(roster, f).success <==>
              IsJpeg(f) && ExtractCode(f.name).Some? && CodeInUse(roster, ExtractCode(f.name).value)
    ensures Classify(roster, f).success <==> Classify(roster, f).error.None?
    ensures !IsJpeg(f) ==> Classify(roster, f) == Outcome(f.name, None, None, Some(NotJpegError), false)
    ensures IsJpeg(f) && ExtractCode(f.name).None? ==>
              Classify(roster, f) == Outcome(f.name, None, None, Some(NoCodeError), false)
    ensures IsJpeg(f) && ExtractCode(f.name).Some? ==> Classify(roster, f).qrCode == ExtractCode(f.name)
    ensures Classify(roster, f).participant.Some? <==> Classify(roster, f).success
    ensures Classify(roster, f).success ==>
              Classify(roster, f).participant == FindByCode(roster, Classify(roster, f).qrCode.value)
  {
  }

  /** The JPEG test accepts a ".jpg" name in any letter case, whatever the type. */
  lemma JpegByName()
    ensures IsJpeg(UploadFile("FOTO.JPG", ""))
  {
    var name := "FOTO.JPG";
    var low := ToLower(name);
    assert low[4..] == [LowerChar(name[4]), LowerChar(name[5]), LowerChar(name[6]), LowerChar(name[7])];
  }

  /** A ".jpeg" name is not accepted without the JPEG MIME type... */
  lemma JpegSuffixWithoutType()
    ensures !IsJpeg(UploadFile("foto.jpeg", "image/png"))
  {
    var name := "foto.jpeg";
    var low := ToLower(name);
    assert low[5] == LowerChar(name[5]);
  }

  /** ... and is accepted with it. */
  lemma JpegSuffixWithType()
    ensures IsJpeg(UploadFile("foto.jpeg", "image/jpeg"))
  {
    assert OccursAt("image/jpeg", "image/jpeg", 0);
  }

  /** The simulated photo location: lowercased name with whitespace runs
      replaced by '_', the clock reading and the file's index. */
  function PhotoUrl(p: Participant, stamp: string, i: nat): string
  {
    "/photos/" + ReplaceWhitespaceRuns(ToLower(p.name), '_') + "_" + stamp + "_" + NatToString(i) + ".jpg"
  }

  /** One successful file: whose it is and where its photo went. */
  datatype Upload = Upload(participantId: string, url: string)

  /** An entry of `successfulAssociations`. */
  datatype Association = Association(participantId: string, photos: seq<string>)

  /** The successful uploads among the first `n` files, in file order. */
  function Uploads(roster: seq<Participant>, files: seq<UploadFile>, stamps: seq<string>, n: nat): (r: seq<Upload>)
    requires n <= |files| && |stamps| == |files|
    ensures |r| <= n
  {
    if n == 0 then []
    else
      var prev := Uploads(roster, files, stamps, n - 1);
      var o := Classify(roster, files[n - 1]);
      if o.success && o.participant.Some? then
        prev + [Upload(o.participant.value.id, PhotoUrl(o.participant.value, stamps[n - 1], n - 1))]
      else prev
  }

  /** Record one upload: append to the participant's association, or start one. */
  function AddToGroups(gs: seq<Association>, u: Upload): (r: seq<Association>)
  {
    match FindIndex(gs, (a: Association) => a.participantId == u.participantId)
    case None => gs + [Association(u.participantId, [u.url])]
    case Some(k) => gs[k := gs[k].(photos := gs[k].photos + [u.url])]
  }

  /** The associations built from a sequence of uploads. */
  function Groups(ups: seq<Upload>): seq<Association>
  {
    if ups == [] then [] else AddToGroups(Groups(ups[..|ups| - 1]), ups[|ups| - 1])
  }

  /** Applying the associations in order, one `addPhotosToParticipant` each. */
  function ApplyGroups(ps: seq<Participant>, gs: seq<Association>): (r: seq<Participant>)
    ensures |r| == |ps|
  {
    if gs == [] then ps
    else
      var g := gs[|gs| - 1];
      AttachPhotos(ApplyGroups(ps, gs[..|gs| - 1]), g.participantId, g.photos)
  }

  function SuccessCount(os: seq<Outcome>): (n: nat)
    ensures n <= |os|
  {
    if os == [] then 0 else SuccessCount(os[..|os| - 1]) + (if os[|os| - 1].success then 1 else 0)
  }

  /** `errorCount`: the results whose `success` is false. */
  function ErrorCount(os: seq<Outcome>): (n: nat)
    ensures n <= |os|
  {
    if os == [] then 0 else ErrorCount(os[..|os| - 1]) + (if os[|os| - 1].success then 0 else 1)
  }

  /** Every result is counted once, as a success or as an error, and there
      are no errors exactly when every file succeeded. */
  lemma {:induction false} SuccessesAndErrors(os: seq<Outcome>)
    ensures SuccessCount(os) + ErrorCount(os) == |os|
    ensures ErrorCount(os) == 0 <==> forall i :: 0 <= i < |os| ==> os[i].success
    ensures SuccessCount(os) == 0 <==> forall i :: 0 <= i < |os| ==> !os[i].success
  {
    if os != [] {
      var init := os[..|os| - 1];
      SuccessesAndErrors(init);
      assert forall i :: 0 <= i < |init| ==> init[i] == os[i];
    }
  }

  /** The associations after file `i`, whose result is `o`. */
  function GroupsAfter(groups: seq<Association>, o: Outcome, stamp: string, i: nat): seq<Association>
  {
    if o.success && o.participant.Some? then
      AddToGroups(groups, Upload(o.participant.value.id, PhotoUrl(o.participant.value, stamp, i)))
    else groups
  }

  /** One iteration of the file loop of `processPhotos`: the result recorded
      for file `i`, and the associations after it. */
  method ProcessFile(roster: seq<Participant>, f: UploadFile, stamp: string, i: nat, groups: seq<Association>)
    returns (o: Outcome, groups': seq<Association>)
    ensures o == Classify(roster, f)
    ensures groups' == GroupsAfter(groups, o, stamp, i)
  {
    groups' := groups;
    if !IsJpeg(f) {
      o := Outcome(f.name, None, None, Some(NotJpegError), false);
    } else {
      var code := ExtractCode(f.name);
      if code.None? {
        o := Outcome(f.name, None, None, Some(NoCodeError), false);
      } else {
        var p := FindByCode(roster, code.value);
        if p.None? {
          o := Outcome(f.name, code, None, Some(UnknownCodeError(code.value)), false);
        } else {
          var url := PhotoUrl(p.value, stamp, i);
          var existing := FindIndex(groups, (a: Association) => a.participantId == p.value.id);
          if existing.Some? {
            var k := existing.value;
            groups' := groups[k := groups[k].(photos := groups[k].photos + [url])];
          } else {
            groups' := groups + [Association(p.value.id, [url])];
          }
          o := Outcome(f.name, code, p, None, true);
        }
      }
    }
  }

  /** The associations after file `i` follow from those before it. */
  lemma GroupsStep(roster: seq<Participant>, files: seq<UploadFile>, stamps: seq<string>, i: nat)
    requires i < |files| && |stamps| == |files|
    ensures Groups(Uploads(roster, files, stamps, i + 1)) ==
              GroupsAfter(Groups(Uploads(roster, files, stamps, i)), Classify(roster, files[i]), stamps[i], i)
  {
    var ups := Uploads(roster, files, stamps, i + 1);
    if |ups| > |Uploads(roster, files, stamps, i)| {
      assert ups[..|ups| - 1] == Uploads(roster, files, stamps, i);
    }
  }

  /** The results of the first `n` files, in file order. */
  function ClassifyAll(roster: seq<Participant>, files: seq<UploadFile>, n: nat): (r: seq<Outcome>)
    requires n <= |files|
    ensures |r| == n
  {
    if n == 0 then [] else ClassifyAll(roster, files, n - 1) + [Classify(roster, files[n - 1])]
  }

  /** The `j`th result is the classification of the `j`th file. */
  lemma {:induction false} ClassifyAllSpec(roster: seq<Participant>, files: seq<UploadFile>, n: nat)
    requires n <= |files|
    ensures forall j :: 0 <= j < n ==> ClassifyAll(roster, files, n)[j] == Classify(roster, files[j])
  {
    if n > 0 {
      ClassifyAllSpec(roster, files, n - 1);
    }
  }

  /** `processPhotos`: classify every file, group the successes, then apply
      each group to the store. */
  method ProcessPhotos(store: Store, roster: seq<Participant>, files: seq<UploadFile>, stamps: seq<string>)
    returns (results: seq<Outcome>)
    requires |stamps| == |files|
    modifies store
    ensures |results| == |files|
    ensures forall j :: 0 <= j < |files| ==> results[j] == Classify(roster, files[j])
    ensures store.participants ==
              ApplyGroups(old(store.participants), Groups(Uploads(roster, files, stamps, |files|)))
    ensures store.events == old(store.events) && store.products == old(store.products)
    ensures store.schools == old(store.schools) && store.photoSales == old(store.photoSales)
  {
    var groups;
    results, groups := ClassifyFiles(roster, files, stamps);
    ClassifyAllSpec(roster, files, |files|);
    ApplyAll(store, groups);
  }

  /** The first loop of `processPhotos`: one result per file, and the
      successes gathered per participant. */
  method ClassifyFiles(roster: seq<Participant>, files: seq<UploadFile>, stamps: seq<string>)
    returns (results: seq<Outcome>, groups: seq<Association>)
    requires |stamps| == |files|
    ensures results == ClassifyAll(roster, files, |files|)
    ensures groups == Groups(Uploads(roster, files, stamps, |files|))
  {
    results := [];
    groups := [];
    var i := 0;
    while i < |files|
      invariant 0 <= i <= |files|
      invariant results == ClassifyAll(roster, files, i)
      invariant groups == Groups(Uploads(roster, files, stamps, i))
    {
      var o;
      o, groups := ProcessFile(roster, files[i], stamps[i], i, groups);
      GroupsStep(roster, files, stamps, i);
      assert ClassifyAll(roster, files, i + 1) == results + [o];
      results := results + [o];
      i := i + 1;
    }
  }

  /** The second loop of `processPhotos`: one `addPhotosToParticipant` per
      association, in order. */
  method ApplyAll(store: Store, groups: seq<Association>)
    modifies store
    ensures store.participants == ApplyGroups(old(store.participants), groups)
    ensures store.events == old(store.events) && store.products == old(store.products)
    ensures store.schools == old(store.schools) && store.photoSales == old(store.photoSales)
  {
    var k := 0;
    while k < |groups|
      invariant 0 <= k <= |groups|
      invariant store.participants == ApplyGroups(old(store.participants), groups[..k])
      invariant store.events == old(store.events) && store.products == old(store.products)
      invariant store.schools == old(store.schools) && store.photoSales == old(store.photoSales)
    {
      assert groups[..k + 1][..k] == groups[..k];
      store.AddPhotosToParticipant(groups[k].participantId, groups[k].photos);
      k := k + 1;
    }
    assert groups[..k] == groups;
  }
}

=== FILE: Cart.dfy ===
/** The cart logic both carts share (ShoppingCart.tsx and localizar/page.tsx
    carry two copies of it): merge-or-append, remove, set quantity with a
    non-positive quantity meaning remove, and the total. */
module Cart {
  import opened Seqs
  import opened Domain

  /** `CartItem`. */
  datatype CartItem = CartItem(
    id: string,
    photoUrl: string,
    participantName: string,
    eventTitle: string,
    price: real,
    quantity: int,
    participantId: string,
    eventId: string,
    schoolId: string,
    filename: string)

  /** Every item has quantity at least one. */
  predicate AllPositive(items: seq<CartItem>)
  {
    forall k :: 0 <= k < |items| ==> items[k].quantity >= 1
  }

  /** No two items share an id. */
  predicate DistinctIds(items: seq<CartItem>)
  {
    forall i, j :: 0 <= i < j < |items| ==> items[i].id != items[j].id
  }

  /** No two items hold the same photo for the same participant. */
  predicate DistinctKeys(items: seq<CartItem>)
  {
    forall i, j :: 0 <= i < j < |items| ==>
      items[i].photoUrl != items[j].photoUrl || items[i].participantId != items[j].participantId
  }

  predicate HasId(items: seq<CartItem>, id: string)
  {
    exists k :: 0 <= k < |items| && items[k].id == id
  }

  /** The well-formed carts: what every handler keeps. */
  predicate WellFormed(items: seq<CartItem>)
  {
    AllPositive(items) && DistinctIds(items) && DistinctKeys(items)
  }

  /** `cartItems.find(item => item.photoUrl === photoUrl && item.participantId === participantId)`. */
  function FindItem(items: seq<CartItem>, photoUrl: string, participantId: string): (r: Option<nat>)
    ensures r.Some? ==> r.value < |items| && items[r.value].photoUrl == photoUrl &&
                        items[r.value].participantId == participantId
    ensures r.Some? ==> forall k :: 0 <= k < r.value ==>
                          items[k].photoUrl != photoUrl || items[k].participantId != participantId
    ensures r.None? <==> forall k :: 0 <= k < |items| ==>
                           items[k].photoUrl != photoUrl || items[k].participantId != participantId
  {
    FindIndex(items, (it: CartItem) => it.photoUrl == photoUrl && it.participantId == participantId)
  }

  /** `{ ...item, quantity: item.quantity + 1 }` on every item with that id. */
  function Increment(items: seq<CartItem>, id: string): (r: seq<CartItem>)
    ensures |r| == |items|
    ensures forall k :: 0 <= k < |items| ==>
              r[k] == (if items[k].id == id then items[k].(quantity := items[k].quantity + 1) else items[k])
  {
    MapWhere(items, (it: CartItem) => it.id == id, (it: CartItem) => it.(quantity := it.quantity + 1))
  }

  function NewItem(id: string, photoUrl: string, p: Participant, e: Event, filename: string, price: real): CartItem
  {
    CartItem(id, photoUrl, p.name, e.title, price, 1, p.id, e.id, e.schoolId, filename)
  }

  /** `addToCart`: bump the existing item for this photo and participant, or
      append a new one with quantity 1 at `price`. */
  function AddItem(items: seq<CartItem>, photoUrl: string, p: Participant, e: Event, filename: string,
                   price: real, newId: string): (r: seq<CartItem>)
  {
    match FindItem(items, photoUrl, p.id)
    case Some(k) => Increment(items, items[k].id)
    case None => items + [NewItem(newId, photoUrl, p, e, filename, price)]
  }

  /** `removeFromCart`. */
  function RemoveItem(items: seq<CartItem>, id: string): (r: seq<CartItem>)
    ensures IsSubsequence(r, items)
    ensures forall it :: it in r <==> it in items && it.id != id
    ensures forall it :: multiset(r)[it] == if it.id != id then multiset(items)[it] else 0
  {
    var keep := (it: CartItem) => it.id != id;
    FilterMultiplicity(items, keep);
    Filter(items, keep)
  }

  /** `updateQuantity`: a quantity of zero or less removes the item. */
  function SetQuantity(items: seq<CartItem>, id: string, q: int): (r: seq<CartItem>)
  {
    if q <= 0 then RemoveItem(items, id)
    else MapWhere(items, (it: CartItem) => it.id == id, (it: CartItem) => it.(quantity := q))
  }

  function LineTotal(it: CartItem): real
  {
    it.price * it.quantity as real
  }

  /** `getTotalPrice`: the sum of price times quantity. */
  function Total(items: seq<CartItem>): real
  {
    SumReal(items, LineTotal)
  }

  // ----- properties -----

  /** Adding a photo already in the cart bumps that item by one and adds no
      item; otherwise exactly one item with quantity 1 and the given price is
      appended. */
  lemma AddItemEffect(items: seq<CartItem>, photoUrl: string, p: Participant, e: Event, filename: string,
                      price: real, newId: string)
    requires DistinctIds(items)
    ensures var r := AddItem(items, photoUrl, p, e, filename, price, newId);
            match FindItem(items, photoUrl, p.id)
            case Some(k) =>
              |r| == |items| && r[k] == items[k].(quantity := items[k].quantity + 1) &&
              forall j :: 0 <= j < |items| && j != k ==> r[j] == items[j]
            case None =>
              r == items + [CartItem(newId, photoUrl, p.name, e.title, price, 1, p.id, e.id, e.schoolId, filename)]
  {
  }

  lemma AddItemWellFormed(items: seq<CartItem>, photoUrl: string, p: Participant, e: Event, filename: string,
                          price: real, newId: string)
    requires WellFormed(items) && !HasId(items, newId)
    ensures WellFormed(AddItem(items, photoUrl, p, e, filename, price, newId))
  {
    match FindItem(items, photoUrl, p.id)
    case Some(k) =>
      IncrementOne(items, k);
      IncrementWellFormed(items, k);
    case None =>
      var r := items + [NewItem(newId, photoUrl, p, e, filename, price)];
      forall i, j | 0 <= i < j < |r| ensures r[i].id != r[j].id {
        if j == |items| {
          assert r[i] == items[i];
        }
      }
      assert DistinctKeys(r);
  }

  /** Bumping one item's quantity keeps the cart well formed. */
  lemma IncrementWellFormed(items: seq<CartItem>, k: nat)
    requires WellFormed(items) && k < |items|
    ensures WellFormed(items[k := items[k].(quantity := items[k].quantity + 1)])
  {
  }

  lemma RemoveItemWellFormed(items: seq<CartItem>, id: string)
    requires WellFormed(items)
    ensures WellFormed(RemoveItem(items, id))
    ensures !HasId(RemoveItem(items, id), id)
  {
    var r := RemoveItem(items, id);
    assert forall k :: 0 <= k < |r| ==> r[k] in r;
    var keep := (it: CartItem) => it.id != id;
    assert r == Filter(items, keep);
    FilterPairwise(items, keep, (a: CartItem, b: CartItem) => a.id != b.id);
    FilterPairwise(items, keep, (a: CartItem, b: CartItem) =>
      a.photoUrl != b.photoUrl || a.participantId != b.participantId);
  }

  /** `updateQuantity`: a positive quantity changes only that item's quantity;
      zero or less behaves as remove. */
  lemma SetQuantityEffect(items: seq<CartItem>, id: string, q: int)
    ensures q <= 0 ==> SetQuantity(items, id, q) == RemoveItem(items, id)
    ensures q > 0 ==> (|SetQuantity(items, id, q)| == |items| &&
              forall k :: 0 <= k < |items| ==>
                SetQuantity(items, id, q)[k] == (if items[k].id == id then items[k].(quantity := q) else items[k]))
  {
  }

  lemma SetQuantityWellFormed(items: seq<CartItem>, id: string, q: int)
    requires WellFormed(items)
    ensures WellFormed(SetQuantity(items, id, q))
  {
    if q <= 0 {
      RemoveItemWellFormed(items, id);
    }
  }

  /** Adding a photo already in the cart raises the total by that item's price. */
  lemma AddItemTotalMerged(items: seq<CartItem>, photoUrl: string, p: Participant, e: Event, filename: string,
                           price: real, newId: string, k: nat)
    requires DistinctIds(items)
    requires FindItem(items, photoUrl, p.id) == Some(k)
    ensures Total(AddItem(items, photoUrl, p, e, filename, price, newId)) == Total(items) + items[k].price
  {
    IncrementOne(items, k);
    BumpTotal(items, k);
  }

  /** Bumping one item's quantity raises the total by that item's price. */
  lemma BumpTotal(items: seq<CartItem>, k: nat)
    requires k < |items|
    ensures Total(items[k := items[k].(quantity := items[k].quantity + 1)]) == Total(items) + items[k].price
  {
    var it := items[k];
    TotalUpdate(items, k, it.(quantity := it.quantity + 1));
    OneMore(it.price, it.quantity);
  }

  /** One more of an item costs its price more. */
  lemma OneMore(price: real, quantity: int)
    ensures price * (quantity + 1) as real == price * quantity as real + price
  {
  }

  /** With distinct ids, incrementing an item's id touches that item alone. */
  lemma IncrementOne(items: seq<CartItem>, k: nat)
    requires DistinctIds(items) && k < |items|
    ensures Increment(items, items[k].id) == items[k := items[k].(quantity := items[k].quantity + 1)]
  {
    var r := Increment(items, items[k].id);
    forall j | 0 <= j < |items| && j != k ensures r[j] == items[j] {
      assert items[j].id != items[k].id;
    }
  }

  /** Adding a new photo raises the total by the price it was added at. */
  lemma AddItemTotalAppended(items: seq<CartItem>, photoUrl: string, p: Participant, e: Event, filename: string,
                             price: real, newId: string)
    requires FindItem(items, photoUrl, p.id).None?
    ensures Total(AddItem(items, photoUrl, p, e, filename, price, newId)) == Total(items) + price
  {
    SumRealAppend(items, [NewItem(newId, photoUrl, p, e, filename, price)], LineTotal);
  }

  lemma {:induction false} TotalUpdate(items: seq<CartItem>, k: nat, it: CartItem)
    requires k < |items|
    ensures Total(items[k := it]) == Total(items) - LineTotal(items[k]) + LineTotal(it)
  {
    if k > 0 {
      assert items[k := it][1..] == items[1..][k - 1 := it];
      TotalUpdate(items[1..], k - 1, it);
    }
  }

  /** With non-negative prices the total is never negative; the empty cart costs 0. */
  lemma {:induction false} TotalNonNegative(items: seq<CartItem>)
    requires AllPositive(items)
    requires forall k :: 0 <= k < |items| ==> items[k].price >= 0.0
    ensures Total(items) >= 0.0
    ensures items == [] ==> Total(items) == 0.0
  {
    if items != [] {
      TotalNonNegative(items[1..]);
    }
  }
}

=== FILE: Dashboard.dfy ===
/** The dashboard's event list (dashboard/page.tsx): the six filters of the
    search record applied to the store's events, and the handlers that
    replace or clear the record. Dates are compared through `time`, which
    stands for `new Date(s)` read as a timestamp, `None` being an invalid
    date (every comparison with one is false). */
module Dashboard {
  import opened Seqs
  import opened Text
  import opened Domain
  import opened AdvancedSearch

  /** `!needle || hay.toLowerCase().includes(needle.toLowerCase())`. */
  predicate TextMatch(needle: string, hay: string)
  {
    needle == "" || Contains(ToLower(hay), ToLower(needle))
  }

  predicate MatchesSearch(e: Event, f: SearchFilters)
  {
    TextMatch(f.search, e.title) || TextMatch(f.search, e.school) || TextMatch(f.search, e.contact)
  }

  predicate MatchesStatus(e: Event, f: SearchFilters)
  {
    f.status == AllStatuses || f.status == OnlyStatus(e.status)
  }

  /** `a >= b` on two dates; false when either is invalid. */
  predicate NotBefore(a: Option<int>, b: Option<int>)
  {
    a.Some? && b.Some? && a.value >= b.value
  }

  predicate MatchesDate(e: Event, f: SearchFilters, time: string -> Option<int>)
  {
    (!DateSet(f.dateRange.start) || NotBefore(time(e.startDate), time(f.dateRange.start.value))) &&
    (!DateSet(f.dateRange.end) || NotBefore(time(f.dateRange.end.value), time(e.startDate)))
  }

  predicate MatchesPrice(e: Event, f: SearchFilters)
  {
    (!PriceSet(f.priceRange.min) || e.photoPrice >= f.priceRange.min.value) &&
    (!PriceSet(f.priceRange.max) || e.photoPrice <= f.priceRange.max.value)
  }

  /** The filter callback: all six conditions at once. */
  predicate Keep(e: Event, f: SearchFilters, time: string -> Option<int>)
  {
    MatchesSearch(e, f) && MatchesStatus(e, f) && MatchesDate(e, f, time) &&
    MatchesPrice(e, f) && TextMatch(f.school, e.school) && TextMatch(f.contact, e.contact)
  }

  /** `filteredEvents`. */
  function FilteredEvents(evs: seq<Event>, f: SearchFilters, time: string -> Option<int>): seq<Event>
  {
    Filter(evs, (e: Event) => Keep(e, f, time))
  }

  /** The list keeps the events in their original order and holds exactly
      the events satisfying all six conditions. */
  lemma FilteredEventsSpec(evs: seq<Event>, f: SearchFilters, time: string -> Option<int>)
    ensures IsSubsequence(FilteredEvents(evs, f, time), evs)
    ensures forall e :: e in FilteredEvents(evs, f, time) <==>
              e in evs && MatchesSearch(e, f) && MatchesStatus(e, f) && MatchesDate(e, f, time) &&
              MatchesPrice(e, f) && TextMatch(f.school, e.school) && TextMatch(f.contact, e.contact)
    ensures forall e :: multiset(FilteredEvents(evs, f, time))[e] ==
              if Keep(e, f, time) then multiset(evs)[e] else 0
  {
    FilterMultiplicity(evs, (e: Event) => Keep(e, f, time));
  }

  /** An inactive filter, the kind that shows no badge, keeps every event. */
  lemma InactiveKeepsAll(e: Event, f: SearchFilters, time: string -> Option<int>, k: Key)
    requires !FilterActive(f, k)
    ensures k == SearchKey ==> MatchesSearch(e, f)
    ensures k == StatusKey ==> MatchesStatus(e, f)
    ensures k == DateRangeKey ==> MatchesDate(e, f, time)
    ensures k == PriceRangeKey ==> MatchesPrice(e, f)
    ensures k == SchoolKey ==> TextMatch(f.school, e.school)
    ensures k == ContactKey ==> TextMatch(f.contact, e.contact)
  {
  }

  /** With no active filter, the initial and the cleared record included,
      the list is the whole event list. */
  lemma NoActiveFilterKeepsAll(evs: seq<Event>, f: SearchFilters, time: string -> Option<int>)
    requires forall k :: !FilterActive(f, k)
    ensures FilteredEvents(evs, f, time) == evs
  {
    forall e | e in evs ensures Keep(e, f, time) {
      InactiveKeepsAll(e, f, time, SearchKey);
      InactiveKeepsAll(e, f, time, StatusKey);
      InactiveKeepsAll(e, f, time, DateRangeKey);
      InactiveKeepsAll(e, f, time, PriceRangeKey);
      InactiveKeepsAll(e, f, time, SchoolKey);
      InactiveKeepsAll(e, f, time, ContactKey);
    }
    FilterAll(evs, (e: Event) => Keep(e, f, time));
  }

  lemma EmptyFiltersKeepAll(evs: seq<Event>, time: string -> Option<int>)
    ensures FilteredEvents(evs, EmptyFilters, time) == evs
  {
    EmptyFiltersInactive();
    NoActiveFilterKeepsAll(evs, EmptyFilters, time);
  }

  /** A price bound of 0 is no bound; two non-zero bounds are inclusive. */
  lemma PriceBounds(e: Event, f: SearchFilters, lo: real, hi: real)
    ensures MatchesPrice(e, f.(priceRange := PriceRange(Some(0.0), f.priceRange.max))) ==
            MatchesPrice(e, f.(priceRange := PriceRange(None, f.priceRange.max)))
    ensures MatchesPrice(e, f.(priceRange := PriceRange(f.priceRange.min, Some(0.0)))) ==
            MatchesPrice(e, f.(priceRange := PriceRange(f.priceRange.min, None)))
    ensures lo != 0.0 && hi != 0.0 ==>
              (MatchesPrice(e, f.(priceRange := PriceRange(Some(lo), Some(hi)))) <==> lo <= e.photoPrice <= hi)
  {
  }

  /** The text match ignores case on both sides, and any text matches
      itself. */
  lemma TextMatchCaseInsensitive(needle: string, hay: string)
    ensures TextMatch(needle, hay) == TextMatch(ToLower(needle), hay)
    ensures TextMatch(needle, hay) == TextMatch(needle, ToLower(hay))
    ensures TextMatch(hay, hay)
  {
    ToLowerIdempotent(needle);
    ToLowerIdempotent(hay);
    assert OccursAt(ToLower(hay), ToLower(hay), 0);
  }

  /** Clearing one filter, as a badge's remove button does, never hides an
      event: the list before is a subsequence of the list after. */
  lemma ClearingWidens(evs: seq<Event>, f: SearchFilters, k: Key, time: string -> Option<int>)
    ensures IsSubsequence(FilteredEvents(evs, f, time), FilteredEvents(evs, WithField(f, ClearValue(k)), time))
  {
    var g := WithField(f, ClearValue(k));
    ClearBadge(f, k);
    forall e | e in evs && Keep(e, f, time) ensures Keep(e, g, time) {
      InactiveKeepsAll(e, g, time, k);
    }
    FilterNarrow(evs, (e: Event) => Keep(e, f, time), (e: Event) => Keep(e, g, time));
  }

  class DashboardPage {
    var searchFilters: SearchFilters

    constructor()
      ensures searchFilters == EmptyFilters
    {
      searchFilters := EmptyFilters;
    }

    /** `handleSearchFilters`: take the record the search panel passes. */
    method HandleSearchFilters(f: SearchFilters)
      modifies this
      ensures searchFilters == f
    {
      searchFilters := f;
    }

    /** `handleClearFilters`: back to the initial record. */
    method HandleClearFilters()
      modifies this
      ensures searchFilters == EmptyFilters
    {
      searchFilters := EmptyFilters;
    }

    /** The events the page shows for the current record. */
    function Shown(evs: seq<Event>, time: string -> Option<int>): (r: seq<Event>)
      reads this
      ensures IsSubsequence(r, evs)
      ensures forall e :: e in r <==> e in evs && Keep(e, searchFilters, time)
      ensures forall e :: multiset(r)[e] == if Keep(e, searchFilters, time) then multiset(evs)[e] else 0
      ensures searchFilters == EmptyFilters ==> r == evs
    {
      FilteredEventsSpec(evs, searchFilters, time);
      if searchFilters == EmptyFilters then EmptyFiltersKeepAll(evs, time); FilteredEvents(evs, searchFilters, time)
      else FilteredEvents(evs, searchFilters, time)
    }
  }
}

=== FILE: DashboardMetrics.dfy ===
/** The four metric cards of the dashboard (DashboardMetrics.tsx): number of
    events, total participants, estimated revenue at a flat 30% and number
    of active events. The revenue is kept as an exact number; the
    `R$ ${value.toFixed(0)}` label it is shown with is left out. */
module DashboardMetrics {
  import opened Seqs
  import opened Domain
  import opened AnalyticsCharts

  datatype Metrics = Metrics(totalEvents: nat, totalParticipants: int, estimatedRevenue: real, activeEvents: nat)

  /** `participantsCount * photoPrice * 0.3`. */
  function EstimatedRevenueOf(e: Event): real
  {
    (e.participantsCount as real) * e.photoPrice * 0.3
  }

  predicate IsActive(e: Event)
  {
    e.status == Active
  }

  /** `metrics`, before the revenue is formatted. */
  function ComputeMetrics(evs: seq<Event>): (m: Metrics)
    ensures m.totalEvents == |evs|
    ensures m.activeEvents <= m.totalEvents
    ensures m.activeEvents == 0 <==> forall e :: e in evs ==> e.status != Active
  {
    Metrics(|evs|, SumInt(evs, ParticipantsOf), SumReal(evs, EstimatedRevenueOf), Count(evs, IsActive))
  }

  /** The metrics of two lists of events put together are the sums of
      their metrics. */
  lemma MetricsAppend(a: seq<Event>, b: seq<Event>)
    ensures var m := ComputeMetrics(a + b);
            var ma := ComputeMetrics(a);
            var mb := ComputeMetrics(b);
            m.totalEvents == ma.totalEvents + mb.totalEvents &&
            m.totalParticipants == ma.totalParticipants + mb.totalParticipants &&
            m.estimatedRevenue == ma.estimatedRevenue + mb.estimatedRevenue &&
            m.activeEvents == ma.activeEvents + mb.activeEvents
  {
    SumIntAppend(a, b, ParticipantsOf);
    SumRealAppend(a, b, EstimatedRevenueOf);
    CountAppend(a, b, IsActive);
  }

  /** The estimate is the analytics panel's total revenue when every event's
      commission is 30%. */
  lemma EstimateAtThirtyPercent(evs: seq<Event>)
    requires forall e :: e in evs ==> e.commission == 30.0
    ensures ComputeMetrics(evs).estimatedRevenue == TotalRevenue(evs)
  {
    EstimatesAtThirtyPercent(evs);
  }

  lemma {:induction false} EstimatesAtThirtyPercent(evs: seq<Event>)
    requires forall e :: e in evs ==> e.commission == 30.0
    ensures SumReal(evs, EstimatedRevenueOf) == SumReal(evs, Revenue)
  {
    if evs != [] {
      EstimatesAtThirtyPercent(evs[1..]);
      assert evs[0] in evs;
      var e := evs[0];
      assert Revenue(e) == EstimatedRevenueOf(e) by {
        assert e.commission / 100.0 == 0.3;
      }
    }
  }

  /** Counting active events is counting the occurrences of the status
      `Active`. */
  lemma {:induction false} ActiveOccurrences(evs: seq<Event>)
    ensures Count(evs, IsActive) == Occurrences(evs, StatusOf, Active)
  {
    if evs != [] {
      ActiveOccurrences(evs[1..]);
    }
  }

  /** The total participants card agrees with the monthly chart of the
      analytics panel, and the active-events card with its status chart. */
  lemma MetricsMatchCharts(evs: seq<Event>, monthOf: string -> string)
    ensures ComputeMetrics(evs).totalParticipants == SumInt(Monthly(evs, monthOf), MonthParticipants)
    ensures ComputeMetrics(evs).activeEvents == CountFor(StatusData(evs), Active)
  {
    MonthlySums(evs, monthOf);
    TallyCountFor(evs, StatusOf, Active);
    ActiveOccurrences(evs);
  }
}

=== FILE: Domain.dfy ===
/** The records of the events store (EventsContext.tsx): events, participants,
    photo sales, products and schools, and the `Partial<...>` patches the
    update operations merge into them. Money is an exact `real`. */
module Domain {
  import opened Seqs

  datatype EventStatus = Active | Upcoming | Completed

  function StatusName(s: EventStatus): string
  {
    match s
    case Active => "active"
    case Upcoming => "upcoming"
    case Completed => "completed"
  }

  datatype Event = Event(
    id: string,
    title: string,
    startDate: string,
    endDate: Option<string>,
    schoolId: string,
    school: string,
    contact: string,
    phone: string,
    commission: real,        // a percentage
    photoPrice: real,
    notes: Option<string>,
    participantsCount: int,
    status: EventStatus)

  datatype ParticipantType = Aluno | Professor | Funcionario | Outro

  function TypeName(t: ParticipantType): string
  {
    match t
    case Aluno => "aluno"
    case Professor => "professor"
    case Funcionario => "funcionario"
    case Outro => "outro"
  }

  datatype Participant = Participant(
    id: string,
    eventId: string,
    name: string,
    className: string,
    kind: ParticipantType,
    qrCode: string,
    photos: seq<string>,
    profilePhoto: Option<string>)

  datatype SaleStatus = Pending | Paid | Cancelled

  datatype PhotoSale = PhotoSale(
    id: string,
    participantId: string,
    eventId: string,
    schoolId: string,
    photoUrl: string,
    price: real,
    soldAt: string,
    commissionAmount: real,
    netAmount: real,
    status: SaleStatus)

  /** What a caller hands to `addPhotoSale`: a sale without id and split. */
  datatype SaleRequest = SaleRequest(
    participantId: string,
    eventId: string,
    schoolId: string,
    photoUrl: string,
    price: real,
    soldAt: string,
    status: SaleStatus)

  datatype ProductCategory = PhotoProduct | Package | Upsell

  datatype Product = Product(
    id: string,
    name: string,
    description: string,
    price: real,
    category: ProductCategory,
    image: Option<string>,
    isActive: bool)

  datatype SchoolKind = Publica | Privada
  datatype EducationLevel = Infantil | Fundamental | Medio

  datatype School = School(
    id: string,
    name: string,
    address: string,
    city: string,
    state: string,
    cnpj: Option<string>,
    pixKey: Option<string>,
    phone: string,
    kind: SchoolKind,
    education: seq<EducationLevel>,
    studentCount: int,
    observations: Option<string>,
    instagram: Option<string>,
    facebook: Option<string>,
    whatsapp: Option<string>,
    director: string,
    directorMessage: Option<string>,
    directorPhoto: Option<string>,
    schoolImage: Option<string>,
    featuredImages: Option<seq<string>>)

  /** `Partial<Event>`: the fields present overwrite, the others stay. */
  datatype EventPatch = EventPatch(
    id: Option<string>,
    title: Option<string>,
    startDate: Option<string>,
    endDate: Option<string>,
    schoolId: Option<string>,
    school: Option<string>,
    contact: Option<string>,
    phone: Option<string>,
    commission: Option<real>,
    photoPrice: Option<real>,
    notes: Option<string>,
    participantsCount: Option<int>,
    status: Option<EventStatus>)

  function Pick<T>(o: Option<T>, keep: T): T
  {
    if o.Some? then o.value else keep
  }

  /** `{ ...event, ...updates }`. */
  function PatchEvent(e: Event, u: EventPatch): (r: Event)
  {
    Event(Pick(u.id, e.id), Pick(u.title, e.title), Pick(u.startDate, e.startDate),
          if u.endDate.Some? then u.endDate else e.endDate,
          Pick(u.schoolId, e.schoolId), Pick(u.school, e.school), Pick(u.contact, e.contact),
          Pick(u.phone, e.phone), Pick(u.commission, e.commission), Pick(u.photoPrice, e.photoPrice),
          if u.notes.Some? then u.notes else e.notes,
          Pick(u.participantsCount, e.participantsCount), Pick(u.status, e.status))
  }

  /** `Partial<Participant>`. */
  datatype ParticipantPatch = ParticipantPatch(
    id: Option<string>,
    eventId: Option<string>,
    name: Option<string>,
    className: Option<string>,
    kind: Option<ParticipantType>,
    qrCode: Option<string>,
    photos: Option<seq<string>>,
    profilePhoto: Option<string>)

  function PatchParticipant(p: Participant, u: ParticipantPatch): (r: Participant)
  {
    Participant(Pick(u.id, p.id), Pick(u.eventId, p.eventId), Pick(u.name, p.name),
                Pick(u.className, p.className), Pick(u.kind, p.kind), Pick(u.qrCode, p.qrCode),
                Pick(u.photos, p.photos),
                if u.profilePhoto.Some? then u.profilePhoto else p.profilePhoto)
  }

  /** `Partial<Product>`. */
  datatype ProductPatch = ProductPatch(
    id: Option<string>,
    name: Option<string>,
    description: Option<string>,
    price: Option<real>,
    category: Option<ProductCategory>,
    image: Option<string>,
    isActive: Option<bool>)

  function PatchProduct(p: Product, u: ProductPatch): (r: Product)
  {
    Product(Pick(u.id, p.id), Pick(u.name, p.name), Pick(u.description, p.description),
            Pick(u.price, p.price), Pick(u.category, p.category),
            if u.image.Some? then u.image else p.image, Pick(u.isActive, p.isActive))
  }

  /** `Partial<School>`. */
  datatype SchoolPatch = SchoolPatch(
    id: Option<string>,
    name: Option<string>,
    address: Option<string>,
    city: Option<string>,
    state: Option<string>,
    cnpj: Option<string>,
    pixKey: Option<string>,
    phone: Option<string>,
    kind: Option<SchoolKind>,
    education: Option<seq<EducationLevel>>,
    studentCount: Option<int>,
    observations: Option<string>,
    instagram: Option<string>,
    facebook: Option<string>,
    whatsapp: Option<string>,
    director: Option<string>,
    directorMessage: Option<string>,
    directorPhoto: Option<string>,
    schoolImage: Option<string>,
    featuredImages: Option<seq<string>>)

  function PatchSchool(s: School, u: SchoolPatch): (r: School)
  {
    School(Pick(u.id, s.id), Pick(u.name, s.name), Pick(u.address, s.address),
           Pick(u.city, s.city), Pick(u.state, s.state),
           if u.cnpj.Some? then u.cnpj else s.cnpj,
           if u.pixKey.Some? then u.pixKey else s.pixKey,
           Pick(u.phone, s.phone), Pick(u.kind, s.kind), Pick(u.education, s.education),
           Pick(u.studentCount, s.studentCount),
           if u.observations.Some? then u.observations else s.observations,
           if u.instagram.Some? then u.instagram else s.instagram,
           if u.facebook.Some? then u.facebook else s.facebook,
           if u.whatsapp.Some? then u.whatsapp else s.whatsapp,
           Pick(u.director, s.director),
           if u.directorMessage.Some? then u.directorMessage else s.directorMessage,
           if u.directorPhoto.Some? then u.directorPhoto else s.directorPhoto,
           if u.schoolImage.Some? then u.schoolImage else s.schoolImage,
           if u.featuredImages.Some? then u.featuredImages else s.featuredImages)
  }

  /** `Partial<PhotoSale>`. */
  datatype SalePatch = SalePatch(
    id: Option<string>,
    participantId: Option<string>,
    eventId: Option<string>,
    schoolId: Option<string>,
    photoUrl: Option<string>,
    price: Option<real>,
    soldAt: Option<string>,
    commissionAmount: Option<real>,
    netAmount: Option<real>,
    status: Option<SaleStatus>)

  function PatchSale(s: PhotoSale, u: SalePatch): (r: PhotoSale)
  {
    PhotoSale(Pick(u.id, s.id), Pick(u.participantId, s.participantId), Pick(u.eventId, s.eventId),
              Pick(u.schoolId, s.schoolId), Pick(u.photoUrl, s.photoUrl), Pick(u.price, s.price),
              Pick(u.soldAt, s.soldAt), Pick(u.commissionAmount, s.commissionAmount),
              Pick(u.netAmount, s.netAmount), Pick(u.status, s.status))
  }
}

=== FILE: EventsStore.dfy ===
/** The in-memory store of EventsContext.tsx: five lists the provider replaces
    through `setState`, modelled as the `seq` fields of a class whose methods
    reassign them. Fresh ids (`Date.now()`) and the random draws behind
    `generateQRCode` are parameters; the `fetch` persistence calls are left out. */
module EventsStore {
  import opened Seqs
  import opened Text
  import opened Domain
  import Utils

  // ----- participant codes -----

  /** `participants.some(p => p.qrCode === code)`. */
  predicate CodeInUse(ps: seq<Participant>, code: string)
  {
    exists i :: 0 <= i < |ps| && ps[i].qrCode == code
  }

  /** Every draw is a possible value of `Math.floor(Math.random() * 900000)`. */
  predicate ValidDraws(draws: seq<nat>)
  {
    forall k :: 0 <= k < |draws| ==> draws[k] < 900000
  }

  /** Some draw at index `i` or later yields a code nobody holds: the
      assumption under which the do-while loop stops. */
  predicate SomeDrawFreeFrom(ps: seq<Participant>, draws: seq<nat>, i: nat)
    requires ValidDraws(draws)
  {
    exists k :: i <= k < |draws| && !CodeInUse(ps, Utils.GenerateQRCode(draws[k]))
  }

  predicate SomeDrawFree(ps: seq<Participant>, draws: seq<nat>)
    requires ValidDraws(draws)
  {
    SomeDrawFreeFrom(ps, draws, 0)
  }

  /** The code the do-while loop settles on, starting at draw `i`. */
  function FirstFreeFrom(ps: seq<Participant>, draws: seq<nat>, i: nat): (code: string)
    requires ValidDraws(draws) && SomeDrawFreeFrom(ps, draws, i)
    decreases |draws| - i
    ensures |code| == 6 && code[0] != '0'
    ensures forall j :: 0 <= j < |code| ==> IsDigit(code[j])
    ensures 100000 <= DecimalValue(code) <= 999999
    ensures !CodeInUse(ps, code)
  {
    var k :| i <= k < |draws| && !CodeInUse(ps, Utils.GenerateQRCode(draws[k]));
    var c := Utils.GenerateQRCode(draws[i]);
    if !CodeInUse(ps, c) then c
    else
      assert k != i;
      FirstFreeFrom(ps, draws, i + 1)
  }

  /** `generateQRCode()` of the store, for a given sequence of random draws. */
  function FirstFreeCode(ps: seq<Participant>, draws: seq<nat>): (code: string)
    requires ValidDraws(draws) && SomeDrawFree(ps, draws)
    ensures !CodeInUse(ps, code)
  {
    FirstFreeFrom(ps, draws, 0)
  }

  /** No two participants share a code. */
  predicate UniqueCodes(ps: seq<Participant>)
  {
    forall i, j :: 0 <= i < j < |ps| ==> ps[i].qrCode != ps[j].qrCode
  }

  /** No two participants share an id. */
  predicate UniqueIds(ps: seq<Participant>)
  {
    forall i, j :: 0 <= i < j < |ps| ==> ps[i].id != ps[j].id
  }

  /** The participants `addParticipantsBatch` builds: every code is drawn
      against the list as it was before the batch. */
  function NewBatch(ps: seq<Participant>, datas: seq<Participant>, ids: seq<string>,
                    drawLists: seq<seq<nat>>): (r: seq<Participant>)
    requires |ids| == |datas| == |drawLists|
    requires forall k :: 0 <= k < |drawLists| ==>
               ValidDraws(drawLists[k]) && SomeDrawFree(ps, drawLists[k])
    ensures |r| == |datas|
    ensures forall k :: 0 <= k < |r| ==> !CodeInUse(ps, r[k].qrCode)
    ensures forall k :: 0 <= k < |r| ==>
              r[k] == datas[k].(id := ids[k], qrCode := FirstFreeCode(ps, drawLists[k]))
  {
    seq(|datas|, k requires 0 <= k < |datas| =>
      datas[k].(id := ids[k], qrCode := FirstFreeCode(ps, drawLists[k])))
  }

  // ----- participant counts -----

  /** How many participants belong to event `eventId`. */
  function Headcount(ps: seq<Participant>, eventId: string): (n: nat)
    ensures n <= |ps|
  {
    if ps == [] then 0
    else (if ps[0].eventId == eventId then 1 else 0) + Headcount(ps[1..], eventId)
  }

  /** Every event's `participantsCount` is the number of its participants. */
  predicate CountsConsistent(evs: seq<Event>, ps: seq<Participant>)
  {
    forall i :: 0 <= i < |evs| ==> evs[i].participantsCount == Headcount(ps, evs[i].id)
  }

  /** `events.map(e => e.id === eventId ? {...e, participantsCount: e.participantsCount + delta} : e)`. */
  function BumpCount(evs: seq<Event>, eventId: string, delta: int): (r: seq<Event>)
    ensures |r| == |evs|
    ensures forall i :: 0 <= i < |evs| && evs[i].id != eventId ==> r[i] == evs[i]
    ensures forall i :: 0 <= i < |evs| && evs[i].id == eventId ==>
              r[i] == evs[i].(participantsCount := evs[i].participantsCount + delta)
  {
    if evs == [] then []
    else
      var e := evs[0];
      [if e.id == eventId then e.(participantsCount := e.participantsCount + delta) else e] +
      BumpCount(evs[1..], eventId, delta)
  }

  // ----- list updates -----

  /** `events.find(e => e.id === id)`; what it returns is stated by
      `EventByIdSpec`, kept apart so that functions calling it stay cheap to
      unfold. */
  function EventById(evs: seq<Event>, id: string): Option<Event>
  {
    if evs == [] then None
    else if evs[0].id == id then Some(evs[0])
    else EventById(evs[1..], id)
  }

  /** The first event with that id, or nothing when no event has it. */
  lemma {:induction false} EventByIdSpec(evs: seq<Event>, id: string)
    ensures EventById(evs, id).Some? ==>
              exists k :: 0 <= k < |evs| && evs[k] == EventById(evs, id).value && evs[k].id == id &&
                          forall j :: 0 <= j < k ==> evs[j].id != id
    ensures EventById(evs, id).None? <==> forall k :: 0 <= k < |evs| ==> evs[k].id != id
  {
    if evs != [] && evs[0].id != id {
      EventByIdSpec(evs[1..], id);
      if EventById(evs, id).Some? {
        var k :| 0 <= k < |evs| - 1 && evs[1..][k] == EventById(evs, id).value && evs[1..][k].id == id &&
                 forall j :: 0 <= j < k ==> evs[1..][j].id != id;
        assert evs[k + 1] == EventById(evs, id).value;
      }
      assert forall k :: 1 <= k < |evs| ==> evs[k] == evs[1..][k - 1];
    }
  }

  function ParticipantById(ps: seq<Participant>, id: string): (r: Option<Participant>)
    ensures r.Some? ==> r.value in ps && r.value.id == id
    ensures r.None? <==> forall p :: p in ps ==> p.id != id
    ensures r.Some? ==> exists k :: 0 <= k < |ps| && ps[k] == r.value &&
                                    forall j :: 0 <= j < k ==> ps[j].id != id
  {
    Find(ps, (p: Participant) => p.id == id)
  }

  function UpdateEvents(evs: seq<Event>, id: string, u: EventPatch): (r: seq<Event>)
    ensures |r| == |evs|
    ensures forall i :: 0 <= i < |evs| ==>
              r[i] == (if evs[i].id == id then PatchEvent(evs[i], u) else evs[i])
  {
    MapWhere(evs, (e: Event) => e.id == id, (e: Event) => PatchEvent(e, u))
  }

  function WithoutEvent(evs: seq<Event>, id: string): (r: seq<Event>)
    ensures IsSubsequence(r, evs)
    ensures forall e :: e in r <==> e in evs && e.id != id
    ensures forall e :: multiset(r)[e] == if e.id != id then multiset(evs)[e] else 0
  {
    var keep := (e: Event) => e.id != id;
    FilterMultiplicity(evs, keep);
    Filter(evs, keep)
  }

  function WithoutEventParticipants(ps: seq<Participant>, eventId: string): (r: seq<Participant>)
    ensures IsSubsequence(r, ps)
    ensures forall p :: p in r <==> p in ps && p.eventId != eventId
    ensures forall p :: multiset(r)[p] == if p.eventId != eventId then multiset(ps)[p] else 0
  {
    if ps == [] then []
    else
      assert ps == [ps[0]] + ps[1..];
      if ps[0].eventId != eventId then
        var rest := WithoutEventParticipants(ps[1..], eventId);
        assert ([ps[0]] + rest)[1..] == rest;
        [ps[0]] + rest
      else WithoutEventParticipants(ps[1..], eventId)
  }

  function WithoutParticipant(ps: seq<Participant>, id: string): (r: seq<Participant>)
    ensures IsSubsequence(r, ps)
    ensures forall p :: p in r <==> p in ps && p.id != id
    ensures forall p :: multiset(r)[p] == if p.id != id then multiset(ps)[p] else 0
  {
    if ps == [] then []
    else
      assert ps == [ps[0]] + ps[1..];
      if ps[0].id != id then
        var rest := WithoutParticipant(ps[1..], id);
        assert ([ps[0]] + rest)[1..] == rest;
        [ps[0]] + rest
      else WithoutParticipant(ps[1..], id)
  }

  function UpdateParticipants(ps: seq<Participant>, id: string, u: ParticipantPatch): (r: seq<Participant>)
    ensures |r| == |ps|
    ensures forall i :: 0 <= i < |ps| ==>
              r[i] == (if ps[i].id == id then PatchParticipant(ps[i], u) else ps[i])
  {
    MapWhere(ps, (p: Participant) => p.id == id, (p: Participant) => PatchParticipant(p, u))
  }

  function SetProfilePhoto(ps: seq<Participant>, id: string, photo: string): (r: seq<Participant>)
    ensures |r| == |ps|
    ensures forall i :: 0 <= i < |ps| ==>
              r[i] == (if ps[i].id == id then ps[i].(profilePhoto := Some(photo)) else ps[i])
  {
    MapWhere(ps, (p: Participant) => p.id == id, (p: Participant) => p.(profilePhoto := Some(photo)))
  }

  /** `addPhotosToParticipant`'s map: the target's photos become old ++ new. */
  function AttachPhotos(ps: seq<Participant>, id: string, photos: seq<string>): (r: seq<Participant>)
    ensures |r| == |ps|
    ensures forall i :: 0 <= i < |ps| ==> r[i].eventId == ps[i].eventId && r[i].id == ps[i].id
    ensures forall i :: 0 <= i < |ps| && ps[i].id != id ==> r[i] == ps[i]
    ensures forall i :: 0 <= i < |ps| && ps[i].id == id ==>
              r[i].photos == ps[i].photos + photos && r[i] == ps[i].(photos := r[i].photos)
  {
    MapWhere(ps, (p: Participant) => p.id == id, (p: Participant) => p.(photos := p.photos + photos))
  }

  function UpdateProducts(ps: seq<Product>, id: string, u: ProductPatch): (r: seq<Product>)
    ensures |r| == |ps|
    ensures forall i :: 0 <= i < |ps| ==>
              r[i] == (if ps[i].id == id then PatchProduct(ps[i], u) else ps[i])
  {
    MapWhere(ps, (p: Product) => p.id == id, (p: Product) => PatchProduct(p, u))
  }

  function WithoutProduct(ps: seq<Product>, id: string): (r: seq<Product>)
    ensures IsSubsequence(r, ps)
    ensures forall p :: p in r <==> p in ps && p.id != id
    ensures forall p :: multiset(r)[p] == if p.id != id then multiset(ps)[p] else 0
  {
    var keep := (p: Product) => p.id != id;
    FilterMultiplicity(ps, keep);
    Filter(ps, keep)
  }

  function UpdateSchools(ss: seq<School>, id: string, u: SchoolPatch): (r: seq<School>)
    ensures |r| == |ss|
    ensures forall i :: 0 <= i < |ss| ==>
              r[i] == (if ss[i].id == id then PatchSchool(ss[i], u) else ss[i])
  {
    MapWhere(ss, (s: School) => s.id == id, (s: School) => PatchSchool(s, u))
  }

  function WithoutSchool(ss: seq<School>, id: string): (r: seq<School>)
    ensures IsSubsequence(r, ss)
    ensures forall s :: s in r <==> s in ss && s.id != id
    ensures forall s :: multiset(r)[s] == if s.id != id then multiset(ss)[s] else 0
  {
    var keep := (s: School) => s.id != id;
    FilterMultiplicity(ss, keep);
    Filter(ss, keep)
  }

  function UpdateSales(ss: seq<PhotoSale>, id: string, u: SalePatch): (r: seq<PhotoSale>)
    ensures |r| == |ss|
    ensures forall i :: 0 <= i < |ss| ==>
              r[i] == (if ss[i].id == id then PatchSale(ss[i], u) else ss[i])
  {
    MapWhere(ss, (s: PhotoSale) => s.id == id, (s: PhotoSale) => PatchSale(s, u))
  }

  // ----- sales -----

  /** The sale `addPhotoSale` records for a request against event `e`. */
  function SaleFor(req: SaleRequest, e: Event, id: string): (s: PhotoSale)
    ensures s.commissionAmount + s.netAmount == req.price
    ensures s.commissionAmount * 100.0 == req.price * e.commission
    ensures s.status == Pending
    ensures s.id == id && s.price == req.price && s.eventId == req.eventId &&
            s.schoolId == req.schoolId && s.participantId == req.participantId &&
            s.photoUrl == req.photoUrl && s.soldAt == req.soldAt
  {
    var commission := req.price * e.commission / 100.0;
    PhotoSale(id, req.participantId, req.eventId, req.schoolId, req.photoUrl, req.price,
              req.soldAt, commission, req.price - commission, Pending)
  }

  /** `getPhotoSalesBySchool`. */
  function SalesOfSchool(ss: seq<PhotoSale>, schoolId: string): (r: seq<PhotoSale>)
    ensures IsSubsequence(r, ss)
    ensures forall s :: s in r <==> s in ss && s.schoolId == schoolId
    ensures forall s :: multiset(r)[s] == if s.schoolId == schoolId then multiset(ss)[s] else 0
  {
    var keep := (s: PhotoSale) => s.schoolId == schoolId;
    FilterMultiplicity(ss, keep);
    Filter(ss, keep)
  }

  /** `getPhotoSalesByEvent`. */
  function SalesOfEvent(ss: seq<PhotoSale>, eventId: string): (r: seq<PhotoSale>)
    ensures IsSubsequence(r, ss)
    ensures forall s :: s in r <==> s in ss && s.eventId == eventId
    ensures forall s :: multiset(r)[s] == if s.eventId == eventId then multiset(ss)[s] else 0
  {
    var keep := (s: PhotoSale) => s.eventId == eventId;
    FilterMultiplicity(ss, keep);
    Filter(ss, keep)
  }

  /** `getParticipantsByEvent`. */
  function ParticipantsOfEvent(ps: seq<Participant>, eventId: string): (r: seq<Participant>)
    ensures IsSubsequence(r, ps)
    ensures forall p :: p in r <==> p in ps && p.eventId == eventId
    ensures forall p :: multiset(r)[p] == if p.eventId == eventId then multiset(ps)[p] else 0
  {
    var keep := (p: Participant) => p.eventId == eventId;
    FilterMultiplicity(ps, keep);
    Filter(ps, keep)
  }

  function PriceOf(s: PhotoSale): real { s.price }
  function CommissionOf(s: PhotoSale): real { s.commissionAmount }
  function NetOf(s: PhotoSale): real { s.netAmount }

  datatype Revenue = Revenue(totalSales: real, totalCommission: real, netRevenue: real)

  // ----- search -----

  datatype SearchKind = ByQrCode | ByName | ByClass | BySchool

  /** The test `searchParticipants` applies to one participant, for a term
      already lowercased and trimmed. */
  predicate SearchHit(evs: seq<Event>, p: Participant, term: string, kind: SearchKind)
  {
    match kind
    case ByQrCode => p.qrCode == term
    case ByName => Contains(ToLower(p.name), term)
    case ByClass => Contains(ToLower(p.className), term)
    case BySchool =>
      var e := EventById(evs, p.eventId);
      e.Some? && Contains(ToLower(e.value.school), term)
  }

  /** `searchParticipants(query, type)`; what it returns is stated by
      `SearchSpec`. */
  function Search(evs: seq<Event>, ps: seq<Participant>, query: string, kind: SearchKind): seq<Participant>
  {
    var term := Trim(ToLower(query));
    Filter(ps, (p: Participant) => SearchHit(evs, p, term, kind))
  }

  /** The search keeps, in roster order, exactly the participants that match
      the trimmed, lowercased query. */
  lemma SearchSpec(evs: seq<Event>, ps: seq<Participant>, query: string, kind: SearchKind)
    ensures IsSubsequence(Search(evs, ps, query, kind), ps)
    ensures forall p :: p in Search(evs, ps, query, kind) <==>
                        p in ps && SearchHit(evs, p, Trim(ToLower(query)), kind)
    ensures forall p :: multiset(Search(evs, ps, query, kind))[p] ==
                        if SearchHit(evs, p, Trim(ToLower(query)), kind) then multiset(ps)[p] else 0
  {
    var term := Trim(ToLower(query));
    var keep := (p: Participant) => SearchHit(evs, p, term, kind);
    assert Search(evs, ps, query, kind) == Filter(ps, keep);
    FilterMultiplicity(ps, keep);
  }

  class Store {
    var events: seq<Event>
    var participants: seq<Participant>
    var products: seq<Product>
    var schools: seq<School>
    var photoSales: seq<PhotoSale>

    constructor (events0: seq<Event>, participants0: seq<Participant>, products0: seq<Product>,
                 schools0: seq<School>, sales0: seq<PhotoSale>)
      ensures events == events0 && participants == participants0 && products == products0
      ensures schools == schools0 && photoSales == sales0
    {
      events := events0;
      participants := participants0;
      products := products0;
      schools := schools0;
      photoSales := sales0;
    }

    /** The do-while retry loop: draw until the code is not in use. */
    method GenerateQRCode(draws: seq<nat>) returns (code: string)
      requires ValidDraws(draws) && SomeDrawFree(participants, draws)
      ensures code == FirstFreeCode(participants, draws)
      ensures |code| == 6 && !CodeInUse(participants, code)
    {
      ghost var k :| 0 <= k < |draws| && !CodeInUse(participants, Utils.GenerateQRCode(draws[k]));
      var i := 0;
      code := Utils.GenerateQRCode(draws[0]);
      while CodeInUse(participants, code)
        invariant 0 <= i <= k
        invariant code == Utils.GenerateQRCode(draws[i])
        invariant SomeDrawFreeFrom(participants, draws, i)
        invariant FirstFreeFrom(participants, draws, i) == FirstFreeCode(participants, draws)
        decreases k - i
      {
        i := i + 1;
        code := Utils.GenerateQRCode(draws[i]);
      }
    }

    method AddEvent(data: Event, newId: string)
      modifies this
      ensures events == old(events) + [data.(id := newId, participantsCount := 0, status := Upcoming)]
      ensures participants == old(participants) && products == old(products)
      ensures schools == old(schools) && photoSales == old(photoSales)
    {
      events := events + [data.(id := newId, participantsCount := 0, status := Upcoming)];
    }

    method UpdateEvent(id: string, u: EventPatch)
      modifies this
      ensures events == UpdateEvents(old(events), id, u)
      ensures participants == old(participants) && products == old(products)
      ensures schools == old(schools) && photoSales == old(photoSales)
    {
      events := UpdateEvents(events, id, u);
    }

    /** Cascade: the event goes, and so do its participants. */
    method DeleteEvent(id: string)
      modifies this
      ensures events == WithoutEvent(old(events), id)
      ensures participants == WithoutEventParticipants(old(participants), id)
      ensures products == old(products) && schools == old(schools) && photoSales == old(photoSales)
    {
      events := WithoutEvent(events, id);
      participants := WithoutEventParticipants(participants, id);
    }

    method AddParticipant(data: Participant, newId: string, draws: seq<nat>)
      requires ValidDraws(draws) && SomeDrawFree(participants, draws)
      modifies this
      ensures participants ==
                old(participants) + [data.(id := newId, qrCode := FirstFreeCode(old(participants), draws))]
      ensures events == BumpCount(old(events), data.eventId, 1)
      ensures products == old(products) && schools == old(schools) && photoSales == old(photoSales)
    {
      var code := GenerateQRCode(draws);
      participants := participants + [data.(id := newId, qrCode := code)];
      events := BumpCount(events, data.eventId, 1);
    }

    method AddParticipantsBatch(datas: seq<Participant>, ids: seq<string>, drawLists: seq<seq<nat>>)
      requires |ids| == |datas| == |drawLists|
      requires forall k :: 0 <= k < |drawLists| ==>
                 ValidDraws(drawLists[k]) && SomeDrawFree(participants, drawLists[k])
      modifies this
      ensures participants == old(participants) + NewBatch(old(participants), datas, ids, drawLists)
      ensures events == if datas == [] then old(events)
                        else BumpCount(old(events), datas[0].eventId, |datas|)
      ensures products == old(products) && schools == old(schools) && photoSales == old(photoSales)
    {
      var added := NewBatch(participants, datas, ids, drawLists);
      participants := participants + added;
      if |added| > 0 {
        events := BumpCount(events, added[0].eventId, |added|);
      }
    }

    method UpdateParticipant(id: string, u: ParticipantPatch)
      modifies this
      ensures participants == UpdateParticipants(old(participants), id, u)
      ensures events == old(events) && products == old(products)
      ensures schools == old(schools) && photoSales == old(photoSales)
    {
      participants := UpdateParticipants(participants, id, u);
    }

    method UpdateParticipantProfilePhoto(id: string, photo: string)
      modifies this
      ensures participants == SetProfilePhoto(old(participants), id, photo)
      ensures events == old(events) && products == old(products)
      ensures schools == old(schools) && photoSales == old(photoSales)
    {
      participants := SetProfilePhoto(participants, id, photo);
    }

    /** An unknown id changes nothing; otherwise the participant goes and its
        event's count drops by one. */
    method DeleteParticipant(id: string)
      modifies this
      ensures ParticipantById(old(participants), id).None? ==>
                participants == old(participants) && events == old(events)
      ensures ParticipantById(old(participants), id).Some? ==>
                participants == WithoutParticipant(old(participants), id) &&
                events == BumpCount(old(events), ParticipantById(old(participants), id).value.eventId, -1)
      ensures products == old(products) && schools == old(schools) && photoSales == old(photoSales)
    {
      var found := ParticipantById(participants, id);
      if found.Some? {
        participants := WithoutParticipant(participants, id);
        events := BumpCount(events, found.value.eventId, -1);
      }
    }

    method AddPhotosToParticipant(id: string, photos: seq<string>)
      modifies this
      ensures participants == AttachPhotos(old(participants), id, photos)
      ensures events == old(events) && products == old(products)
      ensures schools == old(schools) && photoSales == old(photoSales)
    {
      participants := AttachPhotos(participants, id, photos);
    }

    function GetParticipantsByEvent(eventId: string): (r: seq<Participant>)
      reads this
      ensures forall p :: p in r <==> p in participants && p.eventId == eventId
      ensures forall p :: multiset(r)[p] == if p.eventId == eventId then multiset(participants)[p] else 0
    {
      ParticipantsOfEvent(participants, eventId)
    }

    method AddProduct(data: Product, newId: string)
      modifies this
      ensures products == old(products) + [data.(id := newId)]
      ensures events == old(events) && participants == old(participants)
      ensures schools == old(schools) && photoSales == old(photoSales)
    {
      products := products + [data.(id := newId)];
    }

    method UpdateProduct(id: string, u: ProductPatch)
      modifies this
      ensures products == UpdateProducts(old(products), id, u)
      ensures events == old(events) && participants == old(participants)
      ensures schools == old(schools) && photoSales == old(photoSales)
    {
      products := UpdateProducts(products, id, u);
    }

    method DeleteProduct(id: string)
      modifies this
      ensures products == WithoutProduct(old(products), id)
      ensures events == old(events) && participants == old(participants)
      ensures schools == old(schools) && photoSales == old(photoSales)
    {
      products := WithoutProduct(products, id);
    }

    /** `searchParticipants` over the current lists (see `SearchSpec`). */
    function SearchParticipants(query: string, kind: SearchKind): seq<Participant>
      reads this
    {
      Search(events, participants, query, kind)
    }

    method AddSchool(data: School, newId: string)
      modifies this
      ensures schools == old(schools) + [data.(id := newId)]
      ensures events == old(events) && participants == old(participants)
      ensures products == old(products) && photoSales == old(photoSales)
    {
      schools := schools + [data.(id := newId)];
    }

    method UpdateSchool(id: string, u: SchoolPatch)
      modifies this
      ensures schools == UpdateSchools(old(schools), id, u)
      ensures events == old(events) && participants == old(participants)
      ensures products == old(products) && photoSales == old(photoSales)
    {
      schools := UpdateSchools(schools, id, u);
    }

    method DeleteSchool(id: string)
      modifies this
      ensures schools == WithoutSchool(old(schools), id)
      ensures events == old(events) && participants == old(participants)
      ensures products == old(products) && photoSales == old(photoSales)
    {
      schools := WithoutSchool(schools, id);
    }

    /** An unknown event records nothing; otherwise one pending sale with the
        event's commission split is appended. */
    method AddPhotoSale(req: SaleRequest, newId: string)
      modifies this
      ensures EventById(old(events), req.eventId).None? ==> photoSales == old(photoSales)
      ensures EventById(old(events), req.eventId).Some? ==>
                photoSales == old(photoSales) + [SaleFor(req, EventById(old(events), req.eventId).value, newId)]
      ensures events == old(events) && participants == old(participants)
      ensures products == old(products) && schools == old(schools)
    {
      var e := EventById(events, req.eventId);
      if e.Some? {
        photoSales := photoSales + [SaleFor(req, e.value, newId)];
      }
    }

    method UpdatePhotoSale(id: string, u: SalePatch)
      modifies this
      ensures photoSales == UpdateSales(old(photoSales), id, u)
      ensures events == old(events) && participants == old(participants)
      ensures products == old(products) && schools == old(schools)
    {
      photoSales := UpdateSales(photoSales, id, u);
    }

    function GetPhotoSalesBySchool(schoolId: string): (r: seq<PhotoSale>)
      reads this
      ensures forall s :: s in r <==> s in photoSales && s.schoolId == schoolId
      ensures forall s :: multiset(r)[s] == if s.schoolId == schoolId then multiset(photoSales)[s] else 0
    {
      SalesOfSchool(photoSales, schoolId)
    }

    function GetPhotoSalesByEvent(eventId: string): (r: seq<PhotoSale>)
      reads this
      ensures forall s :: s in r <==> s in photoSales && s.eventId == eventId
      ensures forall s :: multiset(r)[s] == if s.eventId == eventId then multiset(photoSales)[s] else 0
    {
      SalesOfEvent(photoSales, eventId)
    }

    /** The `forEach` accumulation over the school's sales, whatever their status. */
    method CalculateSchoolRevenue(schoolId: string) returns (r: Revenue)
      ensures r.totalSales == SumReal(SalesOfSchool(photoSales, schoolId), PriceOf)
      ensures r.totalCommission == SumReal(SalesOfSchool(photoSales, schoolId), CommissionOf)
      ensures r.netRevenue == r.totalSales - r.totalCommission
    {
      var sales := SalesOfSchool(photoSales, schoolId);
      var totalSales := 0.0;
      var totalCommission := 0.0;
      var i := 0;
      while i < |sales|
        invariant 0 <= i <= |sales|
        invariant totalSales == SumReal(sales[..i], PriceOf)
        invariant totalCommission == SumReal(sales[..i], CommissionOf)
      {
        assert sales[..i + 1] == sales[..i] + [sales[i]];
        SumRealAppend(sales[..i], [sales[i]], PriceOf);
        SumRealAppend(sales[..i], [sales[i]], CommissionOf);
        totalSales := totalSales + sales[i].price;
        totalCommission := totalCommission + sales[i].commissionAmount;
        i := i + 1;
      }
      assert sales[..i] == sales;
      r := Revenue(totalSales, totalCommission, totalSales - totalCommission);
    }
  }
}

=== FILE: ExportUtils.dfy ===
/** The CSV export of an event's participants (ExportUtils.tsx): eight
    columns, quoted name, class and title, a type label, the QR code or the
    id, the photo count, the date, a constant status; a byte-order mark in
    front; a sanitised file name. The clock enters as two parameters (the
    `pt-BR` date string of the date column and the ISO timestamp of the file
    name), and the download itself is left out: the export returns the text
    and the file name it would hand to the browser. */
module ExportUtils {
  import opened Seqs
  import opened Text
  import opened Domain

  const CsvHeaders: seq<string> :=
    ["Nome", "Turma", "Tipo", "QR Code", "Total de Fotos", "Data de Cadastro", "Status", "Evento"]

  /** The UTF-8 byte-order mark put in front of the content. */
  const Bom: char := '\U{FEFF}'

  /** `"${s}"`: wrapped in double quotes, inner quotes left as they are. */
  function Quoted(s: string): string
  {
    "\"" + s + "\""
  }

  /** 'aluno' and 'professor' get their labels; every other type is reported
      as 'Funcionário', 'outro' included. */
  function TypeLabel(t: ParticipantType): (r: string)
    ensures r == "Aluno" <==> t == Aluno
    ensures r == "Professor" <==> t == Professor
    ensures r == "Funcion\U{E1}rio" <==> t == Funcionario || t == Outro
  {
    match t
    case Aluno => "Aluno"
    case Professor => "Professor"
    case _ => "Funcion\U{E1}rio"
  }

  /** `participant.qrCode || participant.id`. */
  function QrColumn(p: Participant): string
  {
    if p.qrCode != "" then p.qrCode else p.id
  }

  /** The eight cells of a participant's row; `today` is the date column. */
  function Cells(p: Participant, e: Event, today: string): seq<string>
  {
    [Quoted(p.name), Quoted(p.className), TypeLabel(p.kind), QrColumn(p),
     NatToString(|p.photos|), today, "Ativo", Quoted(e.title)]
  }

  function RowLine(p: Participant, e: Event, today: string): string
  {
    Join(Cells(p, e, today), ",")
  }

  function RowLines(ps: seq<Participant>, e: Event, today: string): (r: seq<string>)
    ensures |r| == |ps|
    ensures forall k :: 0 <= k < |ps| ==> r[k] == RowLine(ps[k], e, today)
  {
    if ps == [] then [] else [RowLine(ps[0], e, today)] + RowLines(ps[1..], e, today)
  }

  const HeaderLine := Join(CsvHeaders, ",")

  /** `csvContent`: the header line, then one line per participant. */
  function CsvContent(ps: seq<Participant>, e: Event, today: string): string
  {
    Join([HeaderLine] + RowLines(ps, e, today), "\n")
  }

  /** `participantes_<title>_<day>.csv`, where every character of the title
      outside [a-zA-Z0-9] becomes '_' and the day is the part of the ISO
      timestamp before its 'T'. */
  function FileName(title: string, isoTimestamp: string): string
  {
    "participantes_" + ReplaceNonAlnum(title, '_') + "_" + Split(isoTimestamp, 'T')[0] + ".csv"
  }

  /** What a successful export hands to the browser. */
  datatype CsvExport = CsvExport(content: string, fileName: string)

  /** `exportParticipantsToCSV`: nothing for an empty list (the handler
      returns false); otherwise the content with its byte-order mark and the
      file name. */
  function ExportParticipantsToCsv(ps: seq<Participant>, e: Event, today: string, isoTimestamp: string)
    : (r: Option<CsvExport>)
    ensures r.None? <==> ps == []
    ensures r.Some? ==> |r.value.content| >= 1 && r.value.content[0] == Bom && r.value.content[1..] == CsvContent(ps, e, today)
  {
    if ps == [] then None
    else
      var content := [Bom] + CsvContent(ps, e, today);
      assert content[1..] == CsvContent(ps, e, today);
      Some(CsvExport(content, FileName(e.title, isoTimestamp)))
  }

  /** `exportParticipantsToExcel` delegates to the CSV export. */
  function ExportParticipantsToExcel(ps: seq<Participant>, e: Event, today: string, isoTimestamp: string)
    : (r: Option<CsvExport>)
    ensures r == ExportParticipantsToCsv(ps, e, today, isoTimestamp)
  {
    ExportParticipantsToCsv(ps, e, today, isoTimestamp)
  }

  // ----- properties -----

  /** A quoted field is the text itself between two quote characters: an
      inner quote is not doubled, so the field holds exactly two more quote
      characters than the text. */
  lemma QuotedUnescaped(s: string)
    ensures var q := Quoted(s);
            |q| == |s| + 2 && q[0] == '"' && q[|q| - 1] == '"' && q[1..|q| - 1] == s
    ensures Count(Quoted(s), (c: char) => c == '"') == Count(s, (c: char) => c == '"') + 2
  {
    var isQuote := (c: char) => c == '"';
    CountAppend("\"", s, isQuote);
    CountAppend("\"" + s, "\"", isQuote);
    assert Quoted(s) == ("\"" + s) + "\"";
  }

  lemma QuotedLacks(s: string, c: char)
    requires c != '"' && Lacks(s, c)
    ensures Lacks(Quoted(s), c)
  {
    var q := Quoted(s);
    forall i | 0 <= i < |q| ensures q[i] != c {
      if 0 < i < |q| - 1 {
        assert q[i] == s[i - 1];
      }
    }
  }

  lemma DigitsLack(s: string, c: char)
    requires !IsDigit(c) && forall i :: 0 <= i < |s| ==> IsDigit(s[i])
    ensures Lacks(s, c)
  {
  }

  lemma TypeLabelLacks(t: ParticipantType, c: char)
    requires c == ',' || c == '\n'
    ensures Lacks(TypeLabel(t), c)
  {
  }

  /** The fields of a row hold no separator `c` when the participant's
      name, class and QR code or id, the title and the date hold none. */
  predicate FieldsLack(p: Participant, e: Event, today: string, c: char)
  {
    Lacks(p.name, c) && Lacks(p.className, c) && Lacks(QrColumn(p), c) && Lacks(e.title, c) && Lacks(today, c)
  }

  lemma CellsLack(p: Participant, e: Event, today: string, c: char)
    requires c == ',' || c == '\n'
    requires FieldsLack(p, e, today, c)
    ensures forall k :: 0 <= k < |Cells(p, e, today)| ==> Lacks(Cells(p, e, today)[k], c)
  {
    QuotedLacks(p.name, c);
    QuotedLacks(p.className, c);
    QuotedLacks(e.title, c);
    TypeLabelLacks(p.kind, c);
    DigitsLack(NatToString(|p.photos|), c);
  }

  /** A row reads back, split on ',', as its eight cells, in the header's
      column order, when no field holds a comma: the photo column reads as
      the number of photos and the status column is 'Ativo'. */
  lemma RowCells(p: Participant, e: Event, today: string)
    requires FieldsLack(p, e, today, ',')
    ensures var cells := Split(RowLine(p, e, today), ',');
            |cells| == |CsvHeaders| &&
            cells[0] == Quoted(p.name) && cells[1] == Quoted(p.className) &&
            cells[2] == TypeLabel(p.kind) &&
            cells[3] == (if p.qrCode != "" then p.qrCode else p.id) &&
            (forall i :: 0 <= i < |cells[4]| ==> IsDigit(cells[4][i])) && DecimalValue(cells[4]) == |p.photos| &&
            cells[5] == today && cells[6] == "Ativo" && cells[7] == Quoted(e.title)
  {
    CellsLack(p, e, today, ',');
    SplitJoin(Cells(p, e, today), ',');
    DecimalRoundTrip(|p.photos|);
  }

  lemma HeadersLackSeparators()
    ensures forall k :: 0 <= k < |CsvHeaders| ==> Lacks(CsvHeaders[k], ',') && Lacks(CsvHeaders[k], '\n')
  {
  }

  /** The header line reads back as the eight headers. */
  lemma HeaderCells()
    ensures Split(HeaderLine, ',') == CsvHeaders
    ensures Lacks(HeaderLine, '\n')
  {
    HeadersLackSeparators();
    SplitJoin(CsvHeaders, ',');
    JoinLacks(CsvHeaders, ",", '\n');
  }

  /** When no field holds a line break, the content is the header line
      followed by exactly one line per participant, in input order. */
  lemma ContentLines(ps: seq<Participant>, e: Event, today: string)
    requires forall p :: p in ps ==> FieldsLack(p, e, today, '\n')
    ensures var lines := Split(CsvContent(ps, e, today), '\n');
            |lines| == |ps| + 1 && lines[0] == HeaderLine &&
            forall k :: 0 <= k < |ps| ==> lines[k + 1] == RowLine(ps[k], e, today)
  {
    var lines := [HeaderLine] + RowLines(ps, e, today);
    HeaderCells();
    forall k | 0 < k < |lines| ensures Lacks(lines[k], '\n') {
      var p := ps[k - 1];
      assert lines[k] == RowLine(p, e, today);
      assert p in ps;
      CellsLack(p, e, today, '\n');
      JoinLacks(Cells(p, e, today), ",", '\n');
    }
    SplitJoin(lines, '\n');
  }

  /** The file name keeps its prefix and extension; the title part is as long
      as the title, keeps its ASCII letters and digits in place and holds
      nothing else but '_'; the day part holds no 'T'. */
  lemma FileNameSpec(title: string, isoTimestamp: string)
    ensures var f := FileName(title, isoTimestamp);
            var mid := f[14..14 + |title|];
            f[..14] == "participantes_" && EndsWith(f, ".csv") &&
            (forall i :: 0 <= i < |title| ==>
               (IsAsciiAlnum(title[i]) ==> mid[i] == title[i]) &&
               (IsAsciiAlnum(mid[i]) || mid[i] == '_')) &&
            f[14 + |title|] == '_' && Lacks(Split(isoTimestamp, 'T')[0], 'T')
  {
    var f := FileName(title, isoTimestamp);
    var s := ReplaceNonAlnum(title, '_');
    assert f == "participantes_" + s + "_" + Split(isoTimestamp, 'T')[0] + ".csv";
    assert f[14..14 + |title|] == s;
  }
}

=== FILE: FileNameCode.dfy ===
/** Extraction of a participant's six-digit code from an uploaded photo's file
    name (BatchPhotoUpload.tsx, `extractQRCodeFromFileName`). Each of the five
    regular expressions is written out as the leftmost-match scan a
    backtracking engine performs; the list is tried in order and the first
    pattern that matches decides. */
module FileNameCode {
  import opened Seqs
  import opened Text

  /** `\d{6}` matches at index `i`. */
  predicate DigitsAt(s: string, i: int)
  {
    0 <= i && i + 6 <= |s| && forall k :: i <= k < i + 6 ==> IsDigit(s[k])
  }

  /** `\[(\d{6})\]` matches at index `i`. */
  predicate BracketedAt(s: string, i: int)
  {
    0 <= i && i + 8 <= |s| && s[i] == '[' && DigitsAt(s, i + 1) && s[i + 7] == ']'
  }

  /** `_(\d{6})_` matches at index `i`. */
  predicate UnderscoredAt(s: string, i: int)
  {
    0 <= i && i + 8 <= |s| && s[i] == '_' && DigitsAt(s, i + 1) && s[i + 7] == '_'
  }

  /** `_(\d{6})\.` matches at index `i`. */
  predicate BeforeDotAt(s: string, i: int)
  {
    0 <= i && i + 8 <= |s| && s[i] == '_' && DigitsAt(s, i + 1) && s[i + 7] == '.'
  }

  /** `\[.*?_(\d{6})\]` matches with its '[' at `i` and its '_' at `j`: the
      characters in between are matched by `.`, so none is a line terminator. */
  predicate TaggedAt(s: string, i: int, j: int)
  {
    0 <= i < j && j + 8 <= |s| && s[i] == '[' && s[j] == '_' && DigitsAt(s, j + 1) &&
    s[j + 7] == ']' && forall k :: i < k < j ==> !IsLineTerminator(s[k])
  }

  /** The five patterns, in the order the source lists them. */
  datatype Pattern = TaggedBracket | Bracket | Underscores | UnderscoreDot | AnyDigits

  const Patterns: seq<Pattern> := [TaggedBracket, Bracket, Underscores, UnderscoreDot, AnyDigits]

  /** The smallest `k` in `i..n-1` with `p(k)`: a left-to-right scan. */
  function FirstFrom(n: nat, p: nat -> bool, i: nat): (r: Option<nat>)
    requires i <= n
    decreases n - i
    ensures r.Some? ==> i <= r.value < n && p(r.value) &&
                        forall k :: i <= k < r.value ==> !p(k)
    ensures r.None? ==> forall k :: i <= k < n ==> !p(k)
  {
    if i == n then None
    else if p(i) then Some(i)
    else FirstFrom(n, p, i + 1)
  }

  /** The lazy `.*?` of the first pattern: with '[' at `i`, try '_' at `j`,
      `j + 1`, ... and stop at the first line terminator. */
  function LazyTail(s: string, i: nat, j: nat): (r: Option<nat>)
    requires i < j <= |s| && s[i] == '['
    requires forall k :: i < k < j ==> !IsLineTerminator(s[k])
    decreases |s| - j
    ensures r.Some? ==> j <= r.value && TaggedAt(s, i, r.value) &&
                        forall m :: j <= m < r.value ==> !TaggedAt(s, i, m)
    ensures r.None? ==> forall m :: j <= m ==> !TaggedAt(s, i, m)
  {
    if j == |s| then None
    else if TaggedAt(s, i, j) then Some(j)
    else if IsLineTerminator(s[j]) then None
    else LazyTail(s, i, j + 1)
  }

  /** Leftmost match of `\[.*?_(\d{6})\]` starting at or after `i`: the
      position of its '[' and of the '_' the lazy quantifier stops at. */
  function TaggedFrom(s: string, i: nat): (r: Option<(nat, nat)>)
    requires i <= |s|
    decreases |s| - i
    ensures r.Some? ==> i <= r.value.0 && TaggedAt(s, r.value.0, r.value.1) &&
                        (forall a, b :: i <= a < r.value.0 ==> !TaggedAt(s, a, b)) &&
                        (forall b :: b < r.value.1 ==> !TaggedAt(s, r.value.0, b))
    ensures r.None? ==> forall a, b :: i <= a ==> !TaggedAt(s, a, b)
  {
    if i == |s| then None
    else
      var tail := if s[i] == '[' then LazyTail(s, i, i + 1) else None;
      if tail.Some? then Some((i, tail.value))
      else TaggedFrom(s, i + 1)
  }

  /** Where a pattern other than the first matches at index `i`. */
  predicate SimpleAt(p: Pattern, s: string, i: int)
    requires p != TaggedBracket
  {
    match p
    case Bracket => BracketedAt(s, i)
    case Underscores => UnderscoredAt(s, i)
    case UnderscoreDot => BeforeDotAt(s, i)
    case AnyDigits => DigitsAt(s, i)
  }

  /** Offset of the captured digits from the start of the match. */
  function CaptureOffset(p: Pattern): nat
  {
    if p == AnyDigits then 0 else 1
  }

  /** The leftmost match of the first pattern, and the digits it captures. */
  function MatchTagged(s: string): (r: Option<string>)
    ensures r.None? <==> forall a, b :: !TaggedAt(s, a, b)
    ensures r.Some? ==>
              exists a, b :: TaggedAt(s, a, b) && r.value == s[b + 1..b + 7] &&
                             (forall a', b' :: 0 <= a' < a ==> !TaggedAt(s, a', b')) &&
                             (forall b' :: b' < b ==> !TaggedAt(s, a, b'))
  {
    match TaggedFrom(s, 0)
    case None => None
    case Some((a, b)) => Some(s[b + 1..b + 7])
  }

  /** The leftmost match of one of the other patterns, and the digits it
      captures. */
  function MatchSimple(p: Pattern, s: string): (r: Option<string>)
    requires p != TaggedBracket
    ensures r.None? <==> forall i :: !SimpleAt(p, s, i)
    ensures r.Some? ==>
              exists i :: SimpleAt(p, s, i) && (forall k :: 0 <= k < i ==> !SimpleAt(p, s, k)) &&
                          r.value == s[i + CaptureOffset(p)..i + CaptureOffset(p) + 6]
  {
    var at := (k: nat) => SimpleAt(p, s, k);
    var m := FirstFrom(|s|, at, 0);
    assert forall i :: SimpleAt(p, s, i) ==> 0 <= i < |s|;
    assert m.None? ==> forall i :: !SimpleAt(p, s, i) by {
      if m.None? {
        forall i | 0 <= i < |s| ensures !SimpleAt(p, s, i) {
          assert !at(i);
        }
      }
    }
    assert m.Some? ==> forall k :: 0 <= k < m.value ==> !SimpleAt(p, s, k) by {
      if m.Some? {
        forall k | 0 <= k < m.value ensures !SimpleAt(p, s, k) {
          assert !at(k);
        }
      }
    }
    if m.None? then None else Some(s[m.value + CaptureOffset(p)..m.value + CaptureOffset(p) + 6])
  }

  /** `s.match(p)[1]`: the six digits the pattern captures at its leftmost match. */
  function MatchPattern(p: Pattern, s: string): (r: Option<string>)
    ensures r.Some? ==> exists i :: DigitsAt(s, i) && r.value == s[i..i + 6]
    ensures p != TaggedBracket ==> (r.None? <==> forall i :: !SimpleAt(p, s, i))
    ensures p != TaggedBracket && r.Some? ==>
              exists i :: SimpleAt(p, s, i) && (forall k :: 0 <= k < i ==> !SimpleAt(p, s, k)) &&
                          r.value == s[i + CaptureOffset(p)..i + CaptureOffset(p) + 6]
    ensures p == TaggedBracket ==> (r.None? <==> forall a, b :: !TaggedAt(s, a, b))
    ensures p == TaggedBracket && r.Some? ==>
              exists a, b :: TaggedAt(s, a, b) && r.value == s[b + 1..b + 7] &&
                             (forall a', b' :: 0 <= a' < a ==> !TaggedAt(s, a', b')) &&
                             (forall b' :: b' < b ==> !TaggedAt(s, a, b'))
  {
    if p == TaggedBracket then MatchTagged(s)
    else
      var r := MatchSimple(p, s);
      assert r.Some? ==> exists i :: DigitsAt(s, i) && r.value == s[i..i + 6] by {
        if r.Some? {
          var i :| SimpleAt(p, s, i) && r.value == s[i + CaptureOffset(p)..i + CaptureOffset(p) + 6];
          assert DigitsAt(s, i + CaptureOffset(p));
        }
      }
      r
  }

  /** The loop over the pattern list: the first pattern that matches decides. */
  function FirstMatch(ps: seq<Pattern>, s: string): Option<string>
  {
    if ps == [] then None
    else
      var m := MatchPattern(ps[0], s);
      if m.Some? then m else FirstMatch(ps[1..], s)
  }

  /** `FirstMatch` answers with the match of the first pattern that matches,
      and with nothing exactly when no pattern matches. */
  lemma {:induction false} FirstMatchSpec(ps: seq<Pattern>, s: string)
    ensures var r := FirstMatch(ps, s);
            r.Some? ==> exists k :: 0 <= k < |ps| && MatchPattern(ps[k], s) == r &&
                                    forall j :: 0 <= j < k ==> MatchPattern(ps[j], s).None?
    ensures FirstMatch(ps, s).None? <==> forall k :: 0 <= k < |ps| ==> MatchPattern(ps[k], s).None?
  {
    if ps != [] && MatchPattern(ps[0], s).None? {
      var tail := ps[1..];
      FirstMatchSpec(tail, s);
      var rest := FirstMatch(tail, s);
      assert FirstMatch(ps, s) == rest;
      if rest.Some? {
        var k :| 0 <= k < |tail| && MatchPattern(tail[k], s) == rest &&
                 forall j :: 0 <= j < k ==> MatchPattern(tail[j], s).None?;
        assert MatchPattern(ps[k + 1], s) == rest;
        forall j | 0 <= j < k + 1 ensures MatchPattern(ps[j], s).None? {
          if j > 0 { assert ps[j] == tail[j - 1]; }
        }
      } else {
        forall k | 0 <= k < |ps| ensures MatchPattern(ps[k], s).None? {
          if k > 0 { assert ps[k] == tail[k - 1]; }
        }
      }
    } else if ps != [] {
      assert MatchPattern(ps[0], s) == FirstMatch(ps, s);
    }
  }

  /** `extractQRCodeFromFileName`: a six-digit substring of the name, or none. */
  function ExtractCode(fileName: string): (r: Option<string>)
    ensures r.Some? ==> |r.value| == 6 && (forall k :: 0 <= k < 6 ==> IsDigit(r.value[k])) &&
                        exists i :: OccursAt(fileName, r.value, i)
    ensures r.None? <==> forall i :: !DigitsAt(fileName, i)
  {
    var r := FirstMatch(Patterns, fileName);
    FirstMatchSpec(Patterns, fileName);
    assert r.None? <==> forall i :: !DigitsAt(fileName, i) by {
      assert Patterns[4] == AnyDigits;
      assert forall i :: SimpleAt(AnyDigits, fileName, i) == DigitsAt(fileName, i);
      if forall i :: !DigitsAt(fileName, i) {
        forall k | 0 <= k < |Patterns| ensures MatchPattern(Patterns[k], fileName).None? { }
      }
    }
    assert r.Some? ==> |r.value| == 6 && (forall k :: 0 <= k < 6 ==> IsDigit(r.value[k])) &&
                       exists i :: OccursAt(fileName, r.value, i) by {
      if r.Some? {
        var i :| DigitsAt(fileName, i) && r.value == fileName[i..i + 6];
        forall k | 0 <= k < 6 ensures IsDigit(r.value[k]) {
          assert r.value[k] == fileName[i + k];
        }
        assert OccursAt(fileName, r.value, i);
      }
    }
    r
  }

  /** A name with no '[' and a single '_', followed by six digits and a dot,
      is decided by the fourth pattern: the code is the six digits. */
  lemma SingleUnderscoreBeforeDot(s: string, j: nat)
    requires forall i :: 0 <= i < |s| ==> s[i] != '['
    requires forall i :: 0 <= i < |s| && s[i] == '_' ==> i == j
    requires BeforeDotAt(s, j)
    ensures ExtractCode(s) == Some(s[j + 1..j + 7])
  {
    assert MatchPattern(TaggedBracket, s).None?;
    assert MatchPattern(Bracket, s).None?;
    assert MatchPattern(Underscores, s).None?;
    assert SimpleAt(UnderscoreDot, s, j);
    var r := MatchPattern(UnderscoreDot, s);
    var i :| SimpleAt(UnderscoreDot, s, i) && r.value == s[i + 1..i + 7];
    assert s[i] == '_';
    assert i == j;
    var rest := Patterns[1..][1..][1..];
    assert Patterns[0] == TaggedBracket && Patterns[1..][0] == Bracket && Patterns[1..][1..][0] == Underscores;
    assert rest[0] == UnderscoreDot;
    assert FirstMatch(rest, s) == r;
    assert FirstMatch(Patterns[1..][1..], s) == FirstMatch(rest, s);
    assert FirstMatch(Patterns[1..], s) == FirstMatch(Patterns[1..][1..], s);
    assert FirstMatch(Patterns, s) == FirstMatch(Patterns[1..], s);
  }
}

module FileNameCodeExamples {
  import opened Seqs
  import opened Text
  import opened FileNameCode

  /** The documented format "[EOS2123_123456].jpg" is decided by the first
      pattern, which captures the digits after the underscore. */
  lemma TaggedExample()
    ensures MatchPattern(TaggedBracket, "[EOS2123_123456].jpg") == Some("123456")
    ensures ExtractCode("[EOS2123_123456].jpg") == Some("123456")
  {
    var s := "[EOS2123_123456].jpg";
    assert TaggedAt(s, 0, 8);
    assert forall b :: b < 8 ==> !TaggedAt(s, 0, b);
    assert s[9..15] == "123456";
  }

  /** Order matters: the catch-all pattern alone would take the leading
      "000001" ... */
  lemma PriorityCatchAllAlone()
    ensures MatchPattern(AnyDigits, "000001[EOS_123456].jpg") == Some("000001")
  {
    var s := "000001[EOS_123456].jpg";
    assert SimpleAt(AnyDigits, s, 0);
    var r := MatchPattern(AnyDigits, s);
    var i :| SimpleAt(AnyDigits, s, i) && (forall k :: 0 <= k < i ==> !SimpleAt(AnyDigits, s, k)) &&
             r.value == s[i..i + 6];
    assert i == 0;
    assert s[0..6] == "000001";
  }

  /** ... but the bracketed tag is tried first and wins. */
  lemma PriorityTagWins()
    ensures ExtractCode("000001[EOS_123456].jpg") == Some("123456")
  {
    var s := "000001[EOS_123456].jpg";
    assert TaggedAt(s, 6, 10);
    assert forall a, b :: a < 6 ==> !TaggedAt(s, a, b);
    assert forall b :: b < 10 ==> !TaggedAt(s, 6, b);
    assert s[11..17] == "123456";
  }
}

=== FILE: Locator.dfy ===
/** The participant locator page (localizar/page.tsx): a search by QR code, a
    second copy of the cart whose new items may carry a product price, a
    checkout that only empties and closes the cart, and the WhatsApp request
    form. `Date.now()` ids are parameters; the `console.log`/`alert` calls, the
    `encodeURIComponent` step and `window.open` are left out, so the WhatsApp
    handler returns the message it would send. */
module Locator {
  import opened Seqs
  import opened Text
  import opened Domain
  import opened Cart
  import opened EventsStore

  /** `productPrice || event.photoPrice`: an absent or zero product price
      falls back to the event's photo price. */
  function ItemPrice(productPrice: Option<real>, e: Event): (price: real)
  {
    if productPrice.Some? && productPrice.value != 0.0 then productPrice.value else e.photoPrice
  }

  /** The price a new item gets: the product price when it is given and
      non-zero, and the event's photo price otherwise, a zero product price
      included. */
  lemma ItemPriceCases(productPrice: Option<real>, e: Event)
    ensures productPrice.None? ==> ItemPrice(productPrice, e) == e.photoPrice
    ensures productPrice == Some(0.0) ==> ItemPrice(productPrice, e) == e.photoPrice
    ensures productPrice.Some? && productPrice.value != 0.0 ==> ItemPrice(productPrice, e) == productPrice.value
    ensures ItemPrice(productPrice, e) == e.photoPrice || Some(ItemPrice(productPrice, e)) == productPrice
  {
  }

  /** The search state of the page: `searchQuery`, `searchResults`, `isSearching`. */
  datatype SearchState = SearchState(query: string, results: seq<Participant>, isSearching: bool)

  /** What `handleSearch` leaves behind: nothing changes for a blank query;
      otherwise the results are the store's QR-code search for the query.
      (`setIsSearching(true)` is undone within the same synchronous handler,
      so only the final `false` is observable.) */
  function AfterSearch(s: SearchState, evs: seq<Event>, ps: seq<Participant>): SearchState
  {
    if AllWhitespace(s.query) then s
    else s.(results := Search(evs, ps, s.query, ByQrCode), isSearching := false)
  }

  /** A blank query changes nothing; any other query leaves, in roster order,
      exactly the participants whose code equals the trimmed, lowercased query. */
  lemma AfterSearchSpec(s: SearchState, evs: seq<Event>, ps: seq<Participant>)
    ensures AllWhitespace(s.query) ==> AfterSearch(s, evs, ps) == s
    ensures !AllWhitespace(s.query) ==>
              var r := AfterSearch(s, evs, ps);
              r.query == s.query && !r.isSearching && IsSubsequence(r.results, ps) &&
              (forall p :: p in r.results <==> p in ps && p.qrCode == Trim(ToLower(s.query))) &&
              forall p :: multiset(r.results)[p] == if p.qrCode == Trim(ToLower(s.query)) then multiset(ps)[p] else 0
  {
    SearchSpec(evs, ps, s.query, ByQrCode);
  }

  /** The `whatsAppForm` state record. */
  datatype WhatsAppForm = WhatsAppForm(parentName: string, studentName: string, studentClass: string, school: string)

  const EmptyForm := WhatsAppForm([], [], [], [])

  /** Every field is filled in: the handler's validation. */
  predicate Complete(f: WhatsAppForm)
  {
    f.parentName != [] && f.studentName != [] && f.studentClass != [] && f.school != []
  }

  /** The fixed text of the WhatsApp request, piece by piece. */
  const Greeting := "Ol\U{E1}! Sou "
  const Guardian := ", respons\U{E1}vel pelo(a) aluno(a) "
  const ClassPart := " da turma "
  const SchoolPart := " da escola "
  const Closing := ". Gostaria de solicitar o QR Code para visualizar as fotos do Dia da Foto. Obrigado!"

  /** The pieces of the WhatsApp request's template literal: fixed text
      around the four form fields. */
  function MessageParts(parentName: string, studentName: string, studentClass: string, school: string)
    : seq<string>
  {
    [Greeting, parentName, Guardian, studentName, ClassPart, studentClass, SchoolPart, school, Closing]
  }

  /** The text of the WhatsApp request for the four form fields. */
  function WhatsAppMessage(parentName: string, studentName: string, studentClass: string, school: string): string
  {
    Concat(MessageParts(parentName, studentName, studentClass, school))
  }

  /** The message names the parent, the student, the class and the school. */
  lemma WhatsAppMessageMentionsAll(parentName: string, studentName: string, studentClass: string, school: string)
    ensures var m := WhatsAppMessage(parentName, studentName, studentClass, school);
            Contains(m, parentName) && Contains(m, studentName) && Contains(m, studentClass) && Contains(m, school)
  {
    var parts := MessageParts(parentName, studentName, studentClass, school);
    ConcatOccurs(parts, 1);
    ConcatOccurs(parts, 3);
    ConcatOccurs(parts, 5);
    ConcatOccurs(parts, 7);
  }

  class LocatorPage {
    var search: SearchState
    var isCartOpen: bool
    var items: seq<CartItem>
    var showWhatsAppModal: bool
    var form: WhatsAppForm

    /** The initial state: every field empty or closed. */
    constructor()
      ensures search == SearchState([], [], false) && !isCartOpen
      ensures items == [] && !showWhatsAppModal && form == EmptyForm
    {
      search := SearchState([], [], false);
      isCartOpen := false;
      items := [];
      showWhatsAppModal := false;
      form := EmptyForm;
    }

    /** `handleSearch`. */
    method HandleSearch(store: Store)
      modifies this
      ensures search == AfterSearch(old(search), store.events, store.participants)
      ensures isCartOpen == old(isCartOpen) && items == old(items)
      ensures showWhatsAppModal == old(showWhatsAppModal) && form == old(form)
    {
      // `!searchQuery.trim()`: see `TrimEmptyIff`.
      if AllWhitespace(search.query) {
        return;
      }
      var results := store.SearchParticipants(search.query, ByQrCode);
      search := search.(results := results, isSearching := false);
    }

    /** `addToCart` with an optional product price. */
    method AddToCart(photoUrl: string, p: Participant, e: Event, filename: string,
                     productPrice: Option<real>, newId: string)
      modifies this
      ensures items == AddItem(old(items), photoUrl, p, e, filename, ItemPrice(productPrice, e), newId)
      ensures WellFormed(old(items)) && !HasId(old(items), newId) ==> WellFormed(items)
      ensures isCartOpen == old(isCartOpen) && search == old(search)
      ensures showWhatsAppModal == old(showWhatsAppModal) && form == old(form)
    {
      var existing := FindItem(items, photoUrl, p.id);
      var itemPrice := if productPrice.Some? && productPrice.value != 0.0 then productPrice.value else e.photoPrice;
      if existing.Some? {
        var id := items[existing.value].id;
        items := MapWhere(items, (it: CartItem) => it.id == id, (it: CartItem) => it.(quantity := it.quantity + 1));
      } else {
        items := items + [CartItem(newId, photoUrl, p.name, e.title, itemPrice, 1, p.id, e.id, e.schoolId, filename)];
      }
      if WellFormed(old(items)) && !HasId(old(items), newId) {
        AddItemWellFormed(old(items), photoUrl, p, e, filename, itemPrice, newId);
      }
    }

    /** `removeFromCart`. */
    method RemoveFromCart(id: string)
      modifies this
      ensures items == RemoveItem(old(items), id)
      ensures WellFormed(old(items)) ==> WellFormed(items) && !HasId(items, id)
      ensures isCartOpen == old(isCartOpen) && search == old(search)
      ensures showWhatsAppModal == old(showWhatsAppModal) && form == old(form)
    {
      items := Filter(items, (it: CartItem) => it.id != id);
      if WellFormed(old(items)) {
        RemoveItemWellFormed(old(items), id);
      }
    }

    /** `updateQuantity`: zero or less removes the item. */
    method UpdateQuantity(id: string, q: int)
      modifies this
      ensures items == SetQuantity(old(items), id, q)
      ensures WellFormed(old(items)) ==> WellFormed(items)
      ensures isCartOpen == old(isCartOpen) && search == old(search)
      ensures showWhatsAppModal == old(showWhatsAppModal) && form == old(form)
    {
      if q <= 0 {
        RemoveFromCart(id);
        return;
      }
      items := MapWhere(items, (it: CartItem) => it.id == id, (it: CartItem) => it.(quantity := q));
      if WellFormed(old(items)) {
        SetQuantityWellFormed(old(items), id, q);
      }
    }

    /** `getTotalPrice`. */
    function TotalPrice(): (t: real)
      reads this
      ensures items == [] ==> t == 0.0
      ensures AllPositive(items) && (forall k :: 0 <= k < |items| ==> items[k].price >= 0.0) ==> t >= 0.0
    {
      if AllPositive(items) && (forall k :: 0 <= k < |items| ==> items[k].price >= 0.0) then
        TotalNonNegative(items);
        Total(items)
      else Total(items)
    }

    /** `handleCheckout`: nothing is recorded; the cart is emptied and closed. */
    method Checkout()
      modifies this
      ensures items == [] && !isCartOpen
      ensures search == old(search) && showWhatsAppModal == old(showWhatsAppModal) && form == old(form)
    {
      items := [];
      isCartOpen := false;
    }

    /** `handleWhatsAppRequest`: with any field empty nothing changes and no
        message is sent; otherwise the message is built from the fields, the
        form is reset and the modal closes. */
    method HandleWhatsAppRequest() returns (message: Option<string>)
      modifies this
      ensures !Complete(old(form)) ==>
                message.None? && showWhatsAppModal == old(showWhatsAppModal) && form == old(form)
      ensures Complete(old(form)) ==>
                message == Some(WhatsAppMessage(old(form).parentName, old(form).studentName,
                                                old(form).studentClass, old(form).school)) &&
                !showWhatsAppModal && form == EmptyForm
      ensures items == old(items) && isCartOpen == old(isCartOpen)
      ensures search == old(search)
    {
      if form.parentName == [] || form.studentName == [] || form.studentClass == [] || form.school == [] {
        return None;
      }
      var text := WhatsAppMessage(form.parentName, form.studentName, form.studentClass, form.school);
      form := EmptyForm;
      showWhatsAppModal := false;
      message := Some(text);
    }

    /** `resetWhatsAppForm`: clear the four fields and close the modal. */
    method ResetWhatsAppForm()
      modifies this
      ensures form == EmptyForm && !showWhatsAppModal
      ensures items == old(items) && isCartOpen == old(isCartOpen)
      ensures search == old(search)
    {
      form := EmptyForm;
      showWhatsAppModal := false;
    }
  }

  // ----- properties -----

  /** Adding a photo with a zero product price prices the new item at the
      event's photo price. */
  lemma ZeroProductPriceFallsBack(items: seq<CartItem>, photoUrl: string, p: Participant, e: Event,
                                  filename: string, newId: string)
    requires FindItem(items, photoUrl, p.id).None?
    ensures AddItem(items, photoUrl, p, e, filename, ItemPrice(Some(0.0), e), newId)[|items|].price == e.photoPrice
    ensures Total(AddItem(items, photoUrl, p, e, filename, ItemPrice(Some(0.0), e), newId)) == Total(items) + e.photoPrice
  {
    AddItemTotalAppended(items, photoUrl, p, e, filename, e.photoPrice, newId);
  }
}

=== FILE: ParticipantForm.dfy ===
/** The participant form (ParticipantForm.tsx): the `formData` and `error`
    state, the effect that copies the initial data in, the submit handler's
    validation and the profile-photo picker. `onSubmit` is modelled by
    returning the record it would receive. */
module ParticipantForm {
  import opened Seqs
  import opened Text

  /** `ParticipantFormData`; an empty `profilePhoto` means none. The type is
      the free text of the select, 'convidado' included. */
  datatype FormData = FormData(name: string, className: string, kind: string, profilePhoto: string)

  /** The optional `initialData` prop: every field may be absent. */
  datatype InitialData = InitialData(
    name: Option<string>,
    className: Option<string>,
    kind: Option<string>,
    profilePhoto: Option<string>,
    photos: Option<seq<string>>)

  const BlankForm := FormData("", "", "aluno", "")

  const RequiredMessage := "Nome e turma s\U{E3}o obrigat\U{F3}rios"

  /** `value || fallback` for an optional string: absent or '' falls back. */
  function OrElse(value: Option<string>, fallback: string): (r: string)
  {
    if value.Some? && value.value != "" then value.value else fallback
  }

  /** Whether the initial data has photos but no profile photo. */
  predicate NeedsDefaultPhoto(init: InitialData)
  {
    init.photos.Some? && |init.photos.value| > 0 && OrElse(init.profilePhoto, "") == ""
  }

  /** The form the initial-data effect leaves behind. */
  function FromInitial(init: InitialData): FormData
  {
    FormData(OrElse(init.name, ""), OrElse(init.className, ""), OrElse(init.kind, "aluno"),
             if NeedsDefaultPhoto(init) then init.photos.value[0] else OrElse(init.profilePhoto, ""))
  }

  /** The copy keeps every given non-empty field, puts '' for the missing
      ones and 'aluno' for a missing type; with photos and no profile photo
      the first photo becomes the profile photo, and in every case the
      profile photo is '', the given one or one of the photos. */
  lemma FromInitialSpec(init: InitialData)
    ensures var f := FromInitial(init);
            (init.name.Some? && init.name.value != "" ==> f.name == init.name.value) &&
            (init.name.None? ==> f.name == "") &&
            (init.className.Some? && init.className.value != "" ==> f.className == init.className.value) &&
            (init.className.None? ==> f.className == "") &&
            (init.kind.None? || init.kind == Some("") ==> f.kind == "aluno") &&
            (init.kind.Some? && init.kind.value != "" ==> f.kind == init.kind.value) &&
            (NeedsDefaultPhoto(init) ==> f.profilePhoto == init.photos.value[0]) &&
            (init.profilePhoto.Some? && init.profilePhoto.value != "" ==> f.profilePhoto == init.profilePhoto.value) &&
            (f.profilePhoto == "" || Some(f.profilePhoto) == init.profilePhoto ||
             (init.photos.Some? && f.profilePhoto in init.photos.value))
  {
  }

  class ParticipantFormState {
    var formData: FormData
    var error: string

    constructor()
      ensures formData == BlankForm && error == ""
    {
      formData := BlankForm;
      error := "";
    }

    /** The initial-data effect: nothing without initial data; otherwise the
        fields are copied and then, if needed, the first photo is made the
        profile photo. */
    method LoadInitialData(initialData: Option<InitialData>)
      modifies this
      ensures initialData.None? ==> formData == old(formData)
      ensures initialData.Some? ==> formData == FromInitial(initialData.value)
      ensures error == old(error)
    {
      if initialData.None? {
        return;
      }
      var init := initialData.value;
      formData := FormData(OrElse(init.name, ""), OrElse(init.className, ""), OrElse(init.kind, "aluno"),
                           OrElse(init.profilePhoto, ""));
      if init.photos.Some? && |init.photos.value| > 0 && !(init.profilePhoto.Some? && init.profilePhoto.value != "") {
        formData := formData.(profilePhoto := init.photos.value[0]);
      }
    }

    /** `handleSubmit`: a name or class that is blank after trimming sets
        the required-fields message and submits nothing; otherwise the error
        is cleared and the form data is submitted as it is, untrimmed. */
    method HandleSubmit() returns (submitted: Option<FormData>)
      modifies this
      ensures AllWhitespace(formData.name) || AllWhitespace(formData.className) ==>
                submitted.None? && error == RequiredMessage
      ensures !AllWhitespace(formData.name) && !AllWhitespace(formData.className) ==>
                submitted == Some(formData) && error == ""
      ensures formData == old(formData)
    {
      error := "";
      TrimEmptyIff(formData.name);
      TrimEmptyIff(formData.className);
      if Trim(formData.name) == "" || Trim(formData.className) == "" {
        error := RequiredMessage;
        return None;
      }
      submitted := Some(formData);
    }

    /** `handleSetProfilePhoto`: only the profile photo changes. */
    method HandleSetProfilePhoto(photoUrl: string)
      modifies this
      ensures formData == old(formData).(profilePhoto := photoUrl)
      ensures error == old(error)
    {
      formData := formData.(profilePhoto := photoUrl);
    }
  }
}

=== FILE: ParticipantsList.dfy ===
/** The participant list of an event (ParticipantsList.tsx): the sort-toggle
    state, the filtered and sorted view, the CSV import that hands valid rows
    to `addParticipantsBatch`, and the CSV export of the view. Reading the
    file, the `alert` calls, the print window and the download are left out:
    the import takes the file's text and returns which of its outcomes it
    reached, and the export returns the text and the file name. */
module ParticipantsList {
  import opened Seqs
  import opened Text
  import opened Domain
  import opened Utils
  import opened EventsStore

  // ----- sorting state -----

  /** The columns whose headers call `handleSort`: 'name', 'class', 'type'. */
  datatype SortColumn = NameColumn | ClassColumn | TypeColumn

  datatype SortOrder = Asc | Desc

  function Flip(o: SortOrder): SortOrder
  {
    if o == Asc then Desc else Asc
  }

  /** `handleSort(column)`: the same column flips the order, another column
      is selected in ascending order. */
  function NextSort(sortBy: SortColumn, order: SortOrder, column: SortColumn): (SortColumn, SortOrder)
  {
    if sortBy == column then (sortBy, Flip(order)) else (column, Asc)
  }

  /** The clicked column is always selected afterwards; clicking the selected
      column twice restores its order, and a new column clicked twice ends
      descending. */
  lemma NextSortSpec(sortBy: SortColumn, order: SortOrder, column: SortColumn)
    ensures NextSort(sortBy, order, column).0 == column
    ensures sortBy == column ==> NextSort(sortBy, order, column).1 != order
    ensures sortBy != column ==> NextSort(sortBy, order, column).1 == Asc
    ensures var (c, o) := NextSort(sortBy, order, column);
            NextSort(c, o, column) == (if sortBy == column then (column, order) else (column, Desc))
  {
  }

  // ----- the view -----

  /** `a[sortBy] || ''` for the three sortable columns. */
  function SortKey(p: Participant, col: SortColumn): string
  {
    match col
    case NameColumn => p.name
    case ClassColumn => p.className
    case TypeColumn => TypeName(p.kind)
  }

  /** The comparator returns -1: `a` goes strictly before `b`. */
  predicate Before(a: Participant, b: Participant, col: SortColumn, ord: SortOrder)
  {
    if ord == Asc then LexLess(SortKey(a, col), SortKey(b, col))
    else LexLess(SortKey(b, col), SortKey(a, col))
  }

  lemma BeforeTransitive(a: Participant, b: Participant, c: Participant, col: SortColumn, ord: SortOrder)
    requires Before(a, b, col, ord) && Before(b, c, col, ord)
    ensures Before(a, c, col, ord)
  {
    if ord == Asc {
      LexLessTransitive(SortKey(a, col), SortKey(b, col), SortKey(c, col));
    } else {
      LexLessTransitive(SortKey(c, col), SortKey(b, col), SortKey(a, col));
    }
  }

  lemma BeforeAsymmetric(a: Participant, b: Participant, col: SortColumn, ord: SortOrder)
    requires Before(a, b, col, ord)
    ensures !Before(b, a, col, ord)
  {
    if ord == Asc {
      LexLessAsymmetric(SortKey(a, col), SortKey(b, col));
    } else {
      LexLessAsymmetric(SortKey(b, col), SortKey(a, col));
    }
  }

  /** No participant goes strictly before one listed earlier: non-decreasing
      keys in ascending order, non-increasing in descending order. */
  predicate Sorted(s: seq<Participant>, col: SortColumn, ord: SortOrder)
  {
    forall i, j :: 0 <= i < j < |s| ==> !Before(s[j], s[i], col, ord)
  }

  /** Place `x` after every element it does not go strictly before. */
  function Insert(x: Participant, s: seq<Participant>, col: SortColumn, ord: SortOrder): (r: seq<Participant>)
    ensures multiset(r) == multiset(s) + multiset{x}
  {
    if s == [] then [x]
    else if Before(x, s[0], col, ord) then [x] + s
    else
      var rest := Insert(x, s[1..], col, ord);
      assert s == [s[0]] + s[1..];
      [s[0]] + rest
  }

  /** `.sort(comparator)`: JavaScript's sort is stable, so elements are
      inserted in list order, each after the equal ones already placed. */
  function SortView(xs: seq<Participant>, col: SortColumn, ord: SortOrder): (r: seq<Participant>)
    ensures multiset(r) == multiset(xs)
  {
    if xs == [] then []
    else
      var init := xs[..|xs| - 1];
      assert xs == init + [xs[|xs| - 1]];
      Insert(xs[|xs| - 1], SortView(init, col, ord), col, ord)
  }

  lemma {:induction false} InsertSorted(x: Participant, s: seq<Participant>, col: SortColumn, ord: SortOrder)
    requires Sorted(s, col, ord)
    ensures Sorted(Insert(x, s, col, ord), col, ord)
  {
    if s == [] {
    } else if Before(x, s[0], col, ord) {
      PrependSorted(x, s, col, ord);
    } else {
      var rest := Insert(x, s[1..], col, ord);
      InsertSorted(x, s[1..], col, ord);
      forall y | y in rest ensures !Before(y, s[0], col, ord) {
        assert y in multiset(rest);
        if y != x {
          assert y in multiset(s[1..]);
          var m :| 0 <= m < |s[1..]| && s[1..][m] == y;
          assert s[m + 1] == y;
        }
      }
      ConsSorted(s[0], rest, col, ord);
    }
  }

  /** A head that no later element goes strictly before extends a sorted list. */
  lemma ConsSorted(h: Participant, rest: seq<Participant>, col: SortColumn, ord: SortOrder)
    requires Sorted(rest, col, ord)
    requires forall y :: y in rest ==> !Before(y, h, col, ord)
    ensures Sorted([h] + rest, col, ord)
  {
    var r := [h] + rest;
    forall i, j | 0 <= i < j < |r| ensures !Before(r[j], r[i], col, ord) {
      assert r[j] == rest[j - 1];
      if i > 0 {
        assert r[i] == rest[i - 1];
      }
    }
  }

  /** An element that goes strictly before the head of a sorted list may lead it. */
  lemma PrependSorted(x: Participant, s: seq<Participant>, col: SortColumn, ord: SortOrder)
    requires Sorted(s, col, ord) && s != [] && Before(x, s[0], col, ord)
    ensures Sorted([x] + s, col, ord)
  {
    var r := [x] + s;
    forall j | 0 < j < |r| ensures !Before(r[j], x, col, ord) {
      assert r[j] == s[j - 1];
      if j == 1 {
        BeforeAsymmetric(x, s[0], col, ord);
      } else if Before(r[j], x, col, ord) {
        BeforeTransitive(r[j], x, s[0], col, ord);
      }
    }
  }

  lemma {:induction false} SortViewSorted(xs: seq<Participant>, col: SortColumn, ord: SortOrder)
    ensures Sorted(SortView(xs, col, ord), col, ord)
  {
    if xs != [] {
      SortViewSorted(xs[..|xs| - 1], col, ord);
      InsertSorted(xs[|xs| - 1], SortView(xs[..|xs| - 1], col, ord), col, ord);
    }
  }

  /** The filter test: the lowercased name, class or type contains the
      lowercased search term. */
  predicate Matches(p: Participant, term: string)
  {
    var t := ToLower(term);
    Contains(ToLower(p.name), t) || Contains(ToLower(p.className), t) || Contains(ToLower(TypeName(p.kind)), t)
  }

  /** `filteredAndSortedParticipants`. */
  function View(ps: seq<Participant>, term: string, col: SortColumn, ord: SortOrder): seq<Participant>
  {
    SortView(Filter(ps, (p: Participant) => Matches(p, term)), col, ord)
  }

  /** The view is a permutation of the matching participants, sorted by the
      selected column in the selected order. */
  lemma ViewSpec(ps: seq<Participant>, term: string, col: SortColumn, ord: SortOrder)
    ensures var v := View(ps, term, col, ord);
            Sorted(v, col, ord) &&
            multiset(v) == multiset(Filter(ps, (p: Participant) => Matches(p, term))) &&
            forall p :: p in v <==> p in ps && Matches(p, term)
  {
    var kept := Filter(ps, (p: Participant) => Matches(p, term));
    SortViewSorted(kept, col, ord);
    var v := View(ps, term, col, ord);
    forall p ensures p in v <==> p in kept {
      assert p in v <==> p in multiset(v);
      assert p in kept <==> p in multiset(kept);
    }
  }

  /** An empty search term keeps every participant. */
  lemma EmptyTermKeepsAll(ps: seq<Participant>, col: SortColumn, ord: SortOrder)
    ensures multiset(View(ps, "", col, ord)) == multiset(ps)
  {
    forall p | p in ps ensures Matches(p, "") {
      ContainsEmpty(ToLower(p.name));
    }
    FilterAll(ps, (p: Participant) => Matches(p, ""));
  }

  // ----- import -----

  /** `line.trim()` is truthy. */
  predicate NonBlank(line: string)
  {
    Trim(line) != []
  }

  /** `headers.map(h => h.trim().toLowerCase())`. */
  function NormalizeHeaders(hs: seq<string>): (r: seq<string>)
    ensures |r| == |hs|
    ensures forall i :: 0 <= i < |hs| ==> r[i] == ToLower(Trim(hs[i]))
  {
    if hs == [] then [] else [ToLower(Trim(hs[0]))] + NormalizeHeaders(hs[1..])
  }

  predicate IsNameHeader(h: string)
  {
    Contains(h, "nome") || Contains(h, "name")
  }

  predicate IsClassHeader(h: string)
  {
    Contains(h, "turma") || Contains(h, "classe") || Contains(h, "class")
  }

  /** The participant data pushed for one valid row (`id` and `qrCode` are
      assigned by the store). */
  function RowParticipant(eventId: string, name: string, className: string): Participant
  {
    Participant("", eventId, name, className, Aluno, "", [], None)
  }

  /** The participant a data line yields, if both of its cells are non-empty. */
  function RowOfLine(line: string, nameIndex: nat, classIndex: nat, eventId: string): Option<Participant>
  {
    var values := TrimAll(Split(line, ','));
    var name := Cell(values, nameIndex);
    var className := Cell(values, classIndex);
    if name != "" && className != "" then Some(RowParticipant(eventId, name, className)) else None
  }

  /** The participants pushed for `lines[1..n]`, in line order. */
  function RowsFrom(lines: seq<string>, nameIndex: nat, classIndex: nat, eventId: string, n: nat): (r: seq<Participant>)
    requires 1 <= n <= |lines|
    ensures |r| <= n - 1
  {
    if n == 1 then []
    else
      var prev := RowsFrom(lines, nameIndex, classIndex, eventId, n - 1);
      match RowOfLine(lines[n - 1], nameIndex, classIndex, eventId)
      case None => prev
      case Some(p) => prev + [p]
  }

  /** Where `parseAndAddParticipants` ends: no line at all (`lines[0]` is
      undefined and the handler's `catch` reports the error), a missing
      column, or the rows to add (none means "no valid participant"). */
  datatype ImportResult = Unreadable | MissingName | MissingClass | Rows(rows: seq<Participant>)

  function ImportPlan(csvText: string, eventId: string): (r: ImportResult)
  {
    var lines := Filter(Split(csvText, '\n'), NonBlank);
    if lines == [] then Unreadable
    else
      var headers := NormalizeHeaders(Split(lines[0], ','));
      match FindIndex(headers, IsNameHeader)
      case None => MissingName
      case Some(ni) =>
        match FindIndex(headers, IsClassHeader)
        case None => MissingClass
        case Some(ci) => Rows(RowsFrom(lines, ni, ci, eventId, |lines|))
  }

  lemma {:induction false} RowsFromSpec(lines: seq<string>, ni: nat, ci: nat, eventId: string, n: nat)
    requires 1 <= n <= |lines|
    ensures forall p :: p in RowsFrom(lines, ni, ci, eventId, n) ==>
              p.eventId == eventId && p.kind == Aluno && p.photos == [] && p.profilePhoto.None? &&
              p.name != "" && p.className != ""
  {
    if n > 1 {
      RowsFromSpec(lines, ni, ci, eventId, n - 1);
    }
  }

  /** Every imported row belongs to the event, is an 'aluno' without photos
      and has a non-empty name and class; there are fewer rows than non-blank
      lines. */
  lemma ImportPlanSpec(csvText: string, eventId: string)
    ensures var lines := Filter(Split(csvText, '\n'), NonBlank);
            match ImportPlan(csvText, eventId)
            case Unreadable => lines == []
            case MissingName =>
              lines != [] && forall h :: h in NormalizeHeaders(Split(lines[0], ',')) ==> !IsNameHeader(h)
            case MissingClass =>
              lines != [] && forall h :: h in NormalizeHeaders(Split(lines[0], ',')) ==> !IsClassHeader(h)
            case Rows(rows) =>
              lines != [] && |rows| < |lines| &&
              forall p :: p in rows ==>
                p.eventId == eventId && p.kind == Aluno && p.photos == [] && p.profilePhoto.None? &&
                p.name != "" && p.className != ""
  {
    var lines := Filter(Split(csvText, '\n'), NonBlank);
    if lines != [] {
      var headers := NormalizeHeaders(Split(lines[0], ','));
      match FindIndex(headers, IsNameHeader)
      case None =>
      case Some(ni) =>
        match FindIndex(headers, IsClassHeader)
        case None =>
        case Some(ci) => RowsFromSpec(lines, ni, ci, eventId, |lines|);
    }
  }

  /** The rows are read from the first header naming the name column and the
      first header naming the class column. */
  lemma ImportPlanColumns(csvText: string, eventId: string)
    ensures var lines := Filter(Split(csvText, '\n'), NonBlank);
            ImportPlan(csvText, eventId).Rows? ==>
              lines != [] &&
              var hs := NormalizeHeaders(Split(lines[0], ','));
              exists ni: nat, ci: nat ::
                ni < |hs| && IsNameHeader(hs[ni]) && (forall k :: 0 <= k < ni ==> !IsNameHeader(hs[k])) &&
                ci < |hs| && IsClassHeader(hs[ci]) && (forall k :: 0 <= k < ci ==> !IsClassHeader(hs[k])) &&
                ImportPlan(csvText, eventId).rows == RowsFrom(lines, ni, ci, eventId, |lines|)
  {
    var lines := Filter(Split(csvText, '\n'), NonBlank);
    if lines != [] {
      var hs := NormalizeHeaders(Split(lines[0], ','));
      var n := FindIndex(hs, IsNameHeader);
      var c := FindIndex(hs, IsClassHeader);
      if n.Some? && c.Some? {
        assert ImportPlan(csvText, eventId).rows == RowsFrom(lines, n.value, c.value, eventId, |lines|);
      }
    }
  }

  /** One more data line: its row is appended when it has one. */
  lemma RowsFromStep(lines: seq<string>, ni: nat, ci: nat, eventId: string, n: nat)
    requires 2 <= n <= |lines|
    ensures var row := RowOfLine(lines[n - 1], ni, ci, eventId);
            RowsFrom(lines, ni, ci, eventId, n) ==
              RowsFrom(lines, ni, ci, eventId, n - 1) + (if row.Some? then [row.value] else [])
  {
  }

  /** The loop over the data lines of `parseAndAddParticipants`. */
  method CollectRows(lines: seq<string>, ni: nat, ci: nat, eventId: string) returns (toAdd: seq<Participant>)
    requires lines != []
    ensures toAdd == RowsFrom(lines, ni, ci, eventId, |lines|)
  {
    toAdd := [];
    var i := 1;
    while i < |lines|
      invariant 1 <= i <= |lines|
      invariant toAdd == RowsFrom(lines, ni, ci, eventId, i)
    {
      var row := RowOfLine(lines[i], ni, ci, eventId);
      RowsFromStep(lines, ni, ci, eventId, i + 1);
      if row.Some? {
        toAdd := toAdd + [row.value];
      }
      i := i + 1;
    }
  }

  /** The parsing half of `parseAndAddParticipants`: where the handler ends
      and, when it reaches the rows, which rows it collected. */
  method ParseImport(csvText: string, eventId: string) returns (outcome: ImportResult)
    ensures outcome == ImportPlan(csvText, eventId)
  {
    var lines := Filter(Split(csvText, '\n'), NonBlank);
    if lines == [] {
      return Unreadable;
    }
    var headers := NormalizeHeaders(Split(lines[0], ','));
    var nameIndex := FindIndex(headers, IsNameHeader);
    if nameIndex.None? {
      return MissingName;
    }
    var classIndex := FindIndex(headers, IsClassHeader);
    if classIndex.None? {
      return MissingClass;
    }
    var toAdd := CollectRows(lines, nameIndex.value, classIndex.value, eventId);
    return Rows(toAdd);
  }

  // ----- export -----

  const ExportHeader: seq<string> := ["Nome", "Turma", "Tipo", "QR Code"]

  const ExportHeaderLine := Join(ExportHeader, ",")

  function ExportLine(p: Participant): string
  {
    Join([p.name, p.className, TypeName(p.kind), p.qrCode], ",")
  }

  function ExportLines(ps: seq<Participant>): (r: seq<string>)
    ensures |r| == |ps|
    ensures forall k :: 0 <= k < |ps| ==> r[k] == ExportLine(ps[k])
  {
    if ps == [] then [] else [ExportLine(ps[0])] + ExportLines(ps[1..])
  }

  /** `handleExportCSV`'s content: the header row and one row per displayed
      participant, fields joined by ',' and rows by '\n'. */
  function ExportContent(ps: seq<Participant>): string
  {
    Join([ExportHeaderLine] + ExportLines(ps), "\n")
  }

  /** `participantes_${eventTitle.replace(/\s+/g, '_')}.csv`. */
  function ExportFileName(eventTitle: string): string
  {
    "participantes_" + ReplaceWhitespaceRuns(eventTitle, '_') + ".csv"
  }

  /** The file name keeps its prefix and extension and holds no whitespace. */
  lemma ExportFileNameSpec(eventTitle: string)
    ensures var f := ExportFileName(eventTitle);
            f[..14] == "participantes_" && EndsWith(f, ".csv") &&
            forall i :: 0 <= i < |f| ==> !IsWhitespace(f[i])
  {
    var mid := ReplaceWhitespaceRuns(eventTitle, '_');
    var f := ExportFileName(eventTitle);
    forall i | 0 <= i < |f| ensures !IsWhitespace(f[i]) {
      if 14 <= i < 14 + |mid| {
        assert f[i] == mid[i - 14];
      }
    }
  }

  /** A title without whitespace appears in the file name as it is; a
      whitespace run inside the title becomes a single '_' between the
      replaced text before and after it. */
  lemma ExportFileNameKeepsTitle(eventTitle: string)
    requires forall i :: 0 <= i < |eventTitle| ==> !IsWhitespace(eventTitle[i])
    ensures ExportFileName(eventTitle) == "participantes_" + eventTitle + ".csv"
  {
    ReplaceWithoutWhitespace(eventTitle, '_');
  }

  lemma ExportFileNameRun(u: string, w: string, v: string)
    requires w != [] && AllWhitespace(w)
    requires u == [] || !IsWhitespace(u[|u| - 1])
    requires v == [] || !IsWhitespace(v[0])
    ensures ExportFileName(u + w + v) ==
            "participantes_" + ReplaceWhitespaceRuns(u, '_') + "_" + ReplaceWhitespaceRuns(v, '_') + ".csv"
  {
    ReplaceWhitespaceRun(u, w, v, '_');
  }

  // ----- export, then import -----

  /** A participant whose exported line reads back unchanged: name and class
      non-empty and trimmed, and no field holding a comma or a line break. */
  predicate Exportable(p: Participant)
  {
    p.name != [] && p.className != [] && IsTrimmed(p.name) && IsTrimmed(p.className) &&
    Lacks(p.name, ',') && Lacks(p.className, ',') && Lacks(p.qrCode, ',') &&
    Lacks(p.name, '\n') && Lacks(p.className, '\n') && Lacks(p.qrCode, '\n')
  }

  /** What importing gives back for exported participants: each becomes an
      'aluno' of the importing event with the same name and class. */
  function Reimported(ps: seq<Participant>, eventId: string): (r: seq<Participant>)
    ensures |r| == |ps|
    ensures forall k :: 0 <= k < |ps| ==> r[k] == RowParticipant(eventId, ps[k].name, ps[k].className)
  {
    if ps == [] then []
    else
      var p := ps[|ps| - 1];
      Reimported(ps[..|ps| - 1], eventId) + [RowParticipant(eventId, p.name, p.className)]
  }

  lemma TypeNameLacks(t: ParticipantType, c: char)
    requires c == ',' || c == '\n'
    ensures Lacks(TypeName(t), c)
  {
  }

  /** An exported line is non-blank, free of line breaks, and reads back as
      the participant's name and class. */
  lemma ExportLineReadsBack(p: Participant, eventId: string)
    requires Exportable(p)
    ensures NonBlank(ExportLine(p)) && Lacks(ExportLine(p), '\n')
    ensures RowOfLine(ExportLine(p), 0, 1, eventId) == Some(RowParticipant(eventId, p.name, p.className))
  {
    var parts := [p.name, p.className, TypeName(p.kind), p.qrCode];
    TypeNameLacks(p.kind, ',');
    TypeNameLacks(p.kind, '\n');
    SplitJoin(parts, ',');
    JoinLacks(parts, ",", '\n');
    TrimOfTrimmed(p.name);
    TrimOfTrimmed(p.className);
    var line := ExportLine(p);
    assert line == p.name + "," + Join(parts[1..], ",");
    assert line[0] == p.name[0];
    TrimEmptyIff(line);
  }

  lemma LowerWord(w: string, l: string)
    requires |w| == |l| && forall i :: 0 <= i < |w| ==> LowerChar(w[i]) == l[i]
    ensures ToLower(w) == l
  {
  }

  const ImportedHeader: seq<string> := ["nome", "turma", "tipo", "qr code"]

  /** A word made of ASCII letters and digits is trimmed. */
  lemma AlnumTrimmed(w: string)
    requires forall i :: 0 <= i < |w| ==> IsAsciiAlnum(w[i]) || w[i] == ' '
    requires w != [] ==> w[0] != ' ' && w[|w| - 1] != ' '
    ensures IsTrimmed(w)
  {
  }

  /** The export's header cells are trimmed and lowercase to the words the
      import looks for. */
  lemma ExportHeaderCells()
    ensures forall k :: 0 <= k < |ExportHeader| ==>
              IsTrimmed(ExportHeader[k]) && ToLower(ExportHeader[k]) == ImportedHeader[k]
  {
    forall k | 0 <= k < |ExportHeader|
      ensures IsTrimmed(ExportHeader[k]) && ToLower(ExportHeader[k]) == ImportedHeader[k]
    {
      if k == 0 {
        AlnumTrimmed("Nome");
        LowerWord("Nome", "nome");
      } else if k == 1 {
        AlnumTrimmed("Turma");
        LowerWord("Turma", "turma");
      } else if k == 2 {
        AlnumTrimmed("Tipo");
        LowerWord("Tipo", "tipo");
      } else {
        AlnumTrimmed("QR Code");
        LowerWord("QR Code", "qr code");
      }
    }
  }

  /** Trimmed header cells normalise to their lowercase forms. */
  lemma NormalizeTrimmed(hs: seq<string>, ls: seq<string>)
    requires |hs| == |ls|
    requires forall k :: 0 <= k < |hs| ==> IsTrimmed(hs[k]) && ToLower(hs[k]) == ls[k]
    ensures NormalizeHeaders(hs) == ls
  {
    forall k | 0 <= k < |hs| ensures NormalizeHeaders(hs)[k] == ls[k] {
      TrimOfTrimmed(hs[k]);
    }
  }

  lemma ExportHeaderNormalized()
    ensures NormalizeHeaders(Split(ExportHeaderLine, ',')) == ImportedHeader
  {
    SplitJoin(ExportHeader, ',');
    ExportHeaderCells();
    NormalizeTrimmed(ExportHeader, ImportedHeader);
  }

  /** The import finds the name in the first column and the class in the second. */
  lemma ImportedHeaderIndices()
    ensures FindIndex(ImportedHeader, IsNameHeader) == Some(0)
    ensures FindIndex(ImportedHeader, IsClassHeader) == Some(1)
  {
    assert OccursAt("nome", "nome", 0);
    assert OccursAt("turma", "turma", 0);
  }

  /** The exported header line is one non-blank line... */
  lemma ExportHeaderClean()
    ensures NonBlank(ExportHeaderLine) && Lacks(ExportHeaderLine, '\n')
  {
    JoinLacks(ExportHeader, ",", '\n');
    TrimEmptyIff(ExportHeaderLine);
    assert !AllWhitespace(ExportHeaderLine) by {
      assert ExportHeaderLine[0] == 'N';
    }
  }

  /** ... that names the name column first and the class column second. */
  lemma ExportHeaderColumns()
    ensures FindIndex(NormalizeHeaders(Split(ExportHeaderLine, ',')), IsNameHeader) == Some(0)
    ensures FindIndex(NormalizeHeaders(Split(ExportHeaderLine, ',')), IsClassHeader) == Some(1)
  {
    ExportHeaderNormalized();
    ImportedHeaderIndices();
  }

  lemma {:induction false} RowsFromExport(h: string, ps: seq<Participant>, eventId: string, n: nat)
    requires forall p :: p in ps ==> Exportable(p)
    requires 1 <= n <= |ps| + 1
    ensures RowsFrom([h] + ExportLines(ps), 0, 1, eventId, n) == Reimported(ps[..n - 1], eventId)
  {
    var lines := [h] + ExportLines(ps);
    if n > 1 {
      RowsFromExport(h, ps, eventId, n - 1);
      assert ps[n - 2] in ps;
      ExportLineReadsBack(ps[n - 2], eventId);
      assert lines[n - 1] == ExportLine(ps[n - 2]);
      assert ps[..n - 1][..n - 2] == ps[..n - 2];
    }
  }

  /** A header line and exported lines: each one line, none blank. */
  lemma ExportLinesClean(h: string, ps: seq<Participant>, eventId: string)
    requires NonBlank(h) && Lacks(h, '\n')
    requires forall p :: p in ps ==> Exportable(p)
    ensures forall k :: 0 <= k < |[h] + ExportLines(ps)| ==>
              Lacks(([h] + ExportLines(ps))[k], '\n') && NonBlank(([h] + ExportLines(ps))[k])
  {
    var lines := [h] + ExportLines(ps);
    forall k | 0 < k < |lines| ensures Lacks(lines[k], '\n') && NonBlank(lines[k]) {
      var line := ExportLine(ps[k - 1]);
      assert lines[k] == line;
      assert ps[k - 1] in ps;
      ExportLineReadsBack(ps[k - 1], eventId);
    }
  }

  /** A text made of a header line naming the name and class columns first
      and second, followed by exported lines, imports as those participants. */
  lemma ImportExported(h: string, ps: seq<Participant>, eventId: string)
    requires NonBlank(h) && Lacks(h, '\n')
    requires FindIndex(NormalizeHeaders(Split(h, ',')), IsNameHeader) == Some(0)
    requires FindIndex(NormalizeHeaders(Split(h, ',')), IsClassHeader) == Some(1)
    requires forall p :: p in ps ==> Exportable(p)
    ensures ImportPlan(Join([h] + ExportLines(ps), "\n"), eventId) == Rows(Reimported(ps, eventId))
  {
    var lines := [h] + ExportLines(ps);
    ExportLinesClean(h, ps, eventId);
    SplitJoin(lines, '\n');
    FilterAll(lines, NonBlank);
    RowsFromExport(h, ps, eventId, |lines|);
    assert ps[..|lines| - 1] == ps;
  }

  /** Importing an exported list into an event recreates every participant,
      in list order, as an 'aluno' of that event with the same name and
      class; the type and the QR code are not carried over. */
  lemma ExportImportRoundTrip(ps: seq<Participant>, eventId: string)
    requires forall p :: p in ps ==> Exportable(p)
    ensures ImportPlan(ExportContent(ps), eventId) == Rows(Reimported(ps, eventId))
  {
    ExportHeaderClean();
    ExportHeaderColumns();
    ImportExported(ExportHeaderLine, ps, eventId);
  }

  class ParticipantsListView {
    var searchTerm: string
    var sortBy: SortColumn
    var sortOrder: SortOrder

    /** Empty term, sorted by name, ascending. */
    constructor()
      ensures searchTerm == [] && sortBy == NameColumn && sortOrder == Asc
    {
      searchTerm := [];
      sortBy := NameColumn;
      sortOrder := Asc;
    }

    /** `handleSort`. */
    method HandleSort(column: SortColumn)
      modifies this
      ensures (sortBy, sortOrder) == NextSort(old(sortBy), old(sortOrder), column)
      ensures searchTerm == old(searchTerm)
    {
      if sortBy == column {
        sortOrder := if sortOrder == Asc then Desc else Asc;
      } else {
        sortBy := column;
        sortOrder := Asc;
      }
    }

    /** `filteredAndSortedParticipants` for the current state. */
    function Displayed(ps: seq<Participant>): seq<Participant>
      reads this
    {
      View(ps, searchTerm, sortBy, sortOrder)
    }

    /** `parseAndAddParticipants(csvText)`: `ids[k]` and `drawLists[k]` stand
        for the clock and the random draws `addParticipantsBatch` uses for the
        `k`-th row. */
    method ParseAndAddParticipants(store: Store, eventId: string, csvText: string,
                                   ids: seq<string>, drawLists: seq<seq<nat>>)
      returns (outcome: ImportResult)
      requires ImportPlan(csvText, eventId).Rows? ==>
                 |ids| == |drawLists| == |ImportPlan(csvText, eventId).rows| &&
                 forall k :: 0 <= k < |drawLists| ==>
                   ValidDraws(drawLists[k]) && SomeDrawFree(store.participants, drawLists[k])
      modifies store
      ensures outcome == ImportPlan(csvText, eventId)
      ensures outcome.Rows? && outcome.rows != [] ==>
                store.participants ==
                  old(store.participants) + NewBatch(old(store.participants), outcome.rows, ids, drawLists) &&
                store.events == BumpCount(old(store.events), eventId, |outcome.rows|)
      ensures !(outcome.Rows? && outcome.rows != []) ==>
                store.participants == old(store.participants) && store.events == old(store.events)
      ensures store.products == old(store.products) && store.schools == old(store.schools)
      ensures store.photoSales == old(store.photoSales)
    {
      outcome := ParseImport(csvText, eventId);
      if outcome.Rows? && |outcome.rows| > 0 {
        ImportPlanSpec(csvText, eventId);
        assert outcome.rows[0] in outcome.rows;
        store.AddParticipantsBatch(outcome.rows, ids, drawLists);
      }
    }

    /** `handleExportCSV`: the text and the file name of the download. */
    function ExportCsv(ps: seq<Participant>, eventTitle: string): (string, string)
      reads this
    {
      (ExportContent(Displayed(ps)), ExportFileName(eventTitle))
    }
  }
}

=== FILE: Seqs.dfy ===
/** Generic sequence vocabulary shared by every component: optional values,
    the array methods `filter`, `find`, `findIndex` and `reduce` as the
    TypeScript source uses them, and the subsequence relation. */
module Seqs {

  datatype Option<+T> = None | Some(value: T)

  /** `a` can be obtained from `b` by deleting elements (order is kept). */
  predicate IsSubsequence<T(==)>(a: seq<T>, b: seq<T>)
    decreases |b|
  {
    if a == [] then true
    else if b == [] then false
    else if a[0] == b[0] then IsSubsequence(a[1..], b[1..])
    else IsSubsequence(a, b[1..])
  }

  lemma {:induction false} SubsequenceReflexive<T>(a: seq<T>)
    ensures IsSubsequence(a, a)
  {
    if a != [] {
      SubsequenceReflexive(a[1..]);
    }
  }

  /** `xs.filter(p)`: the elements of `xs` satisfying `p`, in their order. */
  function Filter<T(!new)>(xs: seq<T>, p: T -> bool): (r: seq<T>)
    ensures |r| <= |xs|
    ensures forall x :: x in r <==> x in xs && p(x)
    ensures IsSubsequence(r, xs)
  {
    if xs == [] then []
    else if p(xs[0]) then
      var rest := Filter(xs[1..], p);
      assert IsSubsequence([xs[0]] + rest, xs) by {
        assert ([xs[0]] + rest)[1..] == rest;
      }
      [xs[0]] + rest
    else Filter(xs[1..], p)
  }

  /** The filter keeps each element satisfying `p` as often as it occurs,
      and no other. */
  lemma {:induction false} FilterMultiplicity<T(!new)>(xs: seq<T>, p: T -> bool)
    ensures forall x :: multiset(Filter(xs, p))[x] == if p(x) then multiset(xs)[x] else 0
  {
    if xs != [] {
      assert xs == [xs[0]] + xs[1..];
      FilterMultiplicity(xs[1..], p);
    }
  }

  lemma {:induction false} FilterAppend<T(!new)>(a: seq<T>, b: seq<T>, p: T -> bool)
    ensures Filter(a + b, p) == Filter(a, p) + Filter(b, p)
  {
    if a == [] {
      assert a + b == b;
    } else {
      assert (a + b)[1..] == a[1..] + b;
      FilterAppend(a[1..], b, p);
    }
  }

  /** Filtering with a predicate every element satisfies returns the input. */
  lemma {:induction false} FilterAll<T(!new)>(xs: seq<T>, p: T -> bool)
    requires forall x :: x in xs ==> p(x)
    ensures Filter(xs, p) == xs
  {
    if xs != [] {
      FilterAll(xs[1..], p);
    }
  }

  /** Filtering twice with the same predicate changes nothing the second time. */
  lemma FilterIdempotent<T(!new)>(xs: seq<T>, p: T -> bool)
    ensures Filter(Filter(xs, p), p) == Filter(xs, p)
  {
    FilterAll(Filter(xs, p), p);
  }

  /** Filtering with a stronger predicate after a weaker one is filtering
      with the stronger one alone; so a stronger filter keeps a subsequence
      of what a weaker one keeps. */
  lemma {:induction false} FilterNarrow<T(!new)>(xs: seq<T>, p: T -> bool, q: T -> bool)
    requires forall x :: x in xs && p(x) ==> q(x)
    ensures Filter(Filter(xs, q), p) == Filter(xs, p)
    ensures IsSubsequence(Filter(xs, p), Filter(xs, q))
  {
    if xs != [] {
      FilterNarrow(xs[1..], p, q);
      if q(xs[0]) {
        var rest := Filter(xs[1..], q);
        assert Filter(xs, q) == [xs[0]] + rest;
        assert ([xs[0]] + rest)[1..] == rest;
      }
    }
  }

  /** A relation holding between every earlier and later element still holds
      after filtering. */
  lemma {:induction false} FilterPairwise<T(!new)>(xs: seq<T>, p: T -> bool, rel: (T, T) -> bool)
    requires forall i, j :: 0 <= i < j < |xs| ==> rel(xs[i], xs[j])
    ensures forall i, j :: 0 <= i < j < |Filter(xs, p)| ==> rel(Filter(xs, p)[i], Filter(xs, p)[j])
  {
    if xs != [] {
      var rest := Filter(xs[1..], p);
      FilterPairwise(xs[1..], p, rel);
      if p(xs[0]) {
        var r := Filter(xs, p);
        assert r == [xs[0]] + rest;
        forall j | 0 < j < |r| ensures rel(r[0], r[j]) {
          assert r[j] in rest;
          var m :| 0 <= m < |xs[1..]| && xs[1..][m] == r[j];
          assert xs[m + 1] == r[j];
        }
      }
    }
  }

  /** `xs.filter(p).length`. */
  function Count<T(!new)>(xs: seq<T>, p: T -> bool): (n: nat)
    ensures n <= |xs|
    ensures n == 0 <==> forall x :: x in xs ==> !p(x)
  {
    var r := Filter(xs, p);
    assert r == [] ==> forall x :: x in xs ==> !p(x) by {
      forall x | x in xs && p(x) ensures x in r { }
    }
    assert r != [] ==> r[0] in xs && p(r[0]) by {
      if r != [] { assert r[0] in r; }
    }
    |r|
  }

  /** Counting an element followed by a sequence. */
  lemma CountCons<T(!new)>(x: T, xs: seq<T>, p: T -> bool)
    ensures Count([x] + xs, p) == (if p(x) then 1 else 0) + Count(xs, p)
  {
    assert ([x] + xs)[0] == x && ([x] + xs)[1..] == xs;
  }

  lemma {:induction false} CountAppend<T(!new)>(a: seq<T>, b: seq<T>, p: T -> bool)
    ensures Count(a + b, p) == Count(a, p) + Count(b, p)
  {
    FilterAppend(a, b, p);
  }

  /** Index of the first element satisfying `p` (`findIndex`), or None for -1. */
  function FindIndex<T>(xs: seq<T>, p: T -> bool): (r: Option<nat>)
    ensures r.Some? ==> r.value < |xs| && p(xs[r.value]) &&
                        forall k :: 0 <= k < r.value ==> !p(xs[k])
    ensures r.None? <==> forall k :: 0 <= k < |xs| ==> !p(xs[k])
  {
    if xs == [] then None
    else if p(xs[0]) then Some(0)
    else match FindIndex(xs[1..], p)
      case None => None
      case Some(k) => Some(k + 1)
  }

  /** `xs.find(p)`: the first element satisfying `p`, if any. */
  function Find<T(!new)>(xs: seq<T>, p: T -> bool): (r: Option<T>)
    ensures r.Some? ==> r.value in xs && p(r.value)
    ensures r.None? <==> forall x :: x in xs ==> !p(x)
    ensures r.Some? ==> exists k :: 0 <= k < |xs| && xs[k] == r.value &&
                                    forall j :: 0 <= j < k ==> !p(xs[j])
  {
    match FindIndex(xs, p)
    case None => None
    case Some(k) => Some(xs[k])
  }

  /** `xs.map(x => hit(x) ? f(x) : x)`: the update-by-key shape of the store. */
  function MapWhere<T>(xs: seq<T>, hit: T -> bool, f: T -> T): (r: seq<T>)
    ensures |r| == |xs|
    ensures forall i :: 0 <= i < |xs| ==> r[i] == (if hit(xs[i]) then f(xs[i]) else xs[i])
  {
    if xs == [] then []
    else [if hit(xs[0]) then f(xs[0]) else xs[0]] + MapWhere(xs[1..], hit, f)
  }

  /** `xs.reduce((acc, x) => acc + f(x), 0)` over exact reals. */
  function SumReal<T>(xs: seq<T>, f: T -> real): real
  {
    if xs == [] then 0.0 else f(xs[0]) + SumReal(xs[1..], f)
  }

  lemma {:induction false} SumRealAppend<T>(a: seq<T>, b: seq<T>, f: T -> real)
    ensures SumReal(a + b, f) == SumReal(a, f) + SumReal(b, f)
  {
    if a == [] {
      assert a + b == b;
    } else {
      assert (a + b)[1..] == a[1..] + b;
      SumRealAppend(a[1..], b, f);
    }
  }

  /** The same reduce over integers. */
  function SumInt<T>(xs: seq<T>, f: T -> int): int
  {
    if xs == [] then 0 else f(xs[0]) + SumInt(xs[1..], f)
  }

  lemma {:induction false} SumIntAppend<T>(a: seq<T>, b: seq<T>, f: T -> int)
    ensures SumInt(a + b, f) == SumInt(a, f) + SumInt(b, f)
  {
    if a == [] {
      assert a + b == b;
    } else {
      assert (a + b)[1..] == a[1..] + b;
      SumIntAppend(a[1..], b, f);
    }
  }

  /** Replacing one element changes a sum by the difference of the two. */
  lemma {:induction false} SumIntUpdate<T>(xs: seq<T>, i: nat, x: T, f: T -> int)
    requires i < |xs|
    ensures SumInt(xs[i := x], f) == SumInt(xs, f) - f(xs[i]) + f(x)
  {
    if i == 0 {
      assert xs[i := x][1..] == xs[1..];
    } else {
      assert xs[i := x][1..] == xs[1..][i - 1 := x];
      SumIntUpdate(xs[1..], i - 1, x, f);
    }
  }

  lemma {:induction false} SumRealUpdate<T>(xs: seq<T>, i: nat, x: T, f: T -> real)
    requires i < |xs|
    ensures SumReal(xs[i := x], f) == SumReal(xs, f) - f(xs[i]) + f(x)
  {
    if i == 0 {
      assert xs[i := x][1..] == xs[1..];
    } else {
      assert xs[i := x][1..] == xs[1..][i - 1 := x];
      SumRealUpdate(xs[1..], i - 1, x, f);
    }
  }

  /** Two searches whose predicates agree position by position find the
      same index. */
  lemma FindIndexAgree<T, U>(xs: seq<T>, p: T -> bool, ys: seq<U>, q: U -> bool)
    requires |xs| == |ys|
    requires forall i :: 0 <= i < |xs| ==> p(xs[i]) == q(ys[i])
    ensures FindIndex(xs, p) == FindIndex(ys, q)
  {
  }

  /** Searching a sequence with one more element at the end. */
  lemma {:induction false} FindIndexSnoc<T>(xs: seq<T>, y: T, p: T -> bool)
    ensures FindIndex(xs + [y], p) ==
            if FindIndex(xs, p).Some? then FindIndex(xs, p) else if p(y) then Some(|xs|) else None
  {
    var r := xs + [y];
    if xs == [] {
      assert r == [y] && r[1..] == [];
    } else {
      assert r[0] == xs[0] && r[1..] == xs[1..] + [y];
      if !p(xs[0]) {
        FindIndexSnoc(xs[1..], y, p);
      }
    }
  }
}

=== FILE: ShoppingCart.dfy ===
/** The sales cart panel (ShoppingCart.tsx): the `cartItems` state and its
    handlers, and checkout, which turns every unit of every item into one
    `addPhotoSale` request on the store. `Date.now()` ids and the
    `new Date().toISOString()` sale times are parameters. */
module SalesCart {
  import opened Seqs
  import opened Domain
  import opened Cart
  import opened EventsStore

  /** `quantity` when positive, else 0: how often `for (i = 0; i < q; i++)` runs. */
  function Times(q: int): (n: nat)
    ensures q > 0 ==> n == q
    ensures q <= 0 ==> n == 0
  {
    if q > 0 then q else 0
  }

  /** `it` repeated `n` times. */
  function Repeat(it: CartItem, n: nat): (r: seq<CartItem>)
    ensures |r| == n
    ensures forall k :: 0 <= k < n ==> r[k] == it
  {
    seq(n, k requires 0 <= k < n => it)
  }

  lemma RepeatSnoc(it: CartItem, n: nat)
    ensures Repeat(it, n + 1) == Repeat(it, n) + [it]
  {
  }

  /** The units checkout sells: each item as many times as its quantity, in cart order. */
  function Units(items: seq<CartItem>): seq<CartItem>
  {
    if items == [] then []
    else Units(items[..|items| - 1]) + Repeat(items[|items| - 1], Times(items[|items| - 1].quantity))
  }

  /** The request checkout issues for one unit. */
  function RequestOf(it: CartItem, soldAt: string): (req: SaleRequest)
    ensures req.participantId == it.participantId && req.eventId == it.eventId
    ensures req.schoolId == it.schoolId && req.photoUrl == it.photoUrl && req.price == it.price
    ensures req.soldAt == soldAt && req.status == Paid
  {
    SaleRequest(it.participantId, it.eventId, it.schoolId, it.photoUrl, it.price, soldAt, Paid)
  }

  /** The sale list after one `addPhotoSale` for each of the first `n` units,
      in order; unit `k` is sold at `soldAts[k]` under id `ids[k]`. */
  function Recorded(sales: seq<PhotoSale>, evs: seq<Event>, units: seq<CartItem>,
                    soldAts: seq<string>, ids: seq<string>, n: nat): (r: seq<PhotoSale>)
    requires n <= |units| == |soldAts| == |ids|
    ensures |sales| <= |r| <= |sales| + n
  {
    if n == 0 then sales
    else
      var prev := Recorded(sales, evs, units, soldAts, ids, n - 1);
      match EventById(evs, units[n - 1].eventId)
      case None => prev
      case Some(e) => prev + [SaleFor(RequestOf(units[n - 1], soldAts[n - 1]), e, ids[n - 1])]
  }

  class ShoppingCart {
    var items: seq<CartItem>

    constructor()
      ensures items == []
    {
      items := [];
    }

    /** `addToCart`: the new item is priced at the event's `photoPrice`. */
    method AddToCart(photoUrl: string, p: Participant, e: Event, filename: string, newId: string)
      modifies this
      ensures items == AddItem(old(items), photoUrl, p, e, filename, e.photoPrice, newId)
      ensures WellFormed(old(items)) && !HasId(old(items), newId) ==> WellFormed(items)
    {
      var existing := FindItem(items, photoUrl, p.id);
      if existing.Some? {
        var id := items[existing.value].id;
        items := MapWhere(items, (it: CartItem) => it.id == id, (it: CartItem) => it.(quantity := it.quantity + 1));
      } else {
        items := items + [CartItem(newId, photoUrl, p.name, e.title, e.photoPrice, 1, p.id, e.id, e.schoolId, filename)];
      }
      if WellFormed(old(items)) && !HasId(old(items), newId) {
        AddItemWellFormed(old(items), photoUrl, p, e, filename, e.photoPrice, newId);
      }
    }

    /** `removeFromCart`. */
    method RemoveFromCart(id: string)
      modifies this
      ensures items == RemoveItem(old(items), id)
      ensures WellFormed(old(items)) ==> WellFormed(items) && !HasId(items, id)
    {
      items := Filter(items, (it: CartItem) => it.id != id);
      if WellFormed(old(items)) {
        RemoveItemWellFormed(old(items), id);
      }
    }

    /** `updateQuantity`: zero or less removes the item. */
    method UpdateQuantity(id: string, q: int)
      modifies this
      ensures items == SetQuantity(old(items), id, q)
      ensures WellFormed(old(items)) ==> WellFormed(items)
    {
      if q <= 0 {
        RemoveFromCart(id);
        return;
      }
      items := MapWhere(items, (it: CartItem) => it.id == id, (it: CartItem) => it.(quantity := q));
      if WellFormed(old(items)) {
        SetQuantityWellFormed(old(items), id, q);
      }
    }

    /** `getTotalPrice`. */
    function TotalPrice(): (t: real)
      reads this
      ensures items == [] ==> t == 0.0
      ensures AllPositive(items) && (forall k :: 0 <= k < |items| ==> items[k].price >= 0.0) ==> t >= 0.0
    {
      if AllPositive(items) && (forall k :: 0 <= k < |items| ==> items[k].price >= 0.0) then
        TotalNonNegative(items);
        Total(items)
      else Total(items)
    }

    /** `handleCheckout`: one sale request per unit, in cart order, then the
        cart is emptied and the old items are handed to `onCheckout`.
        `soldAts[u]` and `ids[u]` are the clock readings of the `u`-th request. */
    method Checkout(store: Store, soldAts: seq<string>, ids: seq<string>) returns (checkedOut: seq<CartItem>)
      requires |soldAts| == |Units(items)| && |ids| == |Units(items)|
      modifies this, store
      ensures checkedOut == old(items) && items == []
      ensures store.photoSales == Recorded(old(store.photoSales), old(store.events), Units(old(items)), soldAts, ids, |ids|)
      ensures store.events == old(store.events) && store.participants == old(store.participants)
      ensures store.products == old(store.products) && store.schools == old(store.schools)
    {
      ghost var sales0 := store.photoSales;
      ghost var evs := store.events;
      var cart := items;
      ghost var all := Units(cart);
      var i := 0;
      var u := 0;
      while i < |cart|
        invariant 0 <= i <= |cart|
        invariant u == |Units(cart[..i])| <= |all| == |soldAts| == |ids|
        invariant store.photoSales == Recorded(sales0, evs, all, soldAts, ids, u)
        invariant store.events == evs && store.participants == old(store.participants)
        invariant store.products == old(store.products) && store.schools == old(store.schools)
      {
        UnitsOfNextItem(cart, i);
        u := SellItem(store, cart[i], soldAts, ids, u, sales0, evs, all);
        i := i + 1;
      }
      assert cart[..i] == cart;
      checkedOut := cart;
      items := [];
    }
  }

  /** The inner loop of `handleCheckout`: `it.quantity` requests for one
      item, the units `all[u..]` of the whole checkout. */
  method SellItem(store: Store, it: CartItem, soldAts: seq<string>, ids: seq<string>, u: nat,
                  ghost sales0: seq<PhotoSale>, ghost evs: seq<Event>, ghost all: seq<CartItem>)
    returns (v: nat)
    requires u + Times(it.quantity) <= |all| == |soldAts| == |ids|
    requires forall k :: u <= k < u + Times(it.quantity) ==> all[k] == it
    requires store.events == evs
    requires store.photoSales == Recorded(sales0, evs, all, soldAts, ids, u)
    modifies store
    ensures v == u + Times(it.quantity)
    ensures store.photoSales == Recorded(sales0, evs, all, soldAts, ids, v)
    ensures store.events == evs && store.participants == old(store.participants)
    ensures store.products == old(store.products) && store.schools == old(store.schools)
  {
    v := u;
    var j := 0;
    while j < it.quantity
      invariant 0 <= j <= Times(it.quantity) && v == u + j
      invariant store.photoSales == Recorded(sales0, evs, all, soldAts, ids, v)
      invariant store.events == evs && store.participants == old(store.participants)
      invariant store.products == old(store.products) && store.schools == old(store.schools)
    {
      SellUnit(store, it, soldAts, ids, v, sales0, evs, all);
      j := j + 1;
      v := v + 1;
    }
  }

  /** One `addPhotoSale` for one unit, the `n`-th request of the checkout. */
  method SellUnit(store: Store, it: CartItem, soldAts: seq<string>, ids: seq<string>, n: nat,
                  ghost sales0: seq<PhotoSale>, ghost evs: seq<Event>, ghost all: seq<CartItem>)
    requires n < |all| == |soldAts| == |ids| && all[n] == it
    requires store.events == evs
    requires store.photoSales == Recorded(sales0, evs, all, soldAts, ids, n)
    modifies store
    ensures store.photoSales == Recorded(sales0, evs, all, soldAts, ids, n + 1)
    ensures store.events == evs && store.participants == old(store.participants)
    ensures store.products == old(store.products) && store.schools == old(store.schools)
  {
    var req := RequestOf(it, soldAts[n]);
    ghost var e := EventById(evs, it.eventId);
    ghost var before := store.photoSales;
    store.AddPhotoSale(req, ids[n]);
    if e.Some? {
      assert store.photoSales == before + [SaleFor(req, e.value, ids[n])];
    } else {
      assert store.photoSales == before;
    }
  }

  /** Item `i`'s units follow the units of the items before it, inside the
      units of the whole cart. */
  lemma UnitsOfNextItem(items: seq<CartItem>, i: nat)
    requires i < |items|
    ensures |Units(items[..i])| + Times(items[i].quantity) == |Units(items[..i + 1])| <= |Units(items)|
    ensures forall k :: |Units(items[..i])| <= k < |Units(items[..i])| + Times(items[i].quantity) ==>
              Units(items)[k] == items[i]
  {
    assert items[..i + 1][..i] == items[..i];
    assert Units(items[..i + 1]) == Units(items[..i]) + Repeat(items[i], Times(items[i].quantity));
    UnitsPrefix(items, i + 1);
  }

  /** The units of a prefix of the cart are a prefix of its units. */
  lemma {:induction false} UnitsPrefix(items: seq<CartItem>, i: nat)
    requires i <= |items|
    ensures Units(items[..i]) <= Units(items)
  {
    if i < |items| {
      var n := |items| - 1;
      assert items[..n][..i] == items[..i];
      UnitsPrefix(items[..n], i);
    } else {
      assert items[..i] == items;
    }
  }

  // ----- what checkout records -----

  function QuantityOf(it: CartItem): int { it.quantity }
  function TimesOf(it: CartItem): int { Times(it.quantity) }
  function UnitPrice(it: CartItem): real { it.price }

  /** Every unit comes from the cart. */
  lemma {:induction false} UnitsFromItems(items: seq<CartItem>)
    ensures forall x :: x in Units(items) ==> x in items
  {
    if items != [] {
      var n := |items| - 1;
      UnitsFromItems(items[..n]);
      forall x | x in Units(items) ensures x in items {
        if x in Units(items[..n]) {
          assert x in items[..n];
        }
      }
    }
  }

  /** Checkout sells as many units as the quantities add up to. */
  lemma {:induction false} UnitsLength(items: seq<CartItem>)
    ensures |Units(items)| == SumInt(items, TimesOf)
    ensures AllPositive(items) ==> |Units(items)| == SumInt(items, QuantityOf)
  {
    if items != [] {
      var n := |items| - 1;
      UnitsLength(items[..n]);
      assert items == items[..n] + [items[n]];
      SumIntAppend(items[..n], [items[n]], TimesOf);
      SumIntAppend(items[..n], [items[n]], QuantityOf);
    }
  }

  lemma {:induction false} RepeatPrice(it: CartItem, m: nat)
    ensures SumReal(Repeat(it, m), UnitPrice) == it.price * m as real
  {
    if m > 0 {
      RepeatPrice(it, m - 1);
      RepeatSnoc(it, m - 1);
      SumRealAppend(Repeat(it, m - 1), [it], UnitPrice);
    }
  }

  /** The units of one item cost its line total. */
  lemma RepeatLine(it: CartItem)
    requires it.quantity >= 0
    ensures SumReal(Repeat(it, Times(it.quantity)), UnitPrice) == LineTotal(it)
  {
    RepeatPrice(it, Times(it.quantity));
  }

  /** The unit prices of the whole checkout add up to the cart total. */
  lemma {:induction false} UnitsTotal(items: seq<CartItem>)
    requires forall k :: 0 <= k < |items| ==> items[k].quantity >= 0
    ensures SumReal(Units(items), UnitPrice) == Total(items)
  {
    if items != [] {
      var n := |items| - 1;
      var last := items[n];
      UnitsTotal(items[..n]);
      RepeatLine(last);
      SumRealAppend(Units(items[..n]), Repeat(last, Times(last.quantity)), UnitPrice);
      assert items == items[..n] + [last];
      SumRealAppend(items[..n], [last], LineTotal);
    }
  }

  /** Checkout only appends to the sale list. */
  lemma {:induction false} RecordedExtends(sales: seq<PhotoSale>, evs: seq<Event>, units: seq<CartItem>,
                                          soldAts: seq<string>, ids: seq<string>, n: nat)
    requires n <= |units| == |soldAts| == |ids|
    ensures sales <= Recorded(sales, evs, units, soldAts, ids, n)
  {
    if n > 0 {
      RecordedExtends(sales, evs, units, soldAts, ids, n - 1);
    }
  }

  /** Whatever the events, every sale checkout adds is recorded as pending:
      `addPhotoSale` overrides the 'paid' status of the request. */
  lemma {:induction false} RecordedPending(sales: seq<PhotoSale>, evs: seq<Event>, units: seq<CartItem>,
                                          soldAts: seq<string>, ids: seq<string>, n: nat)
    requires n <= |units| == |soldAts| == |ids|
    ensures forall k :: |sales| <= k < |Recorded(sales, evs, units, soldAts, ids, n)| ==>
              Recorded(sales, evs, units, soldAts, ids, n)[k].status == Pending
  {
    if n > 0 {
      RecordedPending(sales, evs, units, soldAts, ids, n - 1);
      var prev := Recorded(sales, evs, units, soldAts, ids, n - 1);
      var e := EventById(evs, units[n - 1].eventId);
      if e.Some? {
        var sale := SaleFor(RequestOf(units[n - 1], soldAts[n - 1]), e.value, ids[n - 1]);
        assert Recorded(sales, evs, units, soldAts, ids, n) == prev + [sale];
      }
    }
  }

  /** The sale `addPhotoSale` builds for unit `k`, whose event exists. */
  function UnitSale(evs: seq<Event>, units: seq<CartItem>, soldAts: seq<string>, ids: seq<string>, k: nat): PhotoSale
    requires k < |units| == |soldAts| == |ids|
    requires EventById(evs, units[k].eventId).Some?
  {
    SaleFor(RequestOf(units[k], soldAts[k]), EventById(evs, units[k].eventId).value, ids[k])
  }

  /** When every unit's event exists, unit `k` becomes exactly the sale
      `addPhotoSale` builds from its request: one sale per unit, in order. */
  lemma {:induction false} RecordedAll(sales: seq<PhotoSale>, evs: seq<Event>, units: seq<CartItem>,
                                      soldAts: seq<string>, ids: seq<string>, n: nat)
    requires n <= |units| == |soldAts| == |ids|
    requires forall k :: 0 <= k < |units| ==> EventById(evs, units[k].eventId).Some?
    ensures |Recorded(sales, evs, units, soldAts, ids, n)| == |sales| + n
    ensures forall k :: 0 <= k < n ==>
              Recorded(sales, evs, units, soldAts, ids, n)[|sales| + k] == UnitSale(evs, units, soldAts, ids, k)
  {
    if n > 0 {
      RecordedAll(sales, evs, units, soldAts, ids, n - 1);
      var prev := Recorded(sales, evs, units, soldAts, ids, n - 1);
      var r := prev + [UnitSale(evs, units, soldAts, ids, n - 1)];
      assert Recorded(sales, evs, units, soldAts, ids, n) == r;
      forall k | 0 <= k < n ensures r[|sales| + k] == UnitSale(evs, units, soldAts, ids, k) {
        if k < n - 1 {
          assert r[|sales| + k] == prev[|sales| + k];
        }
      }
    }
  }

  /** When every unit's event exists, the recorded prices grow by the unit prices. */
  lemma {:induction false} RecordedRevenue(sales: seq<PhotoSale>, evs: seq<Event>, units: seq<CartItem>,
                                          soldAts: seq<string>, ids: seq<string>, n: nat)
    requires n <= |units| == |soldAts| == |ids|
    requires forall k :: 0 <= k < |units| ==> EventById(evs, units[k].eventId).Some?
    ensures SumReal(Recorded(sales, evs, units, soldAts, ids, n), PriceOf) ==
            SumReal(sales, PriceOf) + SumReal(units[..n], UnitPrice)
  {
    if n > 0 {
      RecordedRevenue(sales, evs, units, soldAts, ids, n - 1);
      var prev := Recorded(sales, evs, units, soldAts, ids, n - 1);
      var sale := UnitSale(evs, units, soldAts, ids, n - 1);
      assert Recorded(sales, evs, units, soldAts, ids, n) == prev + [sale];
      assert sale.price == units[n - 1].price;
      SumRealAppend(prev, [sale], PriceOf);
      assert units[..n] == units[..n - 1] + [units[n - 1]];
      SumRealAppend(units[..n - 1], [units[n - 1]], UnitPrice);
    } else {
      assert units[..n] == [];
    }
  }

  /** A checkout of a well-formed cart whose events all exist adds one sale
      per unit, as many as the quantities add up to, charging the cart's total. */
  lemma CheckoutChargesTotal(sales: seq<PhotoSale>, evs: seq<Event>, items: seq<CartItem>,
                             soldAts: seq<string>, ids: seq<string>)
    requires AllPositive(items)
    requires forall k :: 0 <= k < |items| ==> EventById(evs, items[k].eventId).Some?
    requires |soldAts| == |Units(items)| && |ids| == |Units(items)|
    ensures var r := Recorded(sales, evs, Units(items), soldAts, ids, |ids|);
            sales <= r && |r| == |sales| + SumInt(items, QuantityOf) &&
            SumReal(r, PriceOf) == SumReal(sales, PriceOf) + Total(items)
  {
    var units := Units(items);
    UnitsFromItems(items);
    forall k | 0 <= k < |units| ensures EventById(evs, units[k].eventId).Some? {
      assert units[k] in items;
    }
    RecordedAll(sales, evs, units, soldAts, ids, |ids|);
    RecordedExtends(sales, evs, units, soldAts, ids, |ids|);
    RecordedRevenue(sales, evs, units, soldAts, ids, |ids|);
    assert units[..|ids|] == units;
    UnitsLength(items);
    UnitsTotal(items);
  }
}

=== FILE: StoreProperties.dfy ===
/** What the store's mutators preserve: the per-event `participantsCount`
    matches the participant list, codes stay unique, and every recorded sale
    splits its price into commission and net. */
module StoreProperties {
  import opened Seqs
  import opened Text
  import opened Domain
  import opened EventsStore
  import Utils

  lemma {:induction false} HeadcountAppend(a: seq<Participant>, b: seq<Participant>, eventId: string)
    ensures Headcount(a + b, eventId) == Headcount(a, eventId) + Headcount(b, eventId)
  {
    if a == [] {
      assert a + b == b;
    } else {
      assert (a + b)[1..] == a[1..] + b;
      HeadcountAppend(a[1..], b, eventId);
    }
  }

  /** A batch whose members all belong to one event. */
  lemma {:induction false} HeadcountUniform(ps: seq<Participant>, eventId: string, other: string)
    requires forall k :: 0 <= k < |ps| ==> ps[k].eventId == eventId
    ensures Headcount(ps, other) == if other == eventId then |ps| else 0
  {
    if ps != [] {
      HeadcountUniform(ps[1..], eventId, other);
    }
  }

  /** Participants with the same events, position by position, count alike. */
  lemma {:induction false} HeadcountSameEvents(a: seq<Participant>, b: seq<Participant>, eventId: string)
    requires |a| == |b|
    requires forall i :: 0 <= i < |a| ==> a[i].eventId == b[i].eventId
    ensures Headcount(a, eventId) == Headcount(b, eventId)
  {
    if a != [] {
      HeadcountSameEvents(a[1..], b[1..], eventId);
    }
  }

  /** `addEvent` keeps the counts right when no participant already points
      at the new id. */
  lemma AddEventKeepsCounts(evs: seq<Event>, ps: seq<Participant>, data: Event, newId: string)
    requires CountsConsistent(evs, ps)
    requires Headcount(ps, newId) == 0
    ensures CountsConsistent(evs + [data.(id := newId, participantsCount := 0, status := Upcoming)], ps)
  {
  }

  /** `addParticipant` keeps every event's count equal to its participants. */
  lemma AddParticipantKeepsCounts(evs: seq<Event>, ps: seq<Participant>, p: Participant)
    requires CountsConsistent(evs, ps)
    ensures CountsConsistent(BumpCount(evs, p.eventId, 1), ps + [p])
  {
    var r := BumpCount(evs, p.eventId, 1);
    forall i | 0 <= i < |r| ensures r[i].participantsCount == Headcount(ps + [p], r[i].id) {
      HeadcountAppend(ps, [p], evs[i].id);
    }
  }

  /** `addParticipant` keeps codes unique: the new code is one nobody holds. */
  lemma AddParticipantKeepsCodesUnique(ps: seq<Participant>, p: Participant)
    requires UniqueCodes(ps) && !CodeInUse(ps, p.qrCode)
    ensures UniqueCodes(ps + [p])
  {
  }

  /** `addParticipantsBatch` keeps the counts right when the whole batch
      belongs to the first item's event (as the CSV import guarantees). */
  lemma AddBatchKeepsCounts(evs: seq<Event>, ps: seq<Participant>, added: seq<Participant>)
    requires CountsConsistent(evs, ps)
    requires added != []
    requires forall k :: 0 <= k < |added| ==> added[k].eventId == added[0].eventId
    ensures CountsConsistent(BumpCount(evs, added[0].eventId, |added|), ps + added)
  {
    var r := BumpCount(evs, added[0].eventId, |added|);
    forall i | 0 <= i < |r| ensures r[i].participantsCount == Headcount(ps + added, r[i].id) {
      HeadcountAppend(ps, added, evs[i].id);
      HeadcountUniform(added, added[0].eventId, evs[i].id);
    }
  }

  /** A batch spread over two events credits both participants to the first
      event, so the counts no longer match. */
  lemma MixedBatchMiscounts()
    ensures var a := Event("a", "", "", None, "", "", "", "", 0.0, 0.0, None, 0, Upcoming);
            var b := a.(id := "b");
            var pa := Participant("1", "a", "", "", Aluno, "100000", [], None);
            var pb := pa.(id := "2", eventId := "b", qrCode := "100001");
            CountsConsistent([a, b], []) &&
            !CountsConsistent(BumpCount([a, b], "a", 2), [pa, pb])
  {
    var a := Event("a", "", "", None, "", "", "", "", 0.0, 0.0, None, 0, Upcoming);
    var pa := Participant("1", "a", "", "", Aluno, "100000", [], None);
    var pb := pa.(id := "2", eventId := "b", qrCode := "100001");
    assert Headcount([pa, pb], "a") == 1 by {
      assert [pa, pb][1..] == [pb];
    }
  }

  /** Codes in one batch are drawn against the pre-batch list only, so two
      members can receive the same code. */
  lemma BatchCodesMayRepeat()
    ensures SomeDrawFree([], [5]) &&
            var d := Participant("", "e", "Ana", "3A", Aluno, "", [], None);
            var added := NewBatch([], [d, d], ["1", "2"], [[5], [5]]);
            added[0].qrCode == added[1].qrCode && !UniqueCodes(added)
  {
    var draws: seq<nat> := [5];
    assert !CodeInUse([], Utils.GenerateQRCode(draws[0]));
    assert SomeDrawFreeFrom([], draws, 0);
  }

  lemma {:induction false} WithoutAbsentParticipant(ps: seq<Participant>, id: string)
    requires forall q :: q in ps ==> q.id != id
    ensures WithoutParticipant(ps, id) == ps
  {
    if ps != [] {
      assert ps[0] in ps;
      WithoutAbsentParticipant(ps[1..], id);
    }
  }

  lemma {:induction false} HeadcountWithoutParticipant(ps: seq<Participant>, p: Participant, eventId: string)
    requires UniqueIds(ps) && p in ps
    ensures Headcount(WithoutParticipant(ps, p.id), eventId) + (if p.eventId == eventId then 1 else 0) ==
            Headcount(ps, eventId)
  {
    if ps[0].id == p.id {
      assert forall j :: 0 < j < |ps| ==> ps[j].id != p.id;
      assert p !in ps[1..];
      assert p == ps[0];
      WithoutAbsentParticipant(ps[1..], p.id);
    } else {
      assert p in ps[1..];
      HeadcountWithoutParticipant(ps[1..], p, eventId);
    }
  }

  /** `deleteParticipant` of a listed participant keeps the counts right,
      provided ids are unique (the filter removes every entry with that id). */
  lemma DeleteParticipantKeepsCounts(evs: seq<Event>, ps: seq<Participant>, id: string)
    requires CountsConsistent(evs, ps) && UniqueIds(ps)
    requires ParticipantById(ps, id).Some?
    ensures CountsConsistent(BumpCount(evs, ParticipantById(ps, id).value.eventId, -1),
                             WithoutParticipant(ps, id))
  {
    var p := ParticipantById(ps, id).value;
    var r := BumpCount(evs, p.eventId, -1);
    forall i | 0 <= i < |r| ensures r[i].participantsCount == Headcount(WithoutParticipant(ps, id), r[i].id) {
      HeadcountWithoutParticipant(ps, p, evs[i].id);
    }
  }

  /** Two entries with one id: deleting that id removes both but lowers the
      count by one only. */
  lemma DuplicateIdsMiscount()
    ensures var e := Event("a", "", "", None, "", "", "", "", 0.0, 0.0, None, 2, Upcoming);
            var p := Participant("1", "a", "", "", Aluno, "100000", [], None);
            CountsConsistent([e], [p, p]) &&
            !CountsConsistent(BumpCount([e], "a", -1), WithoutParticipant([p, p], "1"))
  {
    var p := Participant("1", "a", "", "", Aluno, "100000", [], None);
    assert [p, p][1..] == [p];
    assert Headcount([p, p], "a") == 2;
  }

  lemma {:induction false} HeadcountWithoutEvent(ps: seq<Participant>, id: string, eventId: string)
    requires eventId != id
    ensures Headcount(WithoutEventParticipants(ps, id), eventId) == Headcount(ps, eventId)
  {
    if ps != [] {
      HeadcountWithoutEvent(ps[1..], id, eventId);
    }
  }

  /** The `deleteEvent` cascade keeps the remaining counts right. */
  lemma DeleteEventKeepsCounts(evs: seq<Event>, ps: seq<Participant>, id: string)
    requires CountsConsistent(evs, ps)
    ensures CountsConsistent(WithoutEvent(evs, id), WithoutEventParticipants(ps, id))
  {
    var r := WithoutEvent(evs, id);
    forall i | 0 <= i < |r|
      ensures r[i].participantsCount == Headcount(WithoutEventParticipants(ps, id), r[i].id)
    {
      assert r[i] in r;
      var j :| 0 <= j < |evs| && evs[j] == r[i];
      HeadcountWithoutEvent(ps, id, r[i].id);
    }
  }

  /** `addPhotosToParticipant` moves nobody between events. */
  lemma AttachPhotosKeepsCounts(evs: seq<Event>, ps: seq<Participant>, id: string, photos: seq<string>)
    requires CountsConsistent(evs, ps)
    ensures CountsConsistent(evs, AttachPhotos(ps, id, photos))
  {
    forall i | 0 <= i < |evs| ensures evs[i].participantsCount == Headcount(AttachPhotos(ps, id, photos), evs[i].id) {
      HeadcountSameEvents(ps, AttachPhotos(ps, id, photos), evs[i].id);
    }
  }

  /** With a commission between 0 and 100 percent and a non-negative price,
      neither part of the split is negative or exceeds the price. */
  lemma SaleSplitBounds(req: SaleRequest, e: Event, id: string)
    requires 0.0 <= e.commission <= 100.0 && 0.0 <= req.price
    ensures 0.0 <= SaleFor(req, e, id).commissionAmount <= req.price
    ensures 0.0 <= SaleFor(req, e, id).netAmount <= req.price
  {
    var s := SaleFor(req, e, id);
    assert s.commissionAmount == req.price * (e.commission / 100.0);
    assert 0.0 <= e.commission / 100.0 <= 1.0;
  }

  /** The sample sales: 25.00 at 15% and 30.00 at 20%, no rounding involved. */
  lemma SaleExamples(req: SaleRequest, e: Event, id: string)
    ensures req.price == 25.0 && e.commission == 15.0 ==>
              SaleFor(req, e, id).commissionAmount == 3.75 && SaleFor(req, e, id).netAmount == 21.25
    ensures req.price == 30.0 && e.commission == 20.0 ==>
              SaleFor(req, e, id).commissionAmount == 6.0 && SaleFor(req, e, id).netAmount == 24.0
  {
  }

  /** Sales whose commission and net add up to the price. */
  predicate Balanced(ss: seq<PhotoSale>)
  {
    forall k :: 0 <= k < |ss| ==> ss[k].commissionAmount + ss[k].netAmount == ss[k].price
  }

  /** For balanced sales the school's `netRevenue` is the sum of the recorded
      net amounts. */
  lemma {:induction false} NetRevenueIsSumOfNets(ss: seq<PhotoSale>)
    requires Balanced(ss)
    ensures SumReal(ss, PriceOf) - SumReal(ss, CommissionOf) == SumReal(ss, NetOf)
  {
    if ss != [] {
      NetRevenueIsSumOfNets(ss[1..]);
    }
  }

  /** `addPhotoSale` keeps the sale list balanced. */
  lemma AddPhotoSaleKeepsBalance(ss: seq<PhotoSale>, req: SaleRequest, e: Event, id: string)
    requires Balanced(ss)
    ensures Balanced(ss + [SaleFor(req, e, id)])
  {
  }

  /** A blank query searched by name or class matches everyone. */
  lemma BlankQueryMatchesAll(evs: seq<Event>, ps: seq<Participant>, query: string, kind: SearchKind)
    requires AllWhitespace(query)
    requires kind == ByName || kind == ByClass
    ensures Search(evs, ps, query, kind) == ps
  {
    var low := ToLower(query);
    assert AllWhitespace(low);
    TrimEmptyIff(low);
    forall p | p in ps ensures SearchHit(evs, p, Trim(low), kind) {
      ContainsEmpty(ToLower(p.name));
      ContainsEmpty(ToLower(p.className));
    }
    FilterAll(ps, (p: Participant) => SearchHit(evs, p, Trim(low), kind));
  }

  /** A participant whose event is not listed is never found by school. */
  lemma SchoolSearchNeedsEvent(evs: seq<Event>, p: Participant, term: string)
    requires forall e :: e in evs ==> e.id != p.eventId
    ensures !SearchHit(evs, p, term, BySchool)
  {
    EventByIdSpec(evs, p.eventId);
  }
}

=== FILE: Text.dfy ===
/** The JavaScript string primitives the components rely on, written out over
    `seq<char>`: `trim`, the `\s` class, `toLowerCase`, `includes`,
    `endsWith`, `split`, `join`, number-to-string, the `<` order on strings and
    the two `replace` calls that sanitise file names. */
module Text {
  import opened Seqs

  /** WhiteSpace and LineTerminator of ECMAScript: what `trim` strips and `\s` matches. */
  predicate IsWhitespace(c: char)
  {
    c == '\t' || c == '\n' || c == '\U{000B}' || c == '\U{000C}' || c == '\r' || c == ' ' ||
    c == '\U{00A0}' || c == '\U{1680}' || ('\U{2000}' <= c <= '\U{200A}') ||
    c == '\U{2028}' || c == '\U{2029}' || c == '\U{202F}' || c == '\U{205F}' ||
    c == '\U{3000}' || c == '\U{FEFF}'
  }

  /** The characters a regular-expression `.` does not match. */
  predicate IsLineTerminator(c: char)
  {
    c == '\n' || c == '\r' || c == '\U{2028}' || c == '\U{2029}'
  }

  /** `\d`: an ASCII decimal digit. */
  predicate IsDigit(c: char)
  {
    '0' <= c <= '9'
  }

  /** `[a-zA-Z0-9]`. */
  predicate IsAsciiAlnum(c: char)
  {
    ('a' <= c <= 'z') || ('A' <= c <= 'Z') || IsDigit(c)
  }

  predicate AllWhitespace(s: string)
  {
    forall i :: 0 <= i < |s| ==> IsWhitespace(s[i])
  }

  // ----- trim -----

  function TrimStart(s: string): string
  {
    if s != [] && IsWhitespace(s[0]) then TrimStart(s[1..]) else s
  }

  /** `TrimStart` drops a whitespace prefix and stops at the first other character. */
  lemma {:induction false} TrimStartSpec(s: string)
    ensures var r := TrimStart(s);
            |r| <= |s| && r == s[|s| - |r|..] && (r == [] || !IsWhitespace(r[0])) &&
            forall i :: 0 <= i < |s| - |r| ==> IsWhitespace(s[i])
  {
    if s != [] && IsWhitespace(s[0]) {
      var t := s[1..];
      TrimStartSpec(t);
      var r := TrimStart(t);
      assert TrimStart(s) == r;
      assert t[|t| - |r|..] == s[|s| - |r|..];
      forall i | 0 <= i < |s| - |r| ensures IsWhitespace(s[i]) {
        if i > 0 { assert s[i] == t[i - 1]; }
      }
    }
  }

  function TrimEnd(s: string): string
  {
    if s != [] && IsWhitespace(s[|s| - 1]) then TrimEnd(s[..|s| - 1]) else s
  }

  /** `TrimEnd` drops a whitespace suffix and stops at the last other character. */
  lemma {:induction false} TrimEndSpec(s: string)
    ensures var r := TrimEnd(s);
            |r| <= |s| && r == s[..|r|] && (r == [] || !IsWhitespace(r[|r| - 1])) &&
            forall i :: |r| <= i < |s| ==> IsWhitespace(s[i])
  {
    if s != [] && IsWhitespace(s[|s| - 1]) {
      TrimEndSpec(s[..|s| - 1]);
    }
  }

  /** `s.trim()`: `s` less its leading and trailing whitespace. */
  function Trim(s: string): string
  {
    TrimEnd(TrimStart(s))
  }

  /** `trim` removes a run of whitespace from each end and leaves a result
      whose ends are not whitespace. */
  lemma TrimSpec(s: string)
    ensures var r := Trim(s);
            exists i :: 0 <= i <= |s| - |r| && r == s[i..i + |r|] &&
                        AllWhitespace(s[..i]) && AllWhitespace(s[i + |r|..])
    ensures var r := Trim(s);
            r == [] || (!IsWhitespace(r[0]) && !IsWhitespace(r[|r| - 1]))
  {
    var a := TrimStart(s);
    var r := TrimEnd(a);
    TrimStartSpec(s);
    TrimEndSpec(a);
    var i := |s| - |a|;
    assert r == s[i..i + |r|];
    assert AllWhitespace(s[..i]);
    var tail := s[i + |r|..];
    assert AllWhitespace(tail) by {
      forall k | 0 <= k < |tail| ensures IsWhitespace(tail[k]) {
        assert tail[k] == a[|r| + k];
      }
    }
  }

  /** A string trims to "" exactly when it is all whitespace. */
  lemma TrimEmptyIff(s: string)
    ensures Trim(s) == [] <==> AllWhitespace(s)
  {
    TrimSpec(s);
    var r := Trim(s);
    var i :| 0 <= i <= |s| - |r| && r == s[i..i + |r|] &&
             AllWhitespace(s[..i]) && AllWhitespace(s[i + |r|..]);
    if r == [] {
      forall k | 0 <= k < |s| ensures IsWhitespace(s[k]) {
        if k < i { assert s[..i][k] == s[k]; } else { assert s[i..][k - i] == s[k]; }
      }
    } else {
      assert s[i] == r[0];
    }
  }

  /** Trimming an already-trimmed string changes nothing. */
  lemma TrimIdempotent(s: string)
    ensures Trim(Trim(s)) == Trim(s)
  {
    TrimSpec(s);
    var r := Trim(s);
    assert TrimStart(r) == r;
    assert TrimEnd(r) == r;
  }

  /** Neither end is whitespace: what `trim` leaves behind. */
  predicate IsTrimmed(s: string)
  {
    s == [] || (!IsWhitespace(s[0]) && !IsWhitespace(s[|s| - 1]))
  }

  /** What `trim` returns is trimmed. */
  lemma TrimIsTrimmed(s: string)
    ensures IsTrimmed(Trim(s))
  {
    TrimSpec(s);
  }

  lemma TrimOfTrimmed(s: string)
    requires IsTrimmed(s)
    ensures Trim(s) == s
  {
    assert TrimStart(s) == s;
    assert TrimEnd(s) == s;
  }

  /** Trimming removes characters and adds none. */
  lemma TrimLacks(s: string, c: char)
    requires Lacks(s, c)
    ensures Lacks(Trim(s), c)
  {
    TrimSpec(s);
    var r := Trim(s);
    var i :| 0 <= i <= |s| - |r| && r == s[i..i + |r|] &&
             AllWhitespace(s[..i]) && AllWhitespace(s[i + |r|..]);
    forall j | 0 <= j < |r| ensures r[j] != c {
      assert r[j] == s[i..i + |r|][j];
      assert s[i..i + |r|][j] == s[i + j];
    }
  }

  // ----- case -----

  /** `toLowerCase` on one character, for ASCII and Latin-1 letters. */
  function LowerChar(c: char): (d: char)
  {
    if ('A' <= c <= 'Z') || ('\U{00C0}' <= c <= '\U{00DE}' && c != '\U{00D7}')
    then (c as int + 32) as char
    else c
  }

  function ToLower(s: string): (r: string)
    ensures |r| == |s|
    ensures forall i :: 0 <= i < |s| ==> r[i] == LowerChar(s[i])
  {
    if s == [] then [] else [LowerChar(s[0])] + ToLower(s[1..])
  }

  /** Lowercasing is idempotent: no lowercased letter is an upper-case one. */
  lemma ToLowerIdempotent(s: string)
    ensures ToLower(ToLower(s)) == ToLower(s)
  {
    var t := ToLower(s);
    assert forall i :: 0 <= i < |t| ==> LowerChar(t[i]) == t[i];
  }

  // ----- search -----

  /** `needle` occurs in `hay` starting at index `i`. */
  predicate OccursAt(hay: string, needle: string, i: int)
  {
    0 <= i && i + |needle| <= |hay| && hay[i..i + |needle|] == needle
  }

  /** `hay.includes(needle)`. */
  predicate Contains(hay: string, needle: string)
  {
    exists i :: 0 <= i <= |hay| - |needle| && OccursAt(hay, needle, i)
  }

  /** The pieces of a template literal, put together. */
  function Concat(parts: seq<string>): string
  {
    if parts == [] then "" else parts[0] + Concat(parts[1..])
  }

  /** Each piece occurs in the concatenation, right after the pieces
      before it. */
  lemma {:induction false} ConcatOccurs(parts: seq<string>, k: nat)
    requires k < |parts|
    ensures OccursAt(Concat(parts), parts[k], |Concat(parts[..k])|)
  {
    var rest := Concat(parts[1..]);
    assert Concat(parts) == parts[0] + rest;
    if k == 0 {
      assert parts[..0] == [];
      assert (parts[0] + rest)[0..|parts[0]|] == parts[0];
    } else {
      var tail := parts[1..];
      ConcatOccurs(tail, k - 1);
      assert parts[..k] == [parts[0]] + tail[..k - 1];
      assert parts[..k][1..] == tail[..k - 1];
      var j := |Concat(tail[..k - 1])|;
      assert |Concat(parts[..k])| == |parts[0]| + j;
      var x := parts[k];
      assert x == tail[k - 1];
      assert (parts[0] + rest)[|parts[0]| + j..|parts[0]| + j + |x|] == rest[j..j + |x|];
    }
  }

  lemma ContainsEmpty(hay: string)
    ensures Contains(hay, "")
  {
    assert OccursAt(hay, "", 0);
  }

  /** `s.endsWith(suffix)`. */
  predicate EndsWith(s: string, suffix: string)
  {
    |suffix| <= |s| && s[|s| - |suffix|..] == suffix
  }

  /** `s` holds no occurrence of `c`. */
  predicate Lacks(s: string, c: char)
  {
    forall i :: 0 <= i < |s| ==> s[i] != c
  }

  // ----- split and join -----

  /** `s.split(sep)` for a one-character separator: never empty, "" gives [""]. */
  function Split(s: string, sep: char): (r: seq<string>)
    ensures |r| >= 1
    ensures forall k :: 0 <= k < |r| ==> Lacks(r[k], sep)
  {
    if s == [] then [""]
    else if s[0] == sep then [""] + Split(s[1..], sep)
    else
      var rest := Split(s[1..], sep);
      assert Lacks([s[0]] + rest[0], sep);
      [[s[0]] + rest[0]] + rest[1..]
  }

  /** `parts.join(sep)`. */
  function Join(parts: seq<string>, sep: string): string
  {
    if parts == [] then ""
    else if |parts| == 1 then parts[0]
    else parts[0] + sep + Join(parts[1..], sep)
  }

  lemma {:induction false} JoinAppendOne(parts: seq<string>, last: string, sep: string)
    requires parts != []
    ensures Join(parts + [last], sep) == Join(parts, sep) + sep + last
  {
    if |parts| == 1 {
      assert parts + [last] == [parts[0], last];
    } else {
      assert (parts + [last])[1..] == parts[1..] + [last];
      JoinAppendOne(parts[1..], last, sep);
    }
  }

  /** Pieces and separator free of `c` join into a string free of `c`. */
  lemma {:induction false} JoinLacks(parts: seq<string>, sep: string, c: char)
    requires Lacks(sep, c)
    requires forall k :: 0 <= k < |parts| ==> Lacks(parts[k], c)
    ensures Lacks(Join(parts, sep), c)
  {
    if |parts| >= 2 {
      JoinLacks(parts[1..], sep, c);
      var rest := Join(parts[1..], sep);
      var whole := parts[0] + sep + rest;
      forall i | 0 <= i < |whole| ensures whole[i] != c {
        if i < |parts[0]| {
        } else if i < |parts[0]| + |sep| {
          assert whole[i] == sep[i - |parts[0]|];
        } else {
          assert whole[i] == rest[i - |parts[0]| - |sep|];
        }
      }
    } else if |parts| == 1 {
      assert Lacks(parts[0], c);
    }
  }

  /** A join whose first piece starts, and whose last piece ends, with a
      non-whitespace character is left alone by `trim`. */
  lemma JoinTrimmed(parts: seq<string>, sep: string)
    requires |parts| >= 1
    requires parts[0] != [] && !IsWhitespace(parts[0][0])
    requires parts[|parts| - 1] != [] && !IsWhitespace(parts[|parts| - 1][|parts[|parts| - 1]| - 1])
    ensures IsTrimmed(Join(parts, sep))
  {
    if |parts| > 1 {
      var last := parts[|parts| - 1];
      assert parts == parts[..|parts| - 1] + [last];
      JoinAppendOne(parts[..|parts| - 1], last, sep);
      var text := Join(parts, sep);
      assert text == parts[0] + sep + Join(parts[1..], sep);
      assert text[0] == parts[0][0];
    }
  }

  /** Joining the pieces of a split with the same separator gives the input back. */
  lemma {:induction false} JoinSplit(s: string, sep: char)
    ensures Join(Split(s, sep), [sep]) == s
  {
    if s == [] {
    } else if s[0] == sep {
      JoinSplit(s[1..], sep);
    } else {
      var rest := Split(s[1..], sep);
      JoinSplit(s[1..], sep);
      if |rest| == 1 {
      } else {
        assert Join(rest, [sep]) == rest[0] + [sep] + Join(rest[1..], [sep]);
      }
    }
  }

  /** Splitting a join recovers the parts when no part holds the separator. */
  lemma {:induction false} SplitJoin(parts: seq<string>, sep: char)
    requires |parts| >= 1
    requires forall k :: 0 <= k < |parts| ==> Lacks(parts[k], sep)
    ensures Split(Join(parts, [sep]), sep) == parts
  {
    if |parts| == 1 {
      SplitNoSep(parts[0], sep);
    } else {
      SplitJoin(parts[1..], sep);
      SplitPrefix(parts[0], Join(parts[1..], [sep]), sep);
      assert Join(parts, [sep]) == parts[0] + ([sep] + Join(parts[1..], [sep]));
    }
  }

  lemma {:induction false} SplitNoSep(s: string, sep: char)
    requires Lacks(s, sep)
    ensures Split(s, sep) == [s]
  {
    if s != [] {
      assert Lacks(s[1..], sep);
      SplitNoSep(s[1..], sep);
      assert [s[0]] + s[1..] == s;
    }
  }

  /** A separator-free prefix becomes the first piece of the split. */
  lemma {:induction false} SplitPrefix(a: string, b: string, sep: char)
    requires Lacks(a, sep)
    ensures Split(a + [sep] + b, sep) == [a] + Split(b, sep)
  {
    if a == [] {
      assert a + [sep] + b == [sep] + b;
      assert ([sep] + b)[1..] == b;
    } else {
      assert (a + [sep] + b)[1..] == a[1..] + [sep] + b;
      assert Lacks(a[1..], sep);
      SplitPrefix(a[1..], b, sep);
      assert [a[0]] + a[1..] == a;
    }
  }

  // ----- numbers -----

  function DigitChar(d: nat): (c: char)
    requires d < 10
    ensures IsDigit(c)
  {
    ('0' as int + d) as char
  }

  /** `n.toString()` for a non-negative integer. */
  function NatToString(n: nat): (r: string)
    ensures |r| >= 1
    ensures forall i :: 0 <= i < |r| ==> IsDigit(r[i])
    ensures |r| > 1 ==> r[0] != '0'
  {
    if n < 10 then [DigitChar(n)] else NatToString(n / 10) + [DigitChar(n % 10)]
  }

  /** The value of a string of decimal digits. */
  function DecimalValue(s: string): nat
    requires forall i :: 0 <= i < |s| ==> IsDigit(s[i])
  {
    if s == [] then 0
    else
      assert IsDigit(s[|s| - 1]);
      DecimalValue(s[..|s| - 1]) * 10 + (s[|s| - 1] as int - '0' as int)
  }

  /** Reading back the decimal text of `n` gives `n`. */
  lemma {:induction false} DecimalRoundTrip(n: nat)
    ensures DecimalValue(NatToString(n)) == n
  {
    if n >= 10 {
      DecimalRoundTrip(n / 10);
      var s := NatToString(n);
      assert s[..|s| - 1] == NatToString(n / 10);
    }
  }

  /** A number in 100000..999999 prints as exactly six digits, the first not '0'. */
  lemma SixDigitString(n: nat)
    requires 100000 <= n <= 999999
    ensures |NatToString(n)| == 6 && NatToString(n)[0] != '0'
  {
    var a5 := n / 10;
    var a4 := a5 / 10;
    var a3 := a4 / 10;
    var a2 := a3 / 10;
    var a1 := a2 / 10;
    assert 10000 <= a5 && 1000 <= a4 && 100 <= a3 && 10 <= a2 && 1 <= a1 < 10;
    assert |NatToString(a1)| == 1;
    assert |NatToString(a2)| == 2;
    assert |NatToString(a3)| == 3;
    assert |NatToString(a4)| == 4;
    assert |NatToString(a5)| == 5;
  }

  // ----- ordering -----

  /** JavaScript's `a < b` on strings: lexicographic, a proper prefix first. */
  predicate LexLess(a: string, b: string)
  {
    if b == [] then false
    else if a == [] then true
    else if a[0] != b[0] then a[0] < b[0]
    else LexLess(a[1..], b[1..])
  }

  lemma {:induction false} LexLessIrreflexive(a: string)
    ensures !LexLess(a, a)
  {
    if a != [] { LexLessIrreflexive(a[1..]); }
  }

  lemma {:induction false} LexLessTransitive(a: string, b: string, c: string)
    requires LexLess(a, b) && LexLess(b, c)
    ensures LexLess(a, c)
  {
    if a != [] && a[0] == b[0] && b[0] == c[0] {
      LexLessTransitive(a[1..], b[1..], c[1..]);
    }
  }

  /** Any two distinct strings are ordered one way or the other. */
  lemma {:induction false} LexLessTotal(a: string, b: string)
    requires a != b
    ensures LexLess(a, b) || LexLess(b, a)
  {
    if a != [] && b != [] && a[0] == b[0] {
      assert a == [a[0]] + a[1..] && b == [b[0]] + b[1..];
      LexLessTotal(a[1..], b[1..]);
    }
  }

  lemma {:induction false} LexLessAsymmetric(a: string, b: string)
    requires LexLess(a, b)
    ensures !LexLess(b, a)
  {
    if a != [] && b != [] && a[0] == b[0] {
      LexLessAsymmetric(a[1..], b[1..]);
    }
  }

  // ----- replace -----

  /** `s` without its leading characters of the class `sep`. */
  function DropLeading(s: string, sep: char -> bool): (r: string)
    ensures |r| <= |s|
    ensures r == [] || !sep(r[0])
  {
    if s != [] && sep(s[0]) then DropLeading(s[1..], sep) else s
  }

  /** `s.replace(/[sep]+/g, rep)`: every maximal run of characters of the
      class `sep` becomes one `rep`. */
  function ReplaceRuns(s: string, sep: char -> bool, rep: char): (r: string)
    requires !sep(rep)
    ensures |r| <= |s|
    ensures forall i :: 0 <= i < |r| ==> !sep(r[i])
    decreases |s|
  {
    if s == [] then []
    else if sep(s[0]) then
      var rest := ReplaceRuns(DropLeading(s[1..], sep), sep, rep);
      [rep] + rest
    else
      var rest := ReplaceRuns(s[1..], sep, rep);
      [s[0]] + rest
  }

  /** Text with no character of the class is left as it is. */
  lemma {:induction false} ReplaceRunsNone(s: string, sep: char -> bool, rep: char)
    requires !sep(rep)
    requires forall i :: 0 <= i < |s| ==> !sep(s[i])
    ensures ReplaceRuns(s, sep, rep) == s
  {
    if s != [] {
      ReplaceRunsNone(s[1..], sep, rep);
    }
  }

  /** Skipping the class in front of a text that ends outside it stops
      inside that text. */
  lemma {:induction false} DropLeadingAppend(a: string, x: string, sep: char -> bool)
    requires a != [] && !sep(a[|a| - 1])
    ensures DropLeading(a + x, sep) == DropLeading(a, sep) + x
    ensures DropLeading(a, sep) != [] && DropLeading(a, sep)[|DropLeading(a, sep)| - 1] == a[|a| - 1]
  {
    assert (a + x)[0] == a[0];
    if sep(a[0]) {
      assert (a + x)[1..] == a[1..] + x;
      assert a[1..][|a| - 2] == a[|a| - 1];
      DropLeadingAppend(a[1..], x, sep);
    }
  }

  /** Skipping a run of the class up to a character outside it. */
  lemma {:induction false} DropLeadingRun(w: string, v: string, sep: char -> bool)
    requires forall i :: 0 <= i < |w| ==> sep(w[i])
    requires v == [] || !sep(v[0])
    ensures DropLeading(w + v, sep) == v
  {
    if w == [] {
      assert w + v == v;
    } else {
      assert (w + v)[0] == w[0] && (w + v)[1..] == w[1..] + v;
      DropLeadingRun(w[1..], v, sep);
    }
  }

  /** Text that ends outside the class is replaced on its own: no run
      crosses the boundary. */
  lemma {:induction false} ReplaceRunsAppend(u: string, x: string, sep: char -> bool, rep: char)
    requires !sep(rep)
    requires u == [] || !sep(u[|u| - 1])
    ensures ReplaceRuns(u + x, sep, rep) == ReplaceRuns(u, sep, rep) + ReplaceRuns(x, sep, rep)
    decreases |u|
  {
    if u == [] {
      assert u + x == x;
    } else {
      var c, a := u[0], u[1..];
      assert u == [c] + a && u + x == [c] + (a + x);
      ReplaceRunsCons(c, a, sep, rep);
      ReplaceRunsCons(c, a + x, sep, rep);
      var rx := ReplaceRuns(x, sep, rep);
      if sep(c) {
        DropLeadingAppend(a, x, sep);
        var d := DropLeading(a, sep);
        ReplaceRunsAppend(d, x, sep, rep);
        SeqAssoc([rep], ReplaceRuns(d, sep, rep), rx);
      } else {
        ReplaceRunsAppend(a, x, sep, rep);
        SeqAssoc([c], ReplaceRuns(a, sep, rep), rx);
      }
    }
  }

  lemma SeqAssoc(a: string, b: string, c: string)
    ensures a + (b + c) == a + b + c
  {
  }

  /** One step of the replacement. */
  lemma ReplaceRunsCons(c: char, t: string, sep: char -> bool, rep: char)
    requires !sep(rep)
    ensures ReplaceRuns([c] + t, sep, rep) ==
            if sep(c) then [rep] + ReplaceRuns(DropLeading(t, sep), sep, rep) else [c] + ReplaceRuns(t, sep, rep)
  {
    assert ([c] + t)[0] == c && ([c] + t)[1..] == t;
  }

  /** A run at the front becomes one `rep`. */
  lemma ReplaceLeadingRun(w: string, v: string, sep: char -> bool, rep: char)
    requires !sep(rep)
    requires w != [] && forall i :: 0 <= i < |w| ==> sep(w[i])
    requires v == [] || !sep(v[0])
    ensures ReplaceRuns(w + v, sep, rep) == [rep] + ReplaceRuns(v, sep, rep)
  {
    var s := w + v;
    assert sep(s[0]) && s[1..] == w[1..] + v;
    DropLeadingRun(w[1..], v, sep);
  }

  /** A maximal run between `u` and `v` becomes one `rep`, and both sides
      are replaced on their own. */
  lemma ReplaceRunsRun(u: string, w: string, v: string, sep: char -> bool, rep: char)
    requires !sep(rep)
    requires w != [] && forall i :: 0 <= i < |w| ==> sep(w[i])
    requires u == [] || !sep(u[|u| - 1])
    requires v == [] || !sep(v[0])
    ensures ReplaceRuns(u + w + v, sep, rep) == ReplaceRuns(u, sep, rep) + [rep] + ReplaceRuns(v, sep, rep)
  {
    SeqAssoc(u, w, v);
    ReplaceRunsAppend(u, w + v, sep, rep);
    ReplaceLeadingRun(w, v, sep, rep);
    SeqAssoc(ReplaceRuns(u, sep, rep), [rep], ReplaceRuns(v, sep, rep));
  }

  /** `s.replace(/\s+/g, rep)`. */
  function ReplaceWhitespaceRuns(s: string, rep: char): (r: string)
    requires !IsWhitespace(rep)
    ensures |r| <= |s|
    ensures forall i :: 0 <= i < |r| ==> !IsWhitespace(r[i])
  {
    ReplaceRuns(s, IsWhitespace, rep)
  }

  /** A title without whitespace is kept as it is. */
  lemma ReplaceWithoutWhitespace(s: string, rep: char)
    requires !IsWhitespace(rep)
    requires forall i :: 0 <= i < |s| ==> !IsWhitespace(s[i])
    ensures ReplaceWhitespaceRuns(s, rep) == s
  {
    ReplaceRunsNone(s, IsWhitespace, rep);
  }

  /** Each maximal whitespace run becomes exactly one `rep`, and the text on
      either side of it is replaced on its own. */
  lemma ReplaceWhitespaceRun(u: string, w: string, v: string, rep: char)
    requires !IsWhitespace(rep)
    requires w != [] && AllWhitespace(w)
    requires u == [] || !IsWhitespace(u[|u| - 1])
    requires v == [] || !IsWhitespace(v[0])
    ensures ReplaceWhitespaceRuns(u + w + v, rep) ==
            ReplaceWhitespaceRuns(u, rep) + [rep] + ReplaceWhitespaceRuns(v, rep)
  {
    ReplaceRunsRun(u, w, v, IsWhitespace, rep);
  }

  /** `s.replace(/[^a-zA-Z0-9]/g, rep)`. */
  function ReplaceNonAlnum(s: string, rep: char): (r: string)
    ensures |r| == |s|
    ensures forall i :: 0 <= i < |s| ==> r[i] == (if IsAsciiAlnum(s[i]) then s[i] else rep)
  {
    if s == [] then [] else [if IsAsciiAlnum(s[0]) then s[0] else rep] + ReplaceNonAlnum(s[1..], rep)
  }
}

=== FILE: UploadGrouping.dfy ===
/** What the grouping step of `processPhotos` guarantees: one association per
    distinct participant, in first-match order, holding that participant's
    photos in file order; applying them appends exactly those photos; and the
    number of photos applied is the number of successful files. */
module UploadGrouping {
  import opened Seqs
  import opened Domain
  import opened EventsStore
  import opened BatchPhotoUpload

  function Ids(gs: seq<Association>): (r: seq<string>)
    ensures |r| == |gs| && forall i :: 0 <= i < |gs| ==> r[i] == gs[i].participantId
  {
    if gs == [] then [] else Ids(gs[..|gs| - 1]) + [gs[|gs| - 1].participantId]
  }

  function Pids(ups: seq<Upload>): (r: seq<string>)
    ensures |r| == |ups| && forall i :: 0 <= i < |ups| ==> r[i] == ups[i].participantId
  {
    if ups == [] then [] else Pids(ups[..|ups| - 1]) + [ups[|ups| - 1].participantId]
  }

  predicate Distinct(xs: seq<string>)
  {
    forall i, j :: 0 <= i < j < |xs| ==> xs[i] != xs[j]
  }

  /** First occurrences, in order of first appearance. */
  function Dedup(xs: seq<string>): (r: seq<string>)
    ensures Distinct(r)
    ensures forall x :: x in r <==> x in xs
  {
    if xs == [] then []
    else
      var d := Dedup(xs[..|xs| - 1]);
      var x := xs[|xs| - 1];
      assert forall y :: y in xs <==> y in xs[..|xs| - 1] || y == x by {
        assert xs == xs[..|xs| - 1] + [x];
      }
      if x in d then d else d + [x]
  }

  /** The urls uploaded for participant `pid`, in file order. */
  function UrlsFor(ups: seq<Upload>, pid: string): seq<string>
  {
    if ups == [] then []
    else
      var u := ups[|ups| - 1];
      UrlsFor(ups[..|ups| - 1], pid) + (if u.participantId == pid then [u.url] else [])
  }

  /** The photos all associations for `pid` carry, in association order. */
  function GroupPhotos(gs: seq<Association>, pid: string): seq<string>
  {
    if gs == [] then []
    else
      var g := gs[|gs| - 1];
      GroupPhotos(gs[..|gs| - 1], pid) + (if g.participantId == pid then g.photos else [])
  }

  function TotalPhotos(gs: seq<Association>): nat
  {
    if gs == [] then 0 else TotalPhotos(gs[..|gs| - 1]) + |gs[|gs| - 1].photos|
  }

  lemma {:induction false} GroupPhotosOfDistinct(gs: seq<Association>, pid: string)
    requires Distinct(Ids(gs))
    ensures forall k :: 0 <= k < |gs| && gs[k].participantId == pid ==> GroupPhotos(gs, pid) == gs[k].photos
    ensures (forall k :: 0 <= k < |gs| ==> gs[k].participantId != pid) ==> GroupPhotos(gs, pid) == []
  {
    if gs != [] {
      var init := gs[..|gs| - 1];
      assert Ids(init) == Ids(gs)[..|gs| - 1];
      GroupPhotosOfDistinct(init, pid);
      if gs[|gs| - 1].participantId == pid {
        assert forall k :: 0 <= k < |init| ==> init[k].participantId != pid by {
          forall k | 0 <= k < |init| ensures init[k].participantId != pid {
            assert Ids(gs)[k] != Ids(gs)[|gs| - 1];
          }
        }
      }
    }
  }

  lemma {:induction false} TotalPhotosUpdate(gs: seq<Association>, k: nat, g: Association)
    requires k < |gs|
    ensures TotalPhotos(gs[k := g]) + |gs[k].photos| == TotalPhotos(gs) + |g.photos|
  {
    var n := |gs| - 1;
    if k == n {
      assert gs[k := g][..n] == gs[..n];
    } else {
      assert gs[k := g][..n] == gs[..n][k := g];
      TotalPhotosUpdate(gs[..n], k, g);
    }
  }

  /** Replacing an association of another participant leaves `pid`'s
      photos as they were. */
  lemma {:induction false} GroupPhotosUpdateOther(gs: seq<Association>, k: nat, g: Association, pid: string)
    requires k < |gs| && gs[k].participantId != pid && g.participantId != pid
    ensures GroupPhotos(gs[k := g], pid) == GroupPhotos(gs, pid)
  {
    var n := |gs| - 1;
    if k == n {
      assert gs[k := g][..n] == gs[..n];
    } else {
      assert gs[k := g][..n] == gs[..n][k := g];
      GroupPhotosUpdateOther(gs[..n], k, g, pid);
    }
  }

  /** One step of the grouping keeps ids distinct and extends the id list
      only with a new participant. */
  lemma AddToGroupsIds(gs: seq<Association>, u: Upload)
    requires Distinct(Ids(gs))
    ensures Distinct(Ids(AddToGroups(gs, u)))
    ensures Ids(AddToGroups(gs, u)) == if u.participantId in Ids(gs) then Ids(gs) else Ids(gs) + [u.participantId]
  {
    var r := AddToGroups(gs, u);
    match FindIndex(gs, (a: Association) => a.participantId == u.participantId)
    case None =>
      assert r[..|gs|] == gs;
      assert u.participantId !in Ids(gs);
    case Some(k) =>
      var g := gs[k].(photos := gs[k].photos + [u.url]);
      assert r == gs[k := g];
      assert Ids(r) == Ids(gs);
      assert Ids(gs)[k] == u.participantId;
  }

  /** One step of the grouping adds exactly one url, to exactly the
      upload's participant. */
  lemma AddToGroupsPhotos(gs: seq<Association>, u: Upload)
    requires Distinct(Ids(gs))
    ensures forall pid :: GroupPhotos(AddToGroups(gs, u), pid) ==
                          GroupPhotos(gs, pid) + (if u.participantId == pid then [u.url] else [])
  {
    var r := AddToGroups(gs, u);
    AddToGroupsIds(gs, u);
    match FindIndex(gs, (a: Association) => a.participantId == u.participantId)
    case None =>
      assert r[..|gs|] == gs;
    case Some(k) =>
      var g := gs[k].(photos := gs[k].photos + [u.url]);
      assert r == gs[k := g];
      assert gs[k].participantId == u.participantId;
      forall pid ensures GroupPhotos(r, pid) == GroupPhotos(gs, pid) + (if u.participantId == pid then [u.url] else []) {
        if pid == u.participantId {
          GroupPhotosOfDistinct(gs, pid);
          GroupPhotosOfDistinct(r, pid);
          assert r[k] == g;
        } else {
          GroupPhotosUpdateOther(gs, k, g, pid);
        }
      }
  }

  /** One step of the grouping adds one photo in all. */
  lemma AddToGroupsTotal(gs: seq<Association>, u: Upload)
    ensures TotalPhotos(AddToGroups(gs, u)) == TotalPhotos(gs) + 1
  {
    var r := AddToGroups(gs, u);
    match FindIndex(gs, (a: Association) => a.participantId == u.participantId)
    case None =>
      assert r[..|gs|] == gs;
    case Some(k) =>
      var g := gs[k].(photos := gs[k].photos + [u.url]);
      assert r == gs[k := g];
      TotalPhotosUpdate(gs, k, g);
  }

  /** One step of the grouping keeps ids distinct, extends the id list only
      with a new participant, and adds exactly one url to exactly that
      participant. */
  lemma AddToGroupsStep(gs: seq<Association>, u: Upload)
    requires Distinct(Ids(gs))
    ensures Distinct(Ids(AddToGroups(gs, u)))
    ensures Ids(AddToGroups(gs, u)) == if u.participantId in Ids(gs) then Ids(gs) else Ids(gs) + [u.participantId]
    ensures forall pid :: GroupPhotos(AddToGroups(gs, u), pid) ==
                          GroupPhotos(gs, pid) + (if u.participantId == pid then [u.url] else [])
    ensures TotalPhotos(AddToGroups(gs, u)) == TotalPhotos(gs) + 1
  {
    AddToGroupsIds(gs, u);
    AddToGroupsPhotos(gs, u);
    AddToGroupsTotal(gs, u);
  }

  /** The associations have distinct participants, listed in order of their
      first successful file. */
  lemma {:induction false} GroupsInFirstMatchOrder(ups: seq<Upload>)
    ensures Distinct(Ids(Groups(ups)))
    ensures Ids(Groups(ups)) == Dedup(Pids(ups))
  {
    if ups != [] {
      var init := ups[..|ups| - 1];
      GroupsInFirstMatchOrder(init);
      assert Pids(init) == Pids(ups)[..|ups| - 1];
      AddToGroupsStep(Groups(init), ups[|ups| - 1]);
    }
  }

  /** Each participant's association holds exactly its files' photos, in file order. */
  lemma {:induction false} GroupsCollectInFileOrder(ups: seq<Upload>, pid: string)
    ensures GroupPhotos(Groups(ups), pid) == UrlsFor(ups, pid)
  {
    if ups != [] {
      var init := ups[..|ups| - 1];
      GroupsCollectInFileOrder(init, pid);
      GroupsInFirstMatchOrder(init);
      AddToGroupsStep(Groups(init), ups[|ups| - 1]);
    }
  }

  /** No photo is lost or duplicated by the grouping. */
  lemma {:induction false} GroupsTotal(ups: seq<Upload>)
    ensures TotalPhotos(Groups(ups)) == |ups|
  {
    if ups != [] {
      var init := ups[..|ups| - 1];
      GroupsTotal(init);
      GroupsInFirstMatchOrder(init);
      AddToGroupsStep(Groups(init), ups[|ups| - 1]);
    }
  }

  /** Applying associations appends, to every participant, the photos of all
      associations naming it, and changes nothing else. */
  lemma {:induction false} ApplyGroupsEffect(ps: seq<Participant>, gs: seq<Association>)
    ensures forall i :: 0 <= i < |ps| ==>
              ApplyGroups(ps, gs)[i] == ps[i].(photos := ps[i].photos + GroupPhotos(gs, ps[i].id))
  {
    if gs != [] {
      var init := gs[..|gs| - 1];
      var g := gs[|gs| - 1];
      var prev := ApplyGroups(ps, init);
      ApplyGroupsEffect(ps, init);
      forall i | 0 <= i < |ps|
        ensures ApplyGroups(ps, gs)[i] == ps[i].(photos := ps[i].photos + GroupPhotos(gs, ps[i].id))
      {
        var before := GroupPhotos(init, ps[i].id);
        assert prev[i] == ps[i].(photos := ps[i].photos + before);
        if g.participantId == ps[i].id {
          assert GroupPhotos(gs, ps[i].id) == before + g.photos;
          assert ps[i].photos + before + g.photos == ps[i].photos + (before + g.photos);
        } else {
          assert GroupPhotos(gs, ps[i].id) == before + [];
          assert before + [] == before;
        }
      }
    } else {
      forall i | 0 <= i < |ps| ensures ApplyGroups(ps, gs)[i] == ps[i].(photos := ps[i].photos + []) {
        assert ps[i].photos + [] == ps[i].photos;
      }
    }
  }

  /** The whole batch: every participant of the store ends with its old photos
      followed by the photos of its successful files, in file order. */
  lemma UploadEffect(ps: seq<Participant>, roster: seq<Participant>, files: seq<UploadFile>, stamps: seq<string>)
    requires |stamps| == |files|
    ensures var ups := Uploads(roster, files, stamps, |files|);
            forall i :: 0 <= i < |ps| ==>
              ApplyGroups(ps, Groups(ups))[i] == ps[i].(photos := ps[i].photos + UrlsFor(ups, ps[i].id))
  {
    var ups := Uploads(roster, files, stamps, |files|);
    ApplyGroupsEffect(ps, Groups(ups));
    forall i | 0 <= i < |ps| ensures GroupPhotos(Groups(ups), ps[i].id) == UrlsFor(ups, ps[i].id) {
      GroupsCollectInFileOrder(ups, ps[i].id);
    }
  }

  /** As many photos are applied as there are successful results. */
  lemma {:induction false} UploadsMatchSuccesses(roster: seq<Participant>, files: seq<UploadFile>,
                                                 stamps: seq<string>, results: seq<Outcome>, n: nat)
    requires |stamps| == |files| && n <= |files| && |results| == n
    requires forall j :: 0 <= j < n ==> results[j] == Classify(roster, files[j])
    ensures TotalPhotos(Groups(Uploads(roster, files, stamps, n))) == SuccessCount(results)
  {
    GroupsTotal(Uploads(roster, files, stamps, n));
    if n > 0 {
      UploadsMatchSuccesses(roster, files, stamps, results[..n - 1], n - 1);
      GroupsTotal(Uploads(roster, files, stamps, n - 1));
      ClassifyCases(roster, files[n - 1]);
    }
  }
}

=== FILE: Utils.dfy ===
/** The helpers of src/lib/utils.ts: the six-digit participant code and the
    naive comma-separated import. */
module Utils {
  import opened Seqs
  import opened Text

  /** `generateQRCode()`: `draw` stands for `Math.floor(Math.random() * 900000)`,
      an integer in 0..899999; the code is the decimal text of `100000 + draw`. */
  function GenerateQRCode(draw: nat): (code: string)
    requires draw < 900000
    ensures |code| == 6 && code[0] != '0'
    ensures forall i :: 0 <= i < |code| ==> IsDigit(code[i])
    ensures DecimalValue(code) == 100000 + draw
    ensures 100000 <= DecimalValue(code) <= 999999
  {
    SixDigitString(100000 + draw);
    DecimalRoundTrip(100000 + draw);
    NatToString(100000 + draw)
  }

  /** Different draws give different codes. */
  lemma GenerateQRCodeInjective(d1: nat, d2: nat)
    requires d1 < 900000 && d2 < 900000
    ensures GenerateQRCode(d1) == GenerateQRCode(d2) <==> d1 == d2
  {
  }

  datatype CsvRow = CsvRow(name: string, className: string, kind: string)

  /** `values[k] || ''`. */
  function Cell(values: seq<string>, k: nat): string
  {
    if k < |values| then values[k] else ""
  }

  /** `xs.map(v => v.trim())`. */
  function TrimAll(xs: seq<string>): (r: seq<string>)
    ensures |r| == |xs|
    ensures forall i :: 0 <= i < |xs| ==> r[i] == Trim(xs[i])
  {
    if xs == [] then [] else [Trim(xs[0])] + TrimAll(xs[1..])
  }

  /** One data line: split on ',', trim, take the first three cells. */
  function RowOf(line: string): (row: CsvRow)
    ensures IsTrimmed(row.name) && IsTrimmed(row.className) && IsTrimmed(row.kind)
    ensures Lacks(row.name, ',') && Lacks(row.className, ',') && Lacks(row.kind, ',')
  {
    var pieces := Split(line, ',');
    var values := TrimAll(pieces);
    TrimmedCells(pieces, ',');
    CsvRow(Cell(values, 0), Cell(values, 1), Cell(values, 2))
  }

  /** Every cell of trimmed pieces free of `c` is trimmed and free of `c`. */
  lemma TrimmedCells(pieces: seq<string>, c: char)
    requires forall k :: 0 <= k < |pieces| ==> Lacks(pieces[k], c)
    ensures forall k: nat :: IsTrimmed(Cell(TrimAll(pieces), k)) && Lacks(Cell(TrimAll(pieces), k), c)
  {
    var values := TrimAll(pieces);
    forall k: nat ensures IsTrimmed(Cell(values, k)) && Lacks(Cell(values, k), c) {
      if k < |values| {
        TrimIsTrimmed(pieces[k]);
        TrimLacks(pieces[k], c);
      }
    }
  }

  /** The `.filter(row => row.name && row.class && row.type)` test. */
  predicate Complete(row: CsvRow)
  {
    row.name != "" && row.className != "" && row.kind != ""
  }

  /** The data lines, parsed and filtered, in input order. */
  function ParseLines(lines: seq<string>): (rows: seq<CsvRow>)
    ensures |rows| <= |lines|
    ensures forall r :: r in rows ==> Complete(r) && IsTrimmed(r.name) &&
                                      IsTrimmed(r.className) && IsTrimmed(r.kind)
  {
    if lines == [] then []
    else
      var row := RowOf(lines[0]);
      var rest := ParseLines(lines[1..]);
      if Complete(row) then [row] + rest else rest
  }

  /** `lines.map(...)` before the filter: one row per line. */
  function RowsOf(lines: seq<string>): (rows: seq<CsvRow>)
    ensures |rows| == |lines|
    ensures forall i :: 0 <= i < |lines| ==> rows[i] == RowOf(lines[i])
  {
    if lines == [] then [] else [RowOf(lines[0])] + RowsOf(lines[1..])
  }

  /** The kept rows are the complete rows of the lines, filtered in order. */
  lemma {:induction false} ParseLinesIsFilter(lines: seq<string>)
    ensures ParseLines(lines) == Filter(RowsOf(lines), Complete)
  {
    if lines != [] {
      ParseLinesIsFilter(lines[1..]);
      assert RowsOf(lines)[0] == RowOf(lines[0]);
      assert RowsOf(lines)[1..] == RowsOf(lines[1..]);
    }
  }

  /** The kept rows are exactly the complete rows of the lines: in line
      order, each as often as it occurs, and no complete row is dropped. */
  lemma ParseLinesSpec(lines: seq<string>)
    ensures ParseLines(lines) == Filter(RowsOf(lines), Complete)
    ensures IsSubsequence(ParseLines(lines), RowsOf(lines))
    ensures forall i :: 0 <= i < |lines| && Complete(RowOf(lines[i])) ==> RowOf(lines[i]) in ParseLines(lines)
    ensures forall r :: multiset(ParseLines(lines))[r] == if Complete(r) then multiset(RowsOf(lines))[r] else 0
  {
    ParseLinesIsFilter(lines);
    var rows := RowsOf(lines);
    FilterMultiplicity(rows, Complete);
    forall i | 0 <= i < |lines| && Complete(RowOf(lines[i]))
      ensures RowOf(lines[i]) in ParseLines(lines)
    {
      assert rows[i] in rows;
    }
  }

  /** `parseCSV(csvText)`: the header line is skipped and never read. */
  function ParseCSV(csvText: string): (rows: seq<CsvRow>)
    ensures |rows| <= |Split(Trim(csvText), '\n')| - 1
    ensures forall r :: r in rows ==> Complete(r) && IsTrimmed(r.name) &&
                                      IsTrimmed(r.className) && IsTrimmed(r.kind)
  {
    var lines := Split(Trim(csvText), '\n');
    ParseLines(lines[1..])
  }

  /** `parseCSV` keeps exactly the complete rows of the lines after the
      first, in order. */
  lemma ParseCSVSpec(csvText: string)
    ensures var lines := Split(Trim(csvText), '\n')[1..];
            ParseCSV(csvText) == Filter(RowsOf(lines), Complete) &&
            (forall i :: 0 <= i < |lines| && Complete(RowOf(lines[i])) ==> RowOf(lines[i]) in ParseCSV(csvText))
  {
    ParseLinesSpec(Split(Trim(csvText), '\n')[1..]);
  }

  /** Empty input, blank input and a header with no data line give no rows. */
  lemma ParseCSVHeaderOnly(csvText: string)
    requires Lacks(Trim(csvText), '\n')
    ensures ParseCSV(csvText) == []
  {
    SplitNoSep(Trim(csvText), '\n');
  }

  /** A row the parser can reproduce: non-empty trimmed cells free of the
      separators. */
  predicate Writable(row: CsvRow)
  {
    Complete(row) && IsTrimmed(row.name) && IsTrimmed(row.className) && IsTrimmed(row.kind) &&
    Lacks(row.name, ',') && Lacks(row.className, ',') && Lacks(row.kind, ',') &&
    Lacks(row.name, '\n') && Lacks(row.className, '\n') && Lacks(row.kind, '\n')
  }

  function RowLine(row: CsvRow): string
  {
    Join([row.name, row.className, row.kind], ",")
  }

  function RowLines(rows: seq<CsvRow>): (lines: seq<string>)
    ensures |lines| == |rows|
    ensures forall k :: 0 <= k < |rows| ==> lines[k] == RowLine(rows[k])
  {
    if rows == [] then [] else [RowLine(rows[0])] + RowLines(rows[1..])
  }

  /** A header line followed by one comma-joined line per row. */
  function CsvText(header: string, rows: seq<CsvRow>): string
  {
    Join([header] + RowLines(rows), "\n")
  }

  lemma RowOfRowLine(row: CsvRow)
    requires Writable(row)
    ensures RowOf(RowLine(row)) == row
  {
    var parts := [row.name, row.className, row.kind];
    SplitJoin(parts, ',');
    TrimOfTrimmed(row.name);
    TrimOfTrimmed(row.className);
    TrimOfTrimmed(row.kind);
  }

  lemma {:induction false} ParseLinesRowLines(rows: seq<CsvRow>)
    requires forall r :: r in rows ==> Writable(r)
    ensures ParseLines(RowLines(rows)) == rows
  {
    if rows != [] {
      RowOfRowLine(rows[0]);
      assert RowLines(rows)[1..] == RowLines(rows[1..]);
      ParseLinesRowLines(rows[1..]);
    }
  }

  lemma RowLineTrimmedEnds(row: CsvRow)
    requires Writable(row)
    ensures RowLine(row) != [] && !IsWhitespace(RowLine(row)[|RowLine(row)| - 1])
    ensures Lacks(RowLine(row), '\n')
  {
    JoinAppendOne([row.name, row.className], row.kind, ",");
    assert [row.name, row.className] + [row.kind] == [row.name, row.className, row.kind];
    JoinLacks([row.name, row.className, row.kind], ",", '\n');
  }

  lemma CsvLinesLackNewline(header: string, rows: seq<CsvRow>)
    requires Lacks(header, '\n')
    requires forall r :: r in rows ==> Writable(r)
    ensures forall k :: 0 <= k < |[header] + RowLines(rows)| ==> Lacks(([header] + RowLines(rows))[k], '\n')
  {
    var lines := [header] + RowLines(rows);
    forall k | 0 <= k < |lines| ensures Lacks(lines[k], '\n') {
      if k > 0 {
        assert rows[k - 1] in rows;
        RowLineTrimmedEnds(rows[k - 1]);
      }
    }
  }

  /** Parsing what a header and writable rows serialise to gives the rows back. */
  lemma ParseCSVRoundTrip(header: string, rows: seq<CsvRow>)
    requires header != [] && IsTrimmed(header) && Lacks(header, '\n')
    requires forall r :: r in rows ==> Writable(r)
    ensures ParseCSV(CsvText(header, rows)) == rows
  {
    var lines := [header] + RowLines(rows);
    var last := lines[|lines| - 1];
    if rows != [] {
      assert rows[|rows| - 1] in rows;
      RowLineTrimmedEnds(rows[|rows| - 1]);
    }
    JoinTrimmed(lines, "\n");
    TrimOfTrimmed(Join(lines, "\n"));
    CsvLinesLackNewline(header, rows);
    SplitJoin(lines, '\n');
    assert lines[1..] == RowLines(rows);
    ParseLinesRowLines(rows);
  }
}

=== FILE: WelcomeModal.dfy ===
/** The onboarding modal (WelcomeModal.tsx): a three-step tour whose
    current step only moves forward one at a time ('Próximo'), back one at
    a time ('Anterior', shown past the first step), and whose last step or
    the skip buttons record the onboarding as completed and close the
    modal. The `localStorage` flag is the `completed` field; `onClose` is
    modelled by clearing `isOpen`. */
module WelcomeModal {
  import opened Seqs

  /** `steps.length`. */
  const StepCount: nat := 3

  /** The state the modal's handlers act on. */
  datatype ModalState = ModalState(step: nat, isOpen: bool, completed: bool)

  /** The state of a freshly mounted, open modal. */
  const Start := ModalState(0, true, false)

  /** The step index always names one of the steps. */
  predicate ValidState(s: ModalState)
  {
    s.step < StepCount
  }

  /** `nextStep`: below the last step, advance; on the last step, mark
      onboarding as completed and close, leaving the step where it is. */
  function NextOf(s: ModalState): (r: ModalState)
  {
    if s.step < StepCount - 1 then s.(step := s.step + 1)
    else s.(isOpen := false, completed := true)
  }

  /** The 'Anterior' button, which exists only past the first step. */
  function BackOf(s: ModalState): (r: ModalState)
    requires s.step > 0
  {
    s.(step := s.step - 1)
  }

  /** `skipOnboarding`: mark as completed and close. */
  function SkipOf(s: ModalState): (r: ModalState)
  {
    s.(isOpen := false, completed := true)
  }

  /** The state after pressing 'Próximo' `n` times in a row. */
  function NextTimes(s: ModalState, n: nat): ModalState
    decreases n
  {
    if n == 0 then s else NextTimes(NextOf(s), n - 1)
  }

  /** Every handler keeps the step within the steps; moving forward or back
      changes it by exactly one, and only finishing or skipping closes the
      modal, always recording completion. */
  lemma HandlersKeepValid(s: ModalState)
    requires ValidState(s)
    ensures ValidState(NextOf(s)) && ValidState(SkipOf(s))
    ensures s.step > 0 ==> ValidState(BackOf(s)) && BackOf(s).step + 1 == s.step
    ensures NextOf(s).step == s.step + 1 <==> s.step < StepCount - 1
    ensures s.isOpen && !NextOf(s).isOpen ==> NextOf(s).completed
    ensures s.isOpen && !NextOf(s).isOpen <==> s.isOpen && s.step == StepCount - 1
  {
  }

  /** 'Anterior' undoes 'Próximo' whenever 'Próximo' advanced. */
  lemma BackUndoesNext(s: ModalState)
    requires ValidState(s) && s.step < StepCount - 1
    ensures BackOf(NextOf(s)) == s
  {
  }

  /** From any step the tour stays open for `StepCount - 1 - step` presses
      of 'Próximo' and the next press completes it; from the start that is
      three presses in all. */
  lemma {:induction false} PressesToFinish(s: ModalState, n: nat)
    requires ValidState(s) && s.isOpen && !s.completed
    ensures n <= StepCount - 1 - s.step ==>
              NextTimes(s, n) == s.(step := s.step + n)
    ensures n == StepCount - s.step ==>
              NextTimes(s, n) == ModalState(StepCount - 1, false, true)
    decreases n
  {
    if n > 0 {
      if s.step < StepCount - 1 {
        PressesToFinish(NextOf(s), n - 1);
      }
    }
  }

  lemma TourFromStart()
    ensures NextTimes(Start, 2).isOpen && NextTimes(Start, 2).step == 2
    ensures NextTimes(Start, 3) == ModalState(2, false, true)
  {
    PressesToFinish(Start, 2);
    PressesToFinish(Start, 3);
  }

  /** The progress bar: segment `i` is coloured when `i <= currentStep`. */
  function Progress(step: nat): seq<bool>
  {
    seq(StepCount, i => i <= step)
  }

  function IsLit(b: bool): bool
  {
    b
  }

  /** The bar has one segment per step; the coloured ones are exactly the
      first `step + 1`, so their number tells how far the tour has got. */
  lemma ProgressSpec(step: nat)
    requires step < StepCount
    ensures |Progress(step)| == StepCount
    ensures forall i :: 0 <= i < StepCount ==> (Progress(step)[i] <==> i <= step)
    ensures Count(Progress(step), IsLit) == step + 1
  {
    ProgressSegments(step);
    CountThree(true, 1 <= step, 2 <= step);
  }

  lemma ProgressSegments(step: nat)
    ensures Progress(step) == [true, 1 <= step, 2 <= step]
  {
    var p := Progress(step);
    assert |p| == 3 && p[0] && (p[1] <==> 1 <= step) && (p[2] <==> 2 <= step);
  }

  /** Counting three flags one by one. */
  lemma CountThree(a: bool, b: bool, c: bool)
    ensures Count([a, b, c], IsLit) == (if a then 1 else 0) + (if b then 1 else 0) + (if c then 1 else 0)
  {
    assert [a, b, c] == [a] + [b, c] && [b, c] == [b] + [c] && [c] == [c] + [];
    CountCons(a, [b, c], IsLit);
    CountCons(b, [c], IsLit);
    CountCons(c, [], IsLit);
  }

  /** The forward button reads 'Começar!' on the last step and 'Próximo'
      elsewhere. */
  function NextLabel(step: nat): (r: string)
  {
    if step == StepCount - 1 then "Come\U{E7}ar!" else "Pr\U{F3}ximo"
  }

  /** The label announces what the button does: 'Começar!' exactly when
      pressing it closes an open modal, 'Próximo' exactly when it advances. */
  lemma NextLabelTellsOutcome(s: ModalState)
    requires ValidState(s) && s.isOpen
    ensures NextLabel(s.step) == "Come\U{E7}ar!" <==> !NextOf(s).isOpen
    ensures NextLabel(s.step) == "Pr\U{F3}ximo" <==> NextOf(s).step == s.step + 1
  {
    assert "Come\U{E7}ar!"[0] != "Pr\U{F3}ximo"[0];
  }

  class WelcomeModalState {
    var currentStep: nat
    var isOpen: bool
    var completed: bool

    function State(): ModalState
      reads this
    {
      ModalState(currentStep, isOpen, completed)
    }

    constructor()
      ensures State() == Start
    {
      currentStep := 0;
      isOpen := true;
      completed := false;
    }

    method NextStep()
      modifies this
      ensures State() == NextOf(old(State()))
    {
      if currentStep < StepCount - 1 {
        currentStep := currentStep + 1;
      } else {
        completed := true;
        isOpen := false;
      }
    }

    method Back()
      requires currentStep > 0
      modifies this
      ensures State() == BackOf(old(State()))
    {
      currentStep := currentStep - 1;
    }

    method SkipOnboarding()
      modifies this
      ensures State() == SkipOf(old(State()))
    {
      completed := true;
      isOpen := false;
    }
  }
}
